=== FILE: README.md ===
# tui-transcript, modelled in Dafny

tui-transcript turns local video and audio files into text through a speech-to-text service. It then
exports each transcript as a Markdown file or a Google Docs document. A history ledger remembers what
was already exported, so a file is not processed twice, and it numbers or de-duplicates the titles.
The batch pipeline of `services/pipeline.py` runs behind a small web API; the terminal UI's dashboard
keeps its own copy of the loop and does not call it. The API has routes to upload files, read and
change the configuration, start a run, and follow its progress as a stream of Server-Sent Events.

This project models the core of that system as pure Dafny functions and methods over immutable data:

- `common.dfy`: `Option`, an `Outcome` for a step that either returns or raises, and an `Http` result
  for a route (a body, or a status code with a detail).
- `text.dfy`, `paths.dfy`: the parts of Python's `str` and `pathlib` the core relies on. These are
  `str(int)`, `find`/`rfind`, ASCII `lower`, and a path's `name`, `suffix` and `stem`.
- `models.dfy`: the enumerations, `AppConfig` and its derived output mode, `VideoJob`, and
  `build_doc_title`.
- `history.dfy`: the SQLite ledger as an append-only `seq<Record>`. It has the next-number query, the
  skip query, the title query and `record`.
- `markdown_export.dfy`: file-name sanitising, the output path and the file body.
- `transcription.dfy`: the media adapter. It decides when to extract audio, which advisory it reports,
  which transcript field it returns, and when its temporary directory is removed. Every external step
  is an outcome in a `World`.
- `pipeline.dfy`: `run_pipeline`. It is a loop over the jobs. The callbacks become a list of `Event`s.
  What the outside world does for one job (stat, adapter, exporter, ledger write) is one `JobWorld`.
- `config_store.dfy`, `config_routes.dfy`: the `.env` store as an abstract key/value file, and the
  `/config` routes.
- `api_state.dfy`: the in-memory upload and session registries, with the uploaded files on disk as a
  map from path to size.
- `file_routes.dfy`: `POST /files/upload`, with the extension filter and the duplicate-name loop.
- `transcription_routes.dfy`: `POST /transcription/start`, the background task that turns callbacks
  into queue items, the SSE framing, and the progress stream.

In sequential naming mode the code takes the ledger's next number `n`, which already counts from 1.
It records `n` as the row's number. It then calls `build_doc_title` with `n`, and that call adds one
again. So the first title on a fresh ledger is `prefix_2` while its recorded number is 1, although the
settings screen labels the mode "Sequential  (Prefix_1, Prefix_2, ...)"
(src/tui_transcript/screens/config.py:94). The model follows the code:
`Pipeline.FirstSequentialTitle` states this behaviour, and every pipeline contract uses it.

## Model

| member | source | states |
|---|---|---|
| Models.ParseNamingMode | src/tui_transcript/models.py:8-10 | Looking up a naming mode by its stored value succeeds exactly for "sequential" and "original", and returns the mode with that value |
| Models.ParseNamingModeInverse | src/tui_transcript/models.py:8-10 | Every naming mode is found again from its own stored value |
| Models.DefaultConfig | src/tui_transcript/models.py:42-48 | A default configuration names sequential mode, prefix "Transcripcion" and "./output", has empty credentials, and so exports Markdown |
| Models.OutputModeOf | src/tui_transcript/models.py:50-54 | The output mode is Google Docs exactly when both the service-account file and the folder id are non-empty, and Markdown otherwise |
| Models.LanguageLabel | src/tui_transcript/models.py:26-38 | A known language code shows its display name; any other code shows itself |
| Models.NewJob | src/tui_transcript/models.py:57-67 | A new job is PENDING, in "es", with empty transcript, document id, URL, output path and error |
| Models.BuildDocTitleShape | src/tui_transcript/models.py:70-73 | Every title starts with the prefix and "_"; in original mode the rest is the file's stem |
| Models.OriginalTitleIgnoresIndex | src/tui_transcript/models.py:73 | In original mode the index has no effect on the title |
| Models.SequentialTitleNumbering | src/tui_transcript/models.py:71-72 | In sequential mode the numeral after the prefix reads as index + 1, and two indexes give the same title only if they are equal |
| History.MaxSequentialIsMax | src/tui_transcript/services/history.py:43-48 | The aggregate is NULL exactly when no row has the prefix and sequential naming; otherwise it is the largest number among those rows, and some such row holds it |
| History.NextSequentialBound | src/tui_transcript/services/history.py:41-49 | The next number is greater than every counted number; it is 1 when none counts and one past the largest otherwise |
| History.NextSequentialIgnoresOthers | src/tui_transcript/services/history.py:44-47 | Adding a row of another prefix or of original naming leaves the next number unchanged |
| History.NextSequentialAfterRecord | src/tui_transcript/services/history.py:41-49 | After number n is recorded for a prefix, the next number is above n; recording the number that was next moves it on by exactly one |
| History.IsAlreadyProcessedFinds | src/tui_transcript/services/history.py:51-60 | The skip query is true exactly when some row matches the source path, prefix and output mode together |
| History.OutputTitleExistsFinds | src/tui_transcript/services/history.py:62-71 | The title query is true exactly when some row has that title and output mode, whatever its prefix or naming mode |
| History.UsedTitlesAnswersQuery | src/tui_transcript/services/history.py:62-71 | The set of used titles for an output mode contains a title exactly when the title query says it is used |
| History.AppendIsVisible | src/tui_transcript/services/history.py:92-110 | `record` adds exactly one row after the old ones, and later queries in the same run see it |
| History.AppendIsMonotonic | src/tui_transcript/services/history.py:77-110 | Appending never turns a query's yes into no; the skip answer changes only for the appended row's own (source, prefix, mode) |
| MarkdownExport.SafeName | src/tui_transcript/services/markdown_export.py:13-15 | The sanitised name has the title's length; each character is kept if it is alphanumeric, '-', '_' or space, and becomes '_' otherwise |
| MarkdownExport.SafeNameIsSafe | src/tui_transcript/services/markdown_export.py:13-15 | The sanitised name holds only safe characters, so it has no '/' and no '.' |
| MarkdownExport.SafeNameIdempotent | src/tui_transcript/services/markdown_export.py:13-15 | A title of safe characters is its own name, and sanitising twice gives the same name as once |
| MarkdownExport.OutputPathParts | src/tui_transcript/services/markdown_export.py:16 | The file is directly in the output directory, named after the sanitised title, with suffix ".md" |
| MarkdownExport.FileBodyRoundTrip | src/tui_transcript/services/markdown_export.py:17-19 | For a one-line title, reading the written body back gives the unsanitised title from the heading and the exact transcript |
| MarkdownExport.Export | src/tui_transcript/services/markdown_export.py:11-20 | The returned path is named after the sanitised title with ".md", and the written body reads back as the title and transcript |
| Transcription.AudioCheckIgnoresCase | src/tui_transcript/services/transcription.py:38-39 | A file counts as audio exactly when its lower-cased extension is one of the seven audio extensions, so ".MP3" and ".mp3" count alike |
| Transcription.SelectTranscript | src/tui_transcript/services/transcription.py:101-106 | The paragraph text if it is non-empty, else the flat text if it is non-empty, else ""; a non-empty result is one of the two fields |
| Transcription.TranscribeDecided | src/tui_transcript/services/transcription.py:59-110 | Audio is extracted exactly for non-audio files when ffmpeg is present. The ffmpeg-missing advisory is reported only for non-audio files without ffmpeg, and the audio note only for audio files. The result succeeds exactly when every step on the file's path succeeds, and then it is the selected transcript. The temporary directory is removed exactly when it was created |
| Pipeline.PendingCounted | src/tui_transcript/services/pipeline.py:82-84 | The count of pending jobs is zero exactly when no job is PENDING |
| Pipeline.NumberedTitleInjective | src/tui_transcript/services/pipeline.py:146 | The titles `base_k` for different k are different, and each is longer than the base |
| Pipeline.FirstFreeIsFirstFreeTitle | src/tui_transcript/services/pipeline.py:141-147 | The reference answer is an unused title, either the base or `base_k` with k >= 2, and every candidate before it is used |
| Pipeline.ResolveOriginalTitle | src/tui_transcript/services/pipeline.py:141-147 | The de-duplication loop ends with the first free candidate, a title the ledger does not hold for the output mode |
| Pipeline.SkipEvents | src/tui_transcript/services/pipeline.py:95-104 | A skipped job reports its status once and is granted both progress units |
| Pipeline.FailEvents | src/tui_transcript/services/pipeline.py:199-207 | A failed job reports ERROR once and is granted the units it had not yet received, 2 - step_done |
| Pipeline.NoteEvents | src/tui_transcript/services/pipeline.py:124-125 | The adapter's notes are plain log lines: no progress and no status report |
| Pipeline.TranscribeStep | src/tui_transcript/services/pipeline.py:106-134 | Transcription fails exactly when the stat or the adapter raises; then the job is ERROR with that message and both units are granted. Otherwise it is TRANSCRIBING with the adapter's text and one unit is granted |
| Pipeline.Deliver | src/tui_transcript/services/pipeline.py:149-181 | The export moves the job to UPLOADING and then to DONE, granting one progress unit, or to ERROR with the exporter's message. A Google Docs export stores the returned id and its document URL; a Markdown export stores the path under the output directory |
| Pipeline.DeliverAndRecord | src/tui_transcript/services/pipeline.py:149-197 | The job ends DONE exactly when the export and the ledger write both succeed. Only then is one row appended describing it, and in sequential mode only then does the counter advance. The document id and URL, or the Markdown path, come from the exporter |
| Pipeline.AttemptJob | src/tui_transcript/services/pipeline.py:106-208 | A non-skipped job ends ERROR exactly when a step fails, with that step's message, and DONE otherwise. Its status trail runs forward. Exactly 2 units are granted. Sequential mode stores n and titles `prefix_(n+1)`; original mode takes the first free title |
| Pipeline.ProcessJob | src/tui_transcript/services/pipeline.py:92-208 | A job already in the ledger is marked DONE with nothing written. Any other job is attempted. Either way the job gets exactly 2 progress units, and a row is appended, and the counter advances, only when the job commits |
| Pipeline.Step | src/tui_transcript/services/pipeline.py:92-197 | One pending job settles and keeps the run's ledger invariant: every new row fits the rows before it, and the counter stays in step with the ledger |
| Pipeline.RunTurn | src/tui_transcript/services/pipeline.py:92-208 | One turn of the loop keeps the run's invariant: settled jobs, 2 units per pending job so far, the ledger fits, done jobs are recorded, and each new row names its job |
| Pipeline.DeliveredTranscript | src/tui_transcript/services/pipeline.py:127-132 | The transcript a committed job holds is exactly the text `transcribe` returned for its file |
| Pipeline.RunJobs | src/tui_transcript/services/pipeline.py:91-211 | After the loop each job has settled: non-pending jobs are untouched, and a pending job whose attempt fails ends ERROR with that step's message unless it was skipped, in which case it is only marked DONE. Progress totals 2 per pending job, the run ends with the "Done!" label and the completion line, each pending job that ended DONE is in the ledger, and each new row records a pending job whose every step succeeded. That job holds the transcript the service returned and, by output mode, the Google Docs id with its URL or the Markdown file named after the row's title |
| Pipeline.RunPipeline | src/tui_transcript/services/pipeline.py:72-213 | With no pending job nothing is built or opened and nothing changes. A failing exporter stops the run before the ledger is opened. Otherwise every job settles, one failing job never stops the others, and a job whose attempt fails ends ERROR unless it was skipped. Progress totals 2 per pending job, and each new row records a job that ended DONE with every step succeeding, in job order. Each such job holds the service's transcript and its Google Docs id and URL, or its Markdown file path. The ledger is opened only when a pending job exists and the exporter was built; the connection comes back closed, over the rows the run committed |
| Pipeline.RecordFits | src/tui_transcript/services/pipeline.py:183-197 | Appending a row that fits keeps the ledger fitting, and the next number rises by one in sequential mode only |
| Pipeline.AddedRowsDistinct | src/tui_transcript/services/pipeline.py:95-197 | Two rows added by one run never share a source path nor a title; in sequential mode they carry consecutive numbers from the seeded counter |
| Pipeline.FirstSequentialTitle | src/tui_transcript/services/pipeline.py:137-140 | On a ledger with no numbered row for the prefix, the first row added records number 1 but is titled `prefix_2` |
| ConfigStore.ReadEnv | src/tui_transcript/services/config_store.py:25-29 | A missing file reads as no entries; otherwise every key is kept and a key without a value reads as "" |
| ConfigStore.Load | src/tui_transcript/services/config_store.py:42-54 | Original naming exactly when NAMING_MODE is "original". A present key's value is read as it stands, and a missing key takes "", "Transcripcion" or "./output". An empty file gives the default configuration |
| ConfigStore.Save | src/tui_transcript/services/config_store.py:56-62 | Saving creates the file if needed and adds exactly the six keys. Each holds the configuration's value, the naming mode as its stored value. Every other key is left as it was |
| ConfigStore.LoadAfterSave | src/tui_transcript/services/config_store.py:42-62 | Loading what was saved gives back the saved configuration, whatever the file held before |
| ConfigStore.SaveAfterLoad | src/tui_transcript/services/config_store.py:42-62 | Saving what was loaded leaves the file unchanged, when the file already has the six keys with values and a valid naming mode |
| ConfigRoutes.MaskKey | src/tui_transcript/api/routes/config.py:15-21 | An empty key masks to "", a key of 1 to 8 characters to "***", and a longer one to its first four characters, "***" and its last four (11 characters) |
| ConfigRoutes.MaskKeyForgets | src/tui_transcript/api/routes/config.py:15-21 | Two keys mask alike exactly when both are empty, both are short, or both are long with the same first and last four characters |
| ConfigRoutes.MaskKeyRevealsOnlyItself | src/tui_transcript/api/routes/config.py:15-21 | The mask equals the key only for "", "***", and 11-character keys with "***" in the middle |
| ConfigRoutes.GetConfig | src/tui_transcript/api/routes/config.py:24-36 | The response is the loaded configuration with the key masked, the naming mode's value, and the derived output mode |
| ConfigRoutes.GetConfigAfterSave | src/tui_transcript/api/routes/config.py:24-36 | After a save, the response shows the saved naming, prefix and output mode, and a key longer than 11 characters never comes back raw |
| ConfigRoutes.PutConfig | src/tui_transcript/api/routes/config.py:39-62 | An unknown naming mode gives 400 "Invalid naming_mode: ..." and nothing is saved. Otherwise each given field takes its new value and every other field keeps its loaded value |
| ApiState.Initial | src/tui_transcript/api/state.py:11-15 | The registries start empty and consistent |
| ApiState.StoreUpload | src/tui_transcript/api/state.py:28-36 | Registering fails exactly when the file is not on disk; otherwise the id maps to the path, name and current size, and nothing else changes |
| ApiState.GetUpload | src/tui_transcript/api/state.py:39-41 | An unknown id gives None; a known id gives its entry |
| ApiState.RemoveUpload | src/tui_transcript/api/state.py:44-51 | The id is forgotten and its file deleted; every other entry stays; an unknown id changes nothing |
| ApiState.StoreThenRemove | src/tui_transcript/api/state.py:28-51 | Storing then removing an upload leaves nothing under its id and its file gone, with every other id as before |
| ApiState.CreateSession | src/tui_transcript/api/state.py:54-63 | A new session is "running" with no task, its queue and its jobs |
| ApiState.GetSession | src/tui_transcript/api/state.py:66-68 | An unknown session gives None; a known one gives its entry |
| ApiState.SetSessionTask | src/tui_transcript/api/state.py:71-74 | Only the task of a known session changes; an unknown id changes nothing |
| ApiState.CompleteSession | src/tui_transcript/api/state.py:77-80 | Only the status of a known session becomes "done"; an unknown id changes nothing |
| ApiState.SessionLifecycle | src/tui_transcript/api/state.py:54-80 | Create, set the task, then complete gives a "done" session with that task, queue and jobs, and no other session changes |
| ApiState.RemoveFirstAt | src/tui_transcript/api/state.py:89-92 | Only uploads at the path can be removed, and the entries that stay are unchanged |
| ApiState.RemoveFirstAtRemovesOne | src/tui_transcript/api/state.py:89-92 | At most one upload is removed per job, because the loop breaks after the first match |
| ApiState.RemoveFirstAtClears | src/tui_transcript/api/state.py:89-92 | When no two uploads share a file, none is left at the path afterwards and the files stay distinct |
| ApiState.RemoveJobUploads | src/tui_transcript/api/state.py:87-92 | Cleaning up for a list of jobs removes only uploads, and only ones at some job's path |
| ApiState.RemoveJobUploadsCount | src/tui_transcript/api/state.py:87-92 | Each job removes at most one upload |
| ApiState.RemoveJobUploadsClears | src/tui_transcript/api/state.py:87-92 | When no two uploads share a file, no upload is left at any job's path |
| ApiState.CleanupSession | src/tui_transcript/api/state.py:83-92 | The session is gone and no other session changes. At most one upload per job is removed, and only at a job's path. With distinct paths, none is left at a job's path. An unknown id changes nothing |
| FileRoutes.AllowedIgnoresCase | src/tui_transcript/api/routes/files.py:20-21 | A file is accepted exactly when its lower-cased extension is in the 12-entry allow-list, so case does not matter |
| FileRoutes.AllowedAudioFiles | src/tui_transcript/api/routes/files.py:14-21 | An upload skips audio extraction exactly when its extension is in both the upload list and the adapter's audio list |
| FileRoutes.AudioNotUploadable | src/tui_transcript/api/routes/files.py:14-21 | ".opus" and ".wma" count as audio for the adapter but are refused at upload |
| FileRoutes.CandidateInjective | src/tui_transcript/api/routes/files.py:42-44 | Different counters give different alternative names |
| Paths.JoinPlacesName | src/tui_transcript/api/routes/files.py:39 | `dir / name` places a relative name under the directory and drops the directory for an absolute name |
| FileRoutes.FreeDestinationIsFirst | src/tui_transcript/api/routes/files.py:38-44 | The reference destination is free. It is the client's name joined to the upload directory, or `stem_k + ext` under the directory with every earlier candidate taken. `pathlib` join semantics apply, so an absolute client name stands for itself |
| FileRoutes.DestinationPlacement | src/tui_transcript/api/routes/files.py:39-43 | A free absolute client filename is used as it stands, outside the upload directory. Every other destination, the plain name or an alternative, lies directly under the directory |
| FileRoutes.ResolveDestination | src/tui_transcript/api/routes/files.py:38-44 | The duplicate-name loop ends at the reference destination, which is never an existing file. An absolute client name is tried as it stands |
| FileRoutes.FirstRejectedFinds | src/tui_transcript/api/routes/files.py:33-35 | Every file before the first rejected one has a name with an allowed extension, and the first rejected one does not |
| FileRoutes.SaveOne | src/tui_transcript/api/routes/files.py:37-54 | An accepted file is written to the first free destination and registered under its id, with its original name and the content's length as its size |
| FileRoutes.UploadFiles | src/tui_transcript/api/routes/files.py:24-56 | An empty request is 400 "No files provided". Success comes exactly when every file is acceptable, with one entry per file in order. Otherwise the first rejected file gives 400 and the files before it stay written and registered |
| FileRoutes.SaveAll | src/tui_transcript/api/routes/files.py:33-54 | Files that were all accepted are saved in order. Each is registered under its own id at a path that did not exist before, with its name and size. No two get the same path and earlier uploads are untouched |
| TranscriptionRoutes.ItemTypeNamesKind | src/tui_transcript/api/routes/transcription.py:41-57 | The five queue item types have distinct names, so a name identifies the kind of item |
| TranscriptionRoutes.ToItemsFaithful | src/tui_transcript/api/routes/transcription.py:41-52 | Each callback queues exactly one item, in order; none of them is "done"; the progress steps pass through unchanged |
| TranscriptionRoutes.RunWithSse | src/tui_transcript/api/routes/transcription.py:33-58 | The task queues exactly one item per event of the run, in order, and then exactly one "done", last, even when the run raises. When the ledger was opened, the last two events are the "Done!" label and the completion line. A completed run delivers 2 progress units per pending job, and each new row records a job holding the service's transcript and its delivery result. The session ends "done" with the changed jobs. The ledger connection, opened only for a pending job and a built exporter, ends closed over the committed rows |
| TranscriptionRoutes.AsWrittenAbortsRun | src/tui_transcript/api/routes/transcription.py:45-46 | As written, a run with a pending job aborts at that job. No progress or status event is queued, the ledger gains nothing, and that job ends DONE (if skipped) or ERROR. Every other job stays as it was. The ledger connection is closed by the `finally` block with no row added |
| TranscriptionRoutes.AsWrittenClosesLedger | src/tui_transcript/services/pipeline.py:81-91 | As written, the ledger is opened exactly when a pending job exists and the exporter was built. The aborting exception leaves through the `finally` block (pipeline.py:211-213), so the connection ends closed with the ledger unchanged |
| TranscriptionRoutes.AsWrittenTwoFiles | src/tui_transcript/api/routes/transcription.py:45-46 | Two fresh uploads on an empty history: as written, only "done" is queued, the first job ends ERROR with the attribute error, and the second stays PENDING |
| TranscriptionRoutes.FrameRoundTrip | src/tui_transcript/api/routes/transcription.py:28-30 | A frame built from a type and data with no line end reads back as exactly that type and data |
| TranscriptionRoutes.FrameInjective | src/tui_transcript/api/routes/transcription.py:28-30 | Two frames built from fields with no line end are equal exactly when their types and data are |
| TranscriptionRoutes.PumpStopsAtEnd | src/tui_transcript/api/routes/transcription.py:99-110 | The stream yields one event per arrival, in order: a ping for a timeout, "done" for the done item, "error" for a failure. It stops right after the first "done" or "error" and never earlier |
| TranscriptionRoutes.StreamCarriesRun | src/tui_transcript/api/routes/transcription.py:99-105 | When every wait returns the next item, the client gets one event per queued item, each under its own type name, and the last event is "done" |
| TranscriptionRoutes.ProgressStream | src/tui_transcript/api/routes/transcription.py:91-110 | A session gone when the stream starts gives one "error" event, "Session not found"; otherwise the pump's events |
| TranscriptionRoutes.GetProgress | src/tui_transcript/api/routes/transcription.py:113-128 | An unknown session is 404 "Session not found"; otherwise an event stream with caching turned off |
| TranscriptionRoutes.StartTranscription | src/tui_transcript/api/routes/transcription.py:61-88 | An empty list fails validation, then an empty key is 400, then the first unknown file id is 404, each before any session exists. Otherwise the new session is running with its task, one PENDING job per file (the upload's path and the requested language), and no other session changes |

## Left out

- File, network and process I/O are outcomes or parameters. This covers the speech-service call, ffmpeg, `read_bytes`, `stat`, the Google Docs API, the SQLite connection and the `.env` file. Each step either returns or raises.
- Building the exporter is one outcome (`exporterInit`). The Markdown exporter's directory creation is not modelled.
- Opening, querying and closing the ledger are assumed not to raise. The WAL pragma, the schema and the `processed_at` timestamp are not modelled.
- Pipeline.RunPipeline: a failure while opening the ledger or reading its next number is not modelled. Both happen before the `try` block (src/tui_transcript/services/pipeline.py:87-89), so the `finally` block would not close the connection after such a failure.
- Pipeline callbacks are assumed not to raise. This holds for the default no-op callbacks (src/tui_transcript/services/pipeline.py:47-61); the web route's callbacks do raise (see Findings). The terminal UI does not call `run_pipeline`.
- History.Append: `record` is treated as atomic. It runs the INSERT and then `commit` (src/tui_transcript/services/history.py:93-110); if the commit raises, the uncommitted row is still visible to later queries on the same connection, and the model does not keep it.
- TranscriptionRoutes.StartTranscription: a file spec's default language "es" (src/tui_transcript/api/schemas.py:49) is applied when the request body is parsed, before the route runs; `FileSpec` holds the language after that default.
- Pipeline.LogText: the file size in MB in the "Transcribing" label and log line is left out, because it is floating-point formatting. The traceback line is a fixed marker instead of the traceback text.
- Transcription.NoteText: the MB sizes in the adapter's notes are left out, for the same reason. The ffmpeg command line and the speech service's request options are not modelled.
- VideoJob: the `progress` float field is left out. The pipeline never changes it.
- Python's `isalnum` and `lower` are modelled for ASCII only.
- Paths use '/' as the separator and are not normalised: a trailing '/', a "." segment or a repeated '/' is kept as written. An absolute name joined to a directory replaces it, as in `pathlib`. `suffix` and `stem` follow `pathlib`'s rule that a leading or trailing dot starts no suffix (".bashrc", "a.").
- asyncio (tasks, the queue, `await` and the 30-second wait) is replaced by a finite list of arrivals: an item, a timeout, or a failure. The task and the stream are modelled separately, not interleaved.
- JSON encoding of the SSE data is not modelled. TranscriptionRoutes.FrameRoundTrip assumes data without a line end, which `json.dumps` with default settings produces.
- TranscriptionRoutes.RunWithSse: the exception a failed run leaves in its task is not modelled, because nothing awaits that task.
- UUIDs for uploads and sessions are parameters. FileRoutes.UploadFiles requires fresh ids. TranscriptionRoutes.StartTranscription does not check the session id.
- TranscriptionRoutes.StartTranscription: the 422 response carries only the validator's message. Its full error body is not modelled.
- ApiState.RemoveUpload: an `OSError` from `unlink` is swallowed. The file is modelled as always deleted.
- FileRoutes.SaveOne: errors from writing the upload are not modelled. The content is a parameter (the bytes `read` returns).
- The terminal UI screens, with the older duplicate pipeline loop in the dashboard, and the path-browsing routes are not part of this model.

## Findings

| source | as written | input that shows it | evidently intended | confidence | as-written member | corrected member |
|---|---|---|---|---|---|---|
| src/tui_transcript/api/routes/transcription.py:46 | The web status callback calls `job.to_dict()`, but `VideoJob` (src/tui_transcript/models.py:57-67) is a plain dataclass with no such method. The first status report raises `AttributeError`, and the web run stops at its first pending job | Start a run on two fresh uploads with an empty history. The first job ends ERROR ("'VideoJob' object has no attribute 'to_dict'"), the second stays PENDING, and only "done" reaches the stream | Each status change queues a `job_status` item holding a snapshot of the job, and the run goes through every job | high (`VideoJob` is a plain `@dataclass` with no base class and no `__getattr__`, src/tui_transcript/models.py:56-66); not executed | TranscriptionRoutes.RunWithSseAsWritten, TranscriptionRoutes.AsWrittenAbortsRun, TranscriptionRoutes.AsWrittenTwoFiles | TranscriptionRoutes.RunWithSse |

=== FILE: api_state.dfy ===
/**
 * The web server's in-memory registries: uploaded files by id and transcription sessions by id, with
 * the upload files they own on disk. Ids come from the caller (they stand for fresh UUIDs); a Python
 * dict's insertion order is kept as the list `order` beside the map.
 */
module ApiState {
  import opened Common
  import opened Models

  /** One entry of `_uploads`: where the file lives, the name it was uploaded under, its size. */
  datatype Upload = Upload(path: string, name: string, sizeBytes: nat)

  /** A session: its event queue (a handle), its pipeline task once set, its jobs and "running" or "done". */
  datatype Session = Session(queue: nat, task: Option<nat>, jobs: seq<VideoJob>, status: string)

  /** The registries and the files on disk (path to size). */
  datatype State = State(
    uploads: map<string, Upload>,
    order: seq<string>,
    sessions: map<string, Session>,
    disk: map<string, nat>)

  /** `order` lists exactly the registered upload ids, in insertion order. */
  ghost predicate Valid(st: State) {
    forall id :: id in st.order <==> id in st.uploads
  }

  /** The registries at start-up: empty. */
  function Initial(disk: map<string, nat>): (st: State)
    ensures Valid(st) && st.uploads == map[] && st.sessions == map[] && st.disk == disk
  {
    State(map[], [], map[], disk)
  }

  /** `store_upload`: registers `fid` with the file's path, name and current size; `stat` raises if it is gone. */
  function StoreUpload(st: State, path: string, name: string, fid: string): (r: Outcome<State>)
    requires Valid(st)
    ensures r.Raised? <==> path !in st.disk
    ensures r.Ok? ==> Valid(r.value)
    ensures r.Ok? ==> r.value.uploads == st.uploads[fid := Upload(path, name, st.disk[path])]
    ensures r.Ok? ==> r.value.sessions == st.sessions && r.value.disk == st.disk
  {
    if path !in st.disk then Raised("FileNotFoundError: " + path)
    else
      var order := if fid in st.uploads then st.order else st.order + [fid];
      Ok(State(st.uploads[fid := Upload(path, name, st.disk[path])], order, st.sessions, st.disk))
  }

  /** `get_upload`. */
  function GetUpload(st: State, fid: string): (r: Option<Upload>)
    ensures r.None? <==> fid !in st.uploads
    ensures r.Some? ==> r.value == st.uploads[fid]
  {
    if fid in st.uploads then Some(st.uploads[fid]) else None
  }

  /** The ids list without one id. */
  function Without(order: seq<string>, fid: string): (r: seq<string>)
    ensures forall x :: x in r <==> x in order && x != fid
    ensures |r| <= |order|
  {
    if |order| == 0 then []
    else (if order[0] == fid then [] else [order[0]]) + Without(order[1..], fid)
  }

  /** `remove_upload`: forgets the id and deletes its file if present; an unknown id changes nothing. */
  function RemoveUpload(st: State, fid: string): (r: State)
    requires Valid(st)
    ensures Valid(r)
    ensures fid !in st.uploads ==> r == st
    ensures fid !in r.uploads && forall id :: id != fid ==> (id in r.uploads <==> id in st.uploads)
    ensures forall id :: id in r.uploads ==> r.uploads[id] == st.uploads[id]
    ensures r.sessions == st.sessions
    ensures fid in st.uploads ==> r.disk == st.disk - {st.uploads[fid].path}
  {
    if fid !in st.uploads then st
    else
      State(st.uploads - {fid}, Without(st.order, fid), st.sessions, st.disk - {st.uploads[fid].path})
  }

  /** Storing then removing an upload leaves nothing registered under its id, and its file gone. */
  lemma StoreThenRemove(st: State, path: string, name: string, fid: string)
    requires Valid(st) && path in st.disk
    ensures GetUpload(StoreUpload(st, path, name, fid).value, fid) == Some(Upload(path, name, st.disk[path]))
    ensures var after := RemoveUpload(StoreUpload(st, path, name, fid).value, fid);
            GetUpload(after, fid) == None && path !in after.disk
            && forall id :: id != fid ==> GetUpload(after, id) == GetUpload(st, id)
  {
  }

  /** `create_session`: a running session, no task yet, with its queue and jobs. */
  function CreateSession(st: State, sid: string, queue: nat, jobs: seq<VideoJob>): (r: State)
    ensures r.sessions == st.sessions[sid := Session(queue, None, jobs, "running")]
    ensures r.uploads == st.uploads && r.order == st.order && r.disk == st.disk
  {
    st.(sessions := st.sessions[sid := Session(queue, None, jobs, "running")])
  }

  /** `get_session`. */
  function GetSession(st: State, sid: string): (r: Option<Session>)
    ensures r.None? <==> sid !in st.sessions
    ensures r.Some? ==> r.value == st.sessions[sid]
  {
    if sid in st.sessions then Some(st.sessions[sid]) else None
  }

  /** `set_session_task`: records the task of a known session; an unknown id changes nothing. */
  function SetSessionTask(st: State, sid: string, task: nat): (r: State)
    ensures sid !in st.sessions ==> r == st
    ensures sid in st.sessions ==> r.sessions == st.sessions[sid := st.sessions[sid].(task := Some(task))]
    ensures r.uploads == st.uploads && r.order == st.order && r.disk == st.disk
  {
    if sid in st.sessions then st.(sessions := st.sessions[sid := st.sessions[sid].(task := Some(task))]) else st
  }

  /** `complete_session`: marks a known session "done"; an unknown id changes nothing. */
  function CompleteSession(st: State, sid: string): (r: State)
    ensures sid !in st.sessions ==> r == st
    ensures sid in st.sessions ==> r.sessions == st.sessions[sid := st.sessions[sid].(status := "done")]
    ensures r.uploads == st.uploads && r.order == st.order && r.disk == st.disk
  {
    if sid in st.sessions then st.(sessions := st.sessions[sid := st.sessions[sid].(status := "done")]) else st
  }

  /** A new session's later updates touch one field each: task, then status. */
  lemma SessionLifecycle(st: State, sid: string, queue: nat, jobs: seq<VideoJob>, task: nat)
    ensures var s := CompleteSession(SetSessionTask(CreateSession(st, sid, queue, jobs), sid, task), sid);
            GetSession(s, sid) == Some(Session(queue, Some(task), jobs, "done"))
            && forall other :: other != sid ==> GetSession(s, other) == GetSession(st, other)
  {
  }

  /** The first registered upload, in insertion order, whose file is at `path`. */
  function FirstWithPath(st: State, ids: seq<string>, path: string): (r: Option<string>)
    requires forall i :: 0 <= i < |ids| ==> ids[i] in st.uploads
    ensures r.Some? ==> r.value in ids && st.uploads[r.value].path == path
    ensures r.None? <==> forall i :: 0 <= i < |ids| ==> st.uploads[ids[i]].path != path
  {
    if |ids| == 0 then None
    else if st.uploads[ids[0]].path == path then Some(ids[0])
    else FirstWithPath(st, ids[1..], path)
  }

  /** One job's share of `cleanup_session`: the first upload, in insertion order, at its path is removed. */
  function RemoveFirstAt(st: State, path: string): (r: State)
    requires Valid(st)
    ensures Valid(r) && r.sessions == st.sessions
    ensures r.uploads.Keys <= st.uploads.Keys
    ensures forall id :: id in r.uploads ==> r.uploads[id] == st.uploads[id]
    ensures forall id :: id in st.uploads && st.uploads[id].path != path ==> id in r.uploads
  {
    assert forall i :: 0 <= i < |st.order| ==> st.order[i] in st.order;
    match FirstWithPath(st, st.order, path)
    case None => st
    case Some(fid) => RemoveUpload(st, fid)
  }

  /** At most one upload goes per job. */
  lemma RemoveFirstAtRemovesOne(st: State, path: string)
    requires Valid(st)
    ensures |st.uploads.Keys - RemoveFirstAt(st, path).uploads.Keys| <= 1
  {
    assert forall i :: 0 <= i < |st.order| ==> st.order[i] in st.order;
    match FirstWithPath(st, st.order, path)
    case None =>
    case Some(fid) =>
      assert st.uploads.Keys - RemoveFirstAt(st, path).uploads.Keys <= {fid};
  }

  /** Whether the upload's file is the file of one of the jobs. */
  predicate AtJobPath(u: Upload, jobs: seq<VideoJob>) {
    exists k :: 0 <= k < |jobs| && u.path == jobs[k].path
  }

  /** The inner loop of `cleanup_session` for each job in turn. */
  function RemoveJobUploads(st: State, jobs: seq<VideoJob>): (r: State)
    requires Valid(st)
    ensures Valid(r) && r.sessions == st.sessions
    ensures r.uploads.Keys <= st.uploads.Keys
    ensures forall id :: id in r.uploads ==> r.uploads[id] == st.uploads[id]
    ensures forall id :: id in st.uploads && !AtJobPath(st.uploads[id], jobs) ==> id in r.uploads
    decreases |jobs|
  {
    if |jobs| == 0 then st
    else RemoveJobUploads(RemoveFirstAt(st, jobs[0].path), jobs[1..])
  }

  /** Each job removes at most one upload. */
  lemma {:induction false} RemoveJobUploadsCount(st: State, jobs: seq<VideoJob>)
    requires Valid(st)
    ensures |st.uploads.Keys - RemoveJobUploads(st, jobs).uploads.Keys| <= |jobs|
    decreases |jobs|
  {
    if |jobs| > 0 {
      var next := RemoveFirstAt(st, jobs[0].path);
      RemoveFirstAtRemovesOne(st, jobs[0].path);
      RemoveJobUploadsCount(next, jobs[1..]);
      var final := RemoveJobUploads(next, jobs[1..]);
      assert RemoveJobUploads(st, jobs) == final;
      RemovedAddUp(st.uploads.Keys, next.uploads.Keys, final.uploads.Keys);
    }
  }

  /** Removing in two rounds removes no more than the two rounds' counts together. */
  lemma RemovedAddUp<T>(all: set<T>, mid: set<T>, final: set<T>)
    requires final <= mid <= all
    ensures |all - final| == |all - mid| + |mid - final|
  {
    assert all - final == (all - mid) + (mid - final);
    assert (all - mid) * (mid - final) == {};
  }

  /** No two registered uploads share a file, as the upload route ensures. */
  ghost predicate DistinctPaths(st: State) {
    forall a, b :: a in st.uploads && b in st.uploads && a != b ==> st.uploads[a].path != st.uploads[b].path
  }

  /** When no two uploads share a file, removing the first one at `path` leaves none there, and files stay distinct. */
  lemma RemoveFirstAtClears(st: State, path: string)
    requires Valid(st) && DistinctPaths(st)
    ensures forall id :: id in RemoveFirstAt(st, path).uploads ==> RemoveFirstAt(st, path).uploads[id].path != path
    ensures DistinctPaths(RemoveFirstAt(st, path))
  {
    var r := RemoveFirstAt(st, path);
    assert forall i :: 0 <= i < |st.order| ==> st.order[i] in st.order;
    match FirstWithPath(st, st.order, path)
    case None =>
    case Some(fid) =>
      forall id | id in r.uploads ensures r.uploads[id].path != path {
        assert id != fid && r.uploads[id] == st.uploads[id];
      }
  }

  /** When no two uploads share a file, cleaning up for the jobs leaves no upload at any job's path. */
  lemma {:induction false} RemoveJobUploadsClears(st: State, jobs: seq<VideoJob>)
    requires Valid(st)
    ensures DistinctPaths(st) ==>
              forall id, k :: id in RemoveJobUploads(st, jobs).uploads && 0 <= k < |jobs| ==>
                RemoveJobUploads(st, jobs).uploads[id].path != jobs[k].path
    decreases |jobs|
  {
    if |jobs| > 0 && DistinctPaths(st) {
      var next := RemoveFirstAt(st, jobs[0].path);
      RemoveFirstAtClears(st, jobs[0].path);
      RemoveJobUploadsClears(next, jobs[1..]);
      var r := RemoveJobUploads(st, jobs);
      assert r == RemoveJobUploads(next, jobs[1..]);
      forall id, k | id in r.uploads && 0 <= k < |jobs| ensures r.uploads[id].path != jobs[k].path {
        assert id in next.uploads && r.uploads[id] == next.uploads[id];
        if k > 0 {
          assert jobs[k] == jobs[1..][k - 1];
        }
      }
    }
  }

  /** `cleanup_session`: drops the session and, for each of its jobs, the first upload at that job's path. */
  function CleanupSession(st: State, sid: string): (r: State)
    requires Valid(st)
    ensures Valid(r)
    ensures sid !in r.sessions && forall other :: other != sid ==> GetSession(r, other) == GetSession(st, other)
    ensures sid !in st.sessions ==> r == st
    ensures forall id :: id in r.uploads ==> id in st.uploads && r.uploads[id] == st.uploads[id]
    ensures sid in st.sessions ==> |st.uploads.Keys - r.uploads.Keys| <= |st.sessions[sid].jobs|
    ensures sid in st.sessions ==>
              forall id :: id in st.uploads && !AtJobPath(st.uploads[id], st.sessions[sid].jobs) ==> id in r.uploads
    ensures sid in st.sessions && DistinctPaths(st) ==>
              forall id, k :: id in r.uploads && 0 <= k < |st.sessions[sid].jobs| ==>
                r.uploads[id].path != st.sessions[sid].jobs[k].path
  {
    if sid !in st.sessions then st
    else
      var jobs := st.sessions[sid].jobs;
      RemoveJobUploadsCount(st.(sessions := st.sessions - {sid}), jobs);
      RemoveJobUploadsClears(st.(sessions := st.sessions - {sid}), jobs);
      RemoveJobUploads(st.(sessions := st.sessions - {sid}), jobs)
  }
}

=== FILE: common.dfy ===
/** Small failure-carrying datatypes shared by every module of the model. */
module Common {

  /** A value that may be absent (Python's `None`). */
  datatype Option<+T> = None | Some(value: T)

  /** The outcome of a step that may raise: either its value or the text of the raised exception. */
  datatype Outcome<+T> = Ok(value: T) | Raised(message: string)

  /** The answer of an HTTP route: its body, or an `HTTPException` with status code and detail. */
  datatype Http<+T> = Success(value: T) | HttpError(status: int, detail: string)

  /** Python's `x or None` for strings: the empty string becomes `None`. */
  function NoneIfEmpty(s: string): (r: Option<string>)
    ensures r.None? <==> s == ""
    ensures r.Some? ==> r.value == s
  {
    if s == "" then None else Some(s)
  }

  /** The index of the first `false`, or the length when there is none. */
  function FirstFalse(bs: seq<bool>): nat {
    if |bs| == 0 || !bs[0] then 0 else 1 + FirstFalse(bs[1..])
  }

  lemma {:induction false} FirstFalseFinds(bs: seq<bool>)
    ensures FirstFalse(bs) <= |bs|
    ensures FirstFalse(bs) < |bs| ==> !bs[FirstFalse(bs)]
    ensures forall i :: 0 <= i < FirstFalse(bs) ==> bs[i]
  {
    if |bs| > 0 && bs[0] {
      FirstFalseFinds(bs[1..]);
    }
  }
}

=== FILE: config_routes.dfy ===
/**
 * The `/config` routes: reading the configuration with the speech-service key masked, and a partial
 * update that changes only the fields it names and rejects an unknown naming mode before saving.
 */
module ConfigRoutes {
  import opened Common
  import opened Models
  import opened ConfigStore

  const Mask: string := "***"

  /** `_mask_key`: nothing for no key, a bare mask for a short key, else the first and last four characters around it. */
  function MaskKey(key: string): (m: string)
    ensures key == "" <==> m == ""
    ensures 1 <= |key| <= 8 <==> m == Mask
    ensures |key| > 8 <==> |m| == 11
    ensures |key| > 8 ==> m[..4] == key[..4] && m[4..7] == Mask && m[7..] == key[|key| - 4..]
  {
    if key == "" then ""
    else if |key| <= 8 then Mask
    else key[..4] + Mask + key[|key| - 4..]
  }

  /**
   * Two keys look the same once masked exactly when both are empty, both are short, or both are long
   * and agree on their first four and last four characters.
   */
  lemma MaskKeyForgets(a: string, b: string)
    ensures MaskKey(a) == MaskKey(b) <==>
              (a == "" && b == "")
              || (1 <= |a| <= 8 && 1 <= |b| <= 8)
              || (|a| > 8 && |b| > 8 && a[..4] == b[..4] && a[|a| - 4..] == b[|b| - 4..])
  {
    if |a| > 8 && |b| > 8 && MaskKey(a) == MaskKey(b) {
      assert MaskKey(a)[..4] == MaskKey(b)[..4];
      assert MaskKey(a)[7..] == MaskKey(b)[7..];
    }
  }

  /** The mask shows the key itself only for the empty key, the key "***", and eleven-character keys with "***" in the middle. */
  lemma MaskKeyRevealsOnlyItself(key: string)
    ensures MaskKey(key) == key <==> key == "" || key == Mask || (|key| == 11 && key[4..7] == Mask)
  {
    if |key| == 11 && key[4..7] == Mask {
      assert key == key[..4] + key[4..7] + key[7..];
    }
  }

  /** `ConfigResponse`. */
  datatype ConfigResponse = ConfigResponse(
    deepgramApiKey: string,
    googleServiceAccountJson: string,
    driveFolderId: string,
    namingMode: string,
    prefix: string,
    markdownOutputDir: string,
    outputMode: string)

  /** `GET /config`: the loaded configuration with the key masked and the derived output mode. */
  function GetConfig(f: EnvFile): (r: ConfigResponse)
    ensures var c := Load(ReadEnv(f));
            && r.deepgramApiKey == MaskKey(c.deepgramApiKey)
            && r.googleServiceAccountJson == c.googleServiceAccountJson && r.driveFolderId == c.driveFolderId
            && r.namingMode == c.namingMode.Value() && r.prefix == c.prefix
            && r.markdownOutputDir == c.markdownOutputDir
            && r.outputMode == OutputModeOf(c).Value()
  {
    var c := Load(ReadEnv(f));
    ConfigResponse(
      if c.deepgramApiKey != "" then MaskKey(c.deepgramApiKey) else "",
      c.googleServiceAccountJson, c.driveFolderId, c.namingMode.Value(), c.prefix, c.markdownOutputDir,
      OutputModeOf(c).Value())
  }

  /** A response reflects a configuration that was saved, and its key is longer than 11 characters only in the store. */
  lemma GetConfigAfterSave(c: AppConfig, f: EnvFile)
    ensures GetConfig(Save(c, f)).outputMode == (if c.googleServiceAccountJson != "" && c.driveFolderId != "" then "google_docs" else "markdown")
    ensures GetConfig(Save(c, f)).namingMode == c.namingMode.Value() && GetConfig(Save(c, f)).prefix == c.prefix
    ensures |c.deepgramApiKey| > 11 ==> GetConfig(Save(c, f)).deepgramApiKey != c.deepgramApiKey
  {
    LoadAfterSave(c, f);
  }

  /** `ConfigUpdate`: every field optional. */
  datatype ConfigUpdate = ConfigUpdate(
    deepgramApiKey: Option<string>,
    googleServiceAccountJson: Option<string>,
    driveFolderId: Option<string>,
    namingMode: Option<string>,
    prefix: Option<string>,
    markdownOutputDir: Option<string>)

  function Pick(update: Option<string>, current: string): string {
    if update.Some? then update.value else current
  }

  /** The update rejected by `put_config`: a naming mode that is not an enumeration value. */
  predicate RejectsNaming(u: ConfigUpdate) {
    u.namingMode.Some? && ParseNamingMode(u.namingMode.value).None?
  }

  /** The configuration `put_config` saves: each given field replaces the loaded one. */
  function Apply(c: AppConfig, u: ConfigUpdate): AppConfig
    requires !RejectsNaming(u)
  {
    AppConfig(
      Pick(u.deepgramApiKey, c.deepgramApiKey),
      Pick(u.googleServiceAccountJson, c.googleServiceAccountJson),
      Pick(u.driveFolderId, c.driveFolderId),
      if u.namingMode.Some? then ParseNamingMode(u.namingMode.value).value else c.namingMode,
      Pick(u.prefix, c.prefix),
      Pick(u.markdownOutputDir, c.markdownOutputDir))
  }

  /** `PUT /config`: 400 for an unknown naming mode, with the file untouched; otherwise the file after `save`. */
  function PutConfig(u: ConfigUpdate, f: EnvFile): (r: Http<EnvFile>)
    ensures r.HttpError? <==> RejectsNaming(u)
    ensures r.HttpError? ==> r.status == 400 && r.detail == "Invalid naming_mode: " + u.namingMode.value
    ensures r.Success? ==>
              var before, after := Load(ReadEnv(f)), Load(ReadEnv(r.value));
              && (u.deepgramApiKey.None? ==> after.deepgramApiKey == before.deepgramApiKey)
              && (u.deepgramApiKey.Some? ==> after.deepgramApiKey == u.deepgramApiKey.value)
              && (u.googleServiceAccountJson.None? ==> after.googleServiceAccountJson == before.googleServiceAccountJson)
              && (u.googleServiceAccountJson.Some? ==> after.googleServiceAccountJson == u.googleServiceAccountJson.value)
              && (u.driveFolderId.None? ==> after.driveFolderId == before.driveFolderId)
              && (u.driveFolderId.Some? ==> after.driveFolderId == u.driveFolderId.value)
              && (u.namingMode.None? ==> after.namingMode == before.namingMode)
              && (u.namingMode.Some? ==> after.namingMode.Value() == u.namingMode.value)
              && (u.prefix.None? ==> after.prefix == before.prefix)
              && (u.prefix.Some? ==> after.prefix == u.prefix.value)
              && (u.markdownOutputDir.None? ==> after.markdownOutputDir == before.markdownOutputDir)
              && (u.markdownOutputDir.Some? ==> after.markdownOutputDir == u.markdownOutputDir.value)
  {
    if RejectsNaming(u) then HttpError(400, "Invalid naming_mode: " + u.namingMode.value)
    else
      var saved := Save(Apply(Load(ReadEnv(f)), u), f);
      LoadAfterSave(Apply(Load(ReadEnv(f)), u), f);
      Success(saved)
  }
}

=== FILE: config_store.dfy ===
/**
 * The `.env`-backed configuration store: `load` reads six keys with defaults, `save` writes the six keys
 * back. The file is an abstract map from key to value (a key written without `=` has no value).
 */
module ConfigStore {
  import opened Common
  import opened Models

  /** The `.env` file as parsed: `None` when the file does not exist. */
  type EnvFile = Option<map<string, Option<string>>>

  const ApiKeyKey: string := "DEEPGRAM_API_KEY"
  const ServiceAccountKey: string := "GOOGLE_SERVICE_ACCOUNT_JSON"
  const FolderKey: string := "DRIVE_FOLDER_ID"
  const NamingKey: string := "NAMING_MODE"
  const PrefixKey: string := "PREFIX"
  const OutputDirKey: string := "MARKDOWN_OUTPUT_DIR"

  /** The keys `save` writes. */
  const SavedKeys: set<string> := {ApiKeyKey, ServiceAccountKey, FolderKey, NamingKey, PrefixKey, OutputDirKey}

  /** `_load_env`: the file's entries with a missing value read as "", or nothing when there is no file. */
  function ReadEnv(f: EnvFile): (env: map<string, string>)
    ensures f.None? ==> env == map[]
    ensures f.Some? ==> env.Keys == f.value.Keys
    ensures f.Some? ==> forall k :: k in env ==> env[k] == if f.value[k].Some? then f.value[k].value else ""
  {
    match f
    case None => map[]
    case Some(entries) => map k | k in entries :: if entries[k].Some? then entries[k].value else ""
  }

  /** `env.get(key, default)`. */
  function Get(env: map<string, string>, key: string, default: string): string {
    if key in env then env[key] else default
  }

  /** `EnvConfigStore.load`: ORIGINAL only for the exact value "original"; absent keys take the defaults. */
  function Load(env: map<string, string>): (c: AppConfig)
    ensures c.namingMode == Original <==> NamingKey in env && env[NamingKey] == "original"
    ensures ApiKeyKey in env ==> c.deepgramApiKey == env[ApiKeyKey]
    ensures ServiceAccountKey in env ==> c.googleServiceAccountJson == env[ServiceAccountKey]
    ensures FolderKey in env ==> c.driveFolderId == env[FolderKey]
    ensures PrefixKey in env ==> c.prefix == env[PrefixKey]
    ensures OutputDirKey in env ==> c.markdownOutputDir == env[OutputDirKey]
    ensures ApiKeyKey !in env ==> c.deepgramApiKey == ""
    ensures ServiceAccountKey !in env ==> c.googleServiceAccountJson == ""
    ensures FolderKey !in env ==> c.driveFolderId == ""
    ensures PrefixKey !in env ==> c.prefix == "Transcripcion"
    ensures OutputDirKey !in env ==> c.markdownOutputDir == "./output"
    ensures env == map[] ==> c == DefaultConfig()
  {
    AppConfig(
      Get(env, ApiKeyKey, ""),
      Get(env, ServiceAccountKey, ""),
      Get(env, FolderKey, ""),
      if Get(env, NamingKey, "") == "original" then Original else Sequential,
      Get(env, PrefixKey, DefaultPrefix),
      Get(env, OutputDirKey, DefaultOutputDir))
  }

  /** `_save_env`: creates the file if needed and sets one key. */
  function SetKey(f: EnvFile, key: string, value: string): EnvFile {
    var entries := if f.None? then map[] else f.value;
    Some(entries[key := Some(value)])
  }

  /** `EnvConfigStore.save`: the six keys, one `set_key` each. */
  function Save(c: AppConfig, f: EnvFile): (g: EnvFile)
    ensures g.Some?
    ensures g.value.Keys == (if f.None? then {} else f.value.Keys) + SavedKeys
    ensures f.Some? ==> forall k :: k in f.value && k !in SavedKeys ==> g.value[k] == f.value[k]
    ensures g.value[ApiKeyKey] == Some(c.deepgramApiKey)
    ensures g.value[ServiceAccountKey] == Some(c.googleServiceAccountJson)
    ensures g.value[FolderKey] == Some(c.driveFolderId)
    ensures g.value[NamingKey] == Some(c.namingMode.Value())
    ensures g.value[PrefixKey] == Some(c.prefix)
    ensures g.value[OutputDirKey] == Some(c.markdownOutputDir)
  {
    var f1 := SetKey(f, ApiKeyKey, c.deepgramApiKey);
    var f2 := SetKey(f1, ServiceAccountKey, c.googleServiceAccountJson);
    var f3 := SetKey(f2, FolderKey, c.driveFolderId);
    var f4 := SetKey(f3, NamingKey, c.namingMode.Value());
    var f5 := SetKey(f4, PrefixKey, c.prefix);
    SetKey(f5, OutputDirKey, c.markdownOutputDir)
  }

  /** Loading what was saved gives back the saved configuration, whatever the file held before. */
  lemma LoadAfterSave(c: AppConfig, f: EnvFile)
    ensures Load(ReadEnv(Save(c, f))) == c
  {
  }

  /** Saving what was loaded from a file that already has the six keys, with values, leaves it unchanged. */
  lemma SaveAfterLoad(f: EnvFile)
    requires f.Some? && SavedKeys <= f.value.Keys && forall k :: k in f.value ==> f.value[k].Some?
    requires f.value[NamingKey].value in {"sequential", "original"}
    ensures Save(Load(ReadEnv(f)), f) == f
  {
    var g := Save(Load(ReadEnv(f)), f);
    assert g.value.Keys == f.value.Keys;
    forall k | k in f.value ensures g.value[k] == f.value[k] {
    }
    assert g.value == f.value;
  }
}

=== FILE: file_routes.dfy ===
/**
 * `POST /files/upload`: each file must have a name with an allowed extension; it is written into the
 * upload directory under its own name, or under `stem_k + ext` for the least k >= 1 not yet taken, and
 * registered. A rejected file ends the request with 400, leaving the files before it written and registered.
 */
module FileRoutes {
  import opened Common
  import opened Text
  import opened Paths
  import opened ApiState
  import Transcription

  /** `ALLOWED_EXTENSIONS`. */
  const AllowedExtensions: seq<string> :=
    [".mp4", ".mkv", ".mov", ".avi", ".webm", ".flv", ".wmv", ".m4a", ".mp3", ".wav", ".ogg", ".flac"]

  /** `_is_allowed`: the lower-cased suffix is an allowed extension. */
  predicate IsAllowed(filename: string) {
    Listed(Lower(Suffix(filename)), AllowedExtensions)
  }

  /** The audio extensions that may be uploaded: all but `.opus` and `.wma`. */
  const UploadableAudio: seq<string> := [".m4a", ".mp3", ".wav", ".ogg", ".flac"]

  /** An uploaded file is sent to the speech service without extraction exactly when its extension is an uploadable audio one. */
  lemma AllowedAudioFiles(filename: string)
    ensures IsAllowed(filename) && Transcription.IsAudioFile(filename) <==> Listed(Lower(Suffix(filename)), UploadableAudio)
  {
    var x := Lower(Suffix(filename));
    ListedIsMembership(x, AllowedExtensions);
    ListedIsMembership(x, Transcription.AudioExtensions);
    ListedIsMembership(x, UploadableAudio);
    if x in Transcription.AudioExtensions && x !in UploadableAudio {
      assert x == ".opus" || x == ".wma";
      AudioOnlyExtensions();
    }
  }

  /** The two audio extensions the upload list leaves out. */
  lemma AudioOnlyExtensions()
    ensures Listed(".opus", Transcription.AudioExtensions) && !Listed(".opus", AllowedExtensions)
    ensures Listed(".wma", Transcription.AudioExtensions) && !Listed(".wma", AllowedExtensions)
  {
    ExtensionNotAllowed(".opus");
    ExtensionNotAllowed(".wma");
  }

  /** Each allowed extension differs from `.opus` and `.wma` in length, or in its second or fourth character. */
  lemma ExtensionNotAllowed(x: string)
    requires x == ".opus" || x == ".wma"
    ensures !Listed(x, AllowedExtensions)
  {
    var xs := AllowedExtensions;
    ListedIsMembership(x, xs);
    forall i | 0 <= i < |xs| ensures xs[i] != x {
      assert xs[i][1] != x[1] || |xs[i]| != |x| || xs[i][3] != x[3];
    }
  }

  /** ".opus" and ".wma" count as audio for the adapter but are refused at upload. */
  lemma AudioNotUploadable(filename: string)
    requires Lower(Suffix(filename)) in {".opus", ".wma"}
    ensures Transcription.IsAudioFile(filename) && !IsAllowed(filename)
  {
    AudioOnlyExtensions();
  }

  /** Upper-case and lower-case spellings of an extension are accepted alike. */
  lemma AllowedIgnoresCase(stem: string, ext: string)
    requires |stem| > 0 && '/' !in stem
    requires 2 <= |ext| && ext[0] == '.' && '/' !in ext && '.' !in ext[1..]
    ensures IsAllowed(stem + ext) <==> Listed(Lower(ext), AllowedExtensions)
  {
    NameOfPlainFile(stem + ext);
    JoinedFileParts("", stem, ext);
  }

  /** A name without separators is its own `name`, so its suffix is that of the same file placed anywhere. */
  lemma NameOfPlainFile(n: string)
    requires '/' !in n
    ensures Name(n) == n && Suffix(n) == Suffix(Join("", n))
  {
    LastIndexOfFinds(n, '/');
    var p := Join("", n);
    assert p == "/" + n;
    LastIndexOfFinds(p, '/');
    assert p[0] == '/';
    assert forall j :: 0 < j < |p| ==> p[j] == n[j - 1];
    assert LastIndexOf(p, '/') == Some(0);
  }

  /** The k-th alternative destination, `f"{stem}_{k}{ext}"` in the upload directory. */
  function Candidate(dir: string, stem: string, ext: string, k: int): string {
    Join(dir, stem + "_" + IntToString(k) + ext)
  }

  lemma CandidateInjective(dir: string, stem: string, ext: string, j: int, k: int)
    ensures Candidate(dir, stem, ext, j) == Candidate(dir, stem, ext, k) ==> j == k
  {
    if Candidate(dir, stem, ext, j) == Candidate(dir, stem, ext, k) {
      var head := Join(dir, stem + "_");
      CandidateSplits(dir, stem, ext, j);
      CandidateSplits(dir, stem, ext, k);
      CancelAffixes(head, IntToString(j), IntToString(k), ext);
      IntToStringInjective(j, k);
    }
  }

  /** The k-th alternative is the joined `stem_` followed by the numeral and the extension. */
  lemma CandidateSplits(dir: string, stem: string, ext: string, k: int)
    ensures Candidate(dir, stem, ext, k) == Join(dir, stem + "_") + IntToString(k) + ext
  {
    var lead, tail := stem + "_", IntToString(k) + ext;
    assert stem + "_" + IntToString(k) + ext == lead + tail;
    JoinExtends(dir, lead, tail);
  }

  /** Text added after a non-empty name is added after the joined path. */
  lemma JoinExtends(dir: string, lead: string, tail: string)
    requires |lead| > 0
    ensures Join(dir, lead + tail) == Join(dir, lead) + tail
  {
    assert (lead + tail)[0] == lead[0];
    if !IsAbsolute(lead) {
      assert dir + "/" + (lead + tail) == (dir + "/" + lead) + tail;
    }
  }

  /** Pigeonhole: alternatives 1 .. k are distinct, so if all exist there are at least k files. */
  lemma {:induction false} CandidatesFitIn(taken: set<string>, dir: string, stem: string, ext: string, k: nat)
    requires forall j :: 1 <= j <= k ==> Candidate(dir, stem, ext, j) in taken
    ensures k <= |taken|
    decreases k
  {
    if k >= 1 {
      var last := Candidate(dir, stem, ext, k);
      forall j | 1 <= j <= k - 1 ensures Candidate(dir, stem, ext, j) in taken - {last} {
        CandidateInjective(dir, stem, ext, j, k);
      }
      CandidatesFitIn(taken - {last}, dir, stem, ext, k - 1);
    }
  }

  /** The reference destination: the file's own name if free, else the first free alternative. */
  function FreeDestination(taken: set<string>, dir: string, filename: string): string {
    if Join(dir, filename) !in taken then Join(dir, filename)
    else FreeCandidate(taken, dir, Stem(filename), Suffix(filename), 1)
  }

  function FreeCandidate(taken: set<string>, dir: string, stem: string, ext: string, k: nat): string
    decreases |taken| + 1 - k
  {
    if k > |taken| || Candidate(dir, stem, ext, k) !in taken then Candidate(dir, stem, ext, k)
    else FreeCandidate(taken, dir, stem, ext, k + 1)
  }

  /** `dest` does not exist yet, and is the file's own name or the first alternative that does not exist. */
  ghost predicate FirstFreeDestination(taken: set<string>, dir: string, filename: string, dest: string) {
    dest !in taken
    && (dest == Join(dir, filename)
        || (Join(dir, filename) in taken && FirstFreeCandidate(taken, dir, Stem(filename), Suffix(filename), dest)))
  }

  ghost predicate FirstFreeCandidate(taken: set<string>, dir: string, stem: string, ext: string, dest: string) {
    exists k :: 1 <= k && dest == Candidate(dir, stem, ext, k)
      && forall j :: 1 <= j < k ==> Candidate(dir, stem, ext, j) in taken
  }

  lemma {:induction false} FreeCandidateIsFirst(taken: set<string>, dir: string, stem: string, ext: string, k: nat)
    requires 1 <= k
    requires forall j :: 1 <= j < k ==> Candidate(dir, stem, ext, j) in taken
    ensures FreeCandidate(taken, dir, stem, ext, k) !in taken
    ensures FirstFreeCandidate(taken, dir, stem, ext, FreeCandidate(taken, dir, stem, ext, k))
    decreases |taken| + 1 - k
  {
    if Candidate(dir, stem, ext, k) in taken {
      CandidatesFitIn(taken, dir, stem, ext, k);
      FreeCandidateIsFirst(taken, dir, stem, ext, k + 1);
    } else {
      assert FreeCandidate(taken, dir, stem, ext, k) == Candidate(dir, stem, ext, k);
    }
  }

  lemma FreeDestinationIsFirst(taken: set<string>, dir: string, filename: string)
    ensures FirstFreeDestination(taken, dir, filename, FreeDestination(taken, dir, filename))
  {
    if Join(dir, filename) in taken {
      FreeCandidateIsFirst(taken, dir, Stem(filename), Suffix(filename), 1);
    }
  }

  /** The stem of any path holds no separator, so no alternative name is absolute. */
  lemma CandidateNameRelative(filename: string, k: int)
    ensures !IsAbsolute(Stem(filename) + "_" + IntToString(k) + Suffix(filename))
  {
    NameIsLastSegment(filename);
    StemSuffixSplitName(filename);
    var stem := Stem(filename);
    if |stem| > 0 {
      assert stem[0] == Name(filename)[0];
    }
  }

  /**
   * Where a file lands: a free absolute client name is used as it stands, outside the upload directory;
   * every other destination, the plain name or an alternative, lies directly under the directory.
   */
  lemma DestinationPlacement(taken: set<string>, dir: string, filename: string)
    ensures IsAbsolute(filename) && filename !in taken ==> FreeDestination(taken, dir, filename) == filename
    ensures !IsAbsolute(filename) || filename in taken ==>
              |dir| < |FreeDestination(taken, dir, filename)| && FreeDestination(taken, dir, filename)[..|dir| + 1] == dir + "/"
  {
    var dest := FreeDestination(taken, dir, filename);
    JoinPlacesName(dir, filename);
    if Join(dir, filename) in taken {
      FreeCandidateIsFirst(taken, dir, Stem(filename), Suffix(filename), 1);
      var k :| 1 <= k && dest == Candidate(dir, Stem(filename), Suffix(filename), k);
      CandidateNameRelative(filename, k);
      JoinPlacesName(dir, Stem(filename) + "_" + IntToString(k) + Suffix(filename));
    }
  }

  /** The duplicate-name loop of `upload_files`: try the name, then `stem_1 + ext`, `stem_2 + ext`, ... */
  method ResolveDestination(taken: set<string>, dir: string, filename: string) returns (dest: string)
    ensures dest == FreeDestination(taken, dir, filename)
    ensures dest !in taken
  {
    dest := Join(dir, filename);
    var counter: nat := 1;
    while dest in taken
      invariant counter >= 1 && TriedUpTo(taken, dir, filename, dest, counter)
      decreases |taken| + 1 - counter
    {
      TryNext(taken, dir, filename, dest, counter);
      dest := Candidate(dir, Stem(filename), Suffix(filename), counter);
      counter := counter + 1;
    }
    LeaveLoop(taken, dir, filename, dest, counter);
  }

  /**
   * What the loop knows before trying `dest` with `counter`: `dest` is the plain name or the alternative
   * `counter - 1`, and everything tried before it exists.
   */
  ghost predicate TriedUpTo(taken: set<string>, dir: string, filename: string, dest: string, counter: nat) {
    var stem, ext := Stem(filename), Suffix(filename);
    && dest == (if counter <= 1 then Join(dir, filename) else Candidate(dir, stem, ext, counter - 1))
    && (counter > 1 ==> Join(dir, filename) in taken
                        && FreeCandidate(taken, dir, stem, ext, counter - 1) == FreeDestination(taken, dir, filename))
    && forall j :: 1 <= j < counter - 1 ==> Candidate(dir, stem, ext, j) in taken
  }

  /** An existing `dest` moves the loop on to the next alternative; the alternatives tried all exist, so they number at most the files. */
  lemma TryNext(taken: set<string>, dir: string, filename: string, dest: string, counter: nat)
    requires counter >= 1 && TriedUpTo(taken, dir, filename, dest, counter) && dest in taken
    ensures counter - 1 <= |taken|
    ensures TriedUpTo(taken, dir, filename, Candidate(dir, Stem(filename), Suffix(filename), counter), counter + 1)
  {
    var stem, ext := Stem(filename), Suffix(filename);
    assert forall j :: 1 <= j < counter ==> Candidate(dir, stem, ext, j) in taken;
    CandidatesFitIn(taken, dir, stem, ext, counter - 1);
    if counter > 1 {
      assert FreeCandidate(taken, dir, stem, ext, counter - 1) == FreeCandidate(taken, dir, stem, ext, counter);
    }
  }

  /** When `dest` does not exist the loop has found the reference destination. */
  lemma LeaveLoop(taken: set<string>, dir: string, filename: string, dest: string, counter: nat)
    requires counter >= 1 && TriedUpTo(taken, dir, filename, dest, counter) && dest !in taken
    ensures dest == FreeDestination(taken, dir, filename)
  {
  }

  /** One file of the request: its name (`None` when the client sent none) and its bytes. */
  datatype UploadFile = UploadFile(filename: Option<string>, content: seq<bv8>)

  /** `UploadedFile`: the registered id, the name as uploaded, the number of bytes written. */
  datatype UploadedFile = UploadedFile(id: string, name: string, sizeBytes: nat)

  /** `f.filename` is present, non-empty and allowed. */
  predicate Acceptable(f: UploadFile) {
    f.filename.Some? && f.filename.value != "" && IsAllowed(f.filename.value)
  }

  /** The detail of the 400 for a rejected file; a missing name prints as `None`. */
  function RejectDetail(f: UploadFile): string {
    "Invalid or unsupported file: " + (if f.filename.Some? then f.filename.value else "None")
  }

  /** The index of the first rejected file, or the number of files when all are acceptable. */
  function FirstRejected(files: seq<UploadFile>): nat {
    FirstFalse(Verdicts(files))
  }

  /** Whether each file is acceptable. */
  function Verdicts(files: seq<UploadFile>): seq<bool> {
    seq(|files|, i requires 0 <= i < |files| => Acceptable(files[i]))
  }

  /** Every file before the first rejected one is acceptable, and the first rejected one is not. */
  lemma FirstRejectedFinds(files: seq<UploadFile>)
    ensures FirstRejected(files) <= |files|
    ensures FirstRejected(files) < |files| ==> !Acceptable(files[FirstRejected(files)])
    ensures forall i :: 0 <= i < FirstRejected(files) ==> Acceptable(files[i])
  {
    var bs := Verdicts(files);
    FirstFalseFinds(bs);
    var n := FirstFalse(bs);
    forall i | 0 <= i < n ensures Acceptable(files[i]) {
      assert bs[i];
    }
    if n < |files| {
      assert !bs[n];
    }
  }

  /** Writes one accepted file to a fresh destination and registers it under `fid`. */
  method SaveOne(st: State, dir: string, f: UploadFile, fid: string) returns (u: UploadedFile, st': State)
    requires Valid(st) && Acceptable(f)
    ensures Valid(st') && st'.sessions == st.sessions
    ensures u == UploadedFile(fid, f.filename.value, |f.content|)
    ensures fid in st'.uploads
    ensures st'.uploads == st.uploads[fid := Upload(st'.uploads[fid].path, f.filename.value, |f.content|)]
    ensures st'.uploads[fid].path == FreeDestination(st.disk.Keys, dir, f.filename.value)
    ensures st'.uploads[fid].path !in st.disk && st'.disk == st.disk[st'.uploads[fid].path := |f.content|]
  {
    var name := f.filename.value;
    var dest := ResolveDestination(st.disk.Keys, dir, name);
    var written := st.(disk := st.disk[dest := |f.content|]);
    var stored := StoreUpload(written, dest, name, fid);
    st' := stored.value;
    u := UploadedFile(fid, name, |f.content|);
  }

  /** What the upload of files `0 .. n-1` leaves: each registered under its id with its name and size, at a new file. */
  ghost predicate Registered(st: State, st': State, files: seq<UploadFile>, ids: seq<string>, n: nat)
    requires n <= |files| == |ids|
  {
    && st.disk.Keys <= st'.disk.Keys
    && (forall i :: 0 <= i < n ==> ids[i] in st'.uploads && StoredAs(st, st', files[i], st'.uploads[ids[i]]))
    && (forall i, j :: 0 <= i < j < n ==> st'.uploads[ids[i]].path != st'.uploads[ids[j]].path)
    && (forall id :: id in st.uploads ==> id in st'.uploads && st'.uploads[id] == st.uploads[id])
    && (forall id :: id in st'.uploads ==> id in st.uploads || id in ids[..n])
  }

  /** The registry entry of an accepted file: its name and size, at a path that did not exist before and does now. */
  ghost predicate StoredAs(st: State, st': State, f: UploadFile, u: Upload) {
    && f.filename.Some? && u.name == f.filename.value && u.sizeBytes == |f.content|
    && u.path in st'.disk && u.path !in st.disk
  }

  /** Fresh UUIDs: distinct, and none already registered. */
  predicate FreshIds(st: State, ids: seq<string>) {
    && (forall i :: 0 <= i < |ids| ==> ids[i] !in st.uploads)
    && (forall i, j :: 0 <= i < j < |ids| ==> ids[i] != ids[j])
  }

  /** Saving file `n` under `ids[n]` extends what the first `n` files left. */
  lemma RegisteredStep(st: State, mid: State, next: State, files: seq<UploadFile>, ids: seq<string>, n: nat,
                       path: string)
    requires n < |files| == |ids| && FreshIds(st, ids)
    requires Registered(st, mid, files, ids, n)
    requires files[n].filename.Some?
    requires next.uploads == mid.uploads[ids[n] := Upload(path, files[n].filename.value, |files[n].content|)]
    requires path !in mid.disk && next.disk == mid.disk[path := |files[n].content|]
    ensures Registered(st, next, files, ids, n + 1)
  {
    assert ids[..n + 1] == ids[..n] + [ids[n]];
    forall i | 0 <= i < n ensures ids[i] != ids[n] && ids[i] in next.uploads && next.uploads[ids[i]] == mid.uploads[ids[i]] {
    }
    forall id | id in st.uploads ensures id != ids[n] {
    }
    forall i | 0 <= i < n + 1 ensures ids[i] in next.uploads && StoredAs(st, next, files[i], next.uploads[ids[i]]) {
    }
    forall i, j | 0 <= i < j < n + 1 ensures next.uploads[ids[i]].path != next.uploads[ids[j]].path {
      if j == n {
        assert next.uploads[ids[i]].path in mid.disk;
      }
    }
    forall id | id in next.uploads ensures id in st.uploads || id in ids[..n + 1] {
    }
  }

  /** Saves the first `n` files, all acceptable, each under its UUID, in order. */
  method SaveAll(st: State, dir: string, files: seq<UploadFile>, ids: seq<string>, n: nat)
    returns (saved: seq<UploadedFile>, st': State)
    requires Valid(st) && n <= |files| == |ids| && FreshIds(st, ids)
    requires forall k :: 0 <= k < n ==> Acceptable(files[k])
    ensures Valid(st') && st'.sessions == st.sessions
    ensures Registered(st, st', files, ids, n)
    ensures |saved| == n
    ensures forall k :: 0 <= k < n ==> saved[k] == UploadedFile(ids[k], files[k].filename.value, |files[k].content|)
  {
    saved := [];
    st' := st;
    var i := 0;
    while i < n
      invariant i <= n
      invariant Valid(st') && st'.sessions == st.sessions
      invariant Registered(st, st', files, ids, i)
      invariant |saved| == i
      invariant forall k :: 0 <= k < i ==> saved[k] == UploadedFile(ids[k], files[k].filename.value, |files[k].content|)
    {
      saved, st' := SaveNext(st, dir, files, ids, i, saved, st');
      i := i + 1;
    }
  }

  /** Saves file `i` after the first `i`, keeping what the loop of `SaveAll` keeps. */
  method SaveNext(st: State, dir: string, files: seq<UploadFile>, ids: seq<string>, i: nat,
                  saved: seq<UploadedFile>, mid: State)
    returns (saved': seq<UploadedFile>, next: State)
    requires i < |files| == |ids| && FreshIds(st, ids) && Acceptable(files[i])
    requires Valid(mid) && mid.sessions == st.sessions
    requires Registered(st, mid, files, ids, i)
    requires |saved| == i
    requires forall k :: 0 <= k < i ==> saved[k] == UploadedFile(ids[k], files[k].filename.value, |files[k].content|)
    ensures Valid(next) && next.sessions == st.sessions
    ensures Registered(st, next, files, ids, i + 1)
    ensures |saved'| == i + 1
    ensures forall k :: 0 <= k < i + 1 ==> saved'[k] == UploadedFile(ids[k], files[k].filename.value, |files[k].content|)
  {
    var u;
    u, next := SaveOne(mid, dir, files[i], ids[i]);
    RegisteredStep(st, mid, next, files, ids, i, next.uploads[ids[i]].path);
    saved' := saved + [u];
  }

  /**
   * `upload_files`: 400 for an empty request; otherwise each file in turn, stopping with 400 at the first
   * rejected one. `dir` is the upload directory and `ids` the UUIDs drawn, one per file.
   */
  method UploadFiles(st: State, dir: string, files: seq<UploadFile>, ids: seq<string>)
    returns (r: Http<seq<UploadedFile>>, st': State)
    requires Valid(st) && |ids| == |files| && FreshIds(st, ids)
    ensures Valid(st') && st'.sessions == st.sessions
    ensures |files| == 0 ==> r == HttpError(400, "No files provided") && st' == st
    ensures r.Success? <==> |files| > 0 && FirstRejected(files) == |files|
    ensures r.HttpError? && |files| > 0 ==>
              FirstRejected(files) < |files| && r.status == 400 && r.detail == RejectDetail(files[FirstRejected(files)])
    ensures FirstRejected(files) <= |files| && Registered(st, st', files, ids, FirstRejected(files))
    ensures r.Success? ==>
              |r.value| == |files|
              && forall i :: 0 <= i < |files| ==>
                   r.value[i] == UploadedFile(ids[i], files[i].filename.value, |files[i].content|)
  {
    FirstRejectedFinds(files);
    if |files| == 0 {
      return HttpError(400, "No files provided"), st;
    }
    var n := FirstRejected(files);
    var saved;
    saved, st' := SaveAll(st, dir, files, ids, n);
    if n < |files| {
      r := HttpError(400, RejectDetail(files[n]));
    } else {
      r := Success(saved);
    }
  }
}

=== FILE: history.dfy ===
/**
 * The history ledger: an append-only table of successfully processed jobs, consulted to skip
 * work already done, to seed sequential numbering and to avoid reusing output titles.
 */
module History {
  import opened Common

  /** One row of `processed_videos`; the row id and `processed_at` timestamp are not modelled. */
  datatype Record = Record(
    sourcePath: string,
    prefix: string,
    namingMode: string,
    sequentialNumber: Option<int>,
    outputTitle: string,
    outputMode: string,
    outputPath: Option<string>,
    docId: Option<string>,
    docUrl: Option<string>,
    language: Option<string>)

  /** An open connection to the ledger; closing it keeps the rows on disk. */
  datatype Connection = Connection(rows: seq<Record>, isOpen: bool)

  /** `HistoryDB()`: opens the ledger holding `rows`. */
  function Open(rows: seq<Record>): (c: Connection)
    ensures c.isOpen && c.rows == rows
  {
    Connection(rows, true)
  }

  /** `HistoryDB.close`: ends the connection; the committed rows stay. */
  function Close(c: Connection): (d: Connection)
    ensures !d.isOpen && d.rows == c.rows
  {
    c.(isOpen := false)
  }

  /** Whether a row enters `MAX(sequential_number)` for `prefix`: same prefix, sequential mode, non-NULL number. */
  predicate CountsToward(r: Record, prefix: string) {
    r.prefix == prefix && r.namingMode == "sequential" && r.sequentialNumber.Some?
  }

  /** `MAX(sequential_number)` over the rows that count toward `prefix` (`None` when SQL gives NULL). */
  function MaxSequential(rows: seq<Record>, prefix: string): Option<int> {
    if |rows| == 0 then None
    else
      var last := rows[|rows| - 1];
      var rest := MaxSequential(rows[..|rows| - 1], prefix);
      if !CountsToward(last, prefix) then rest
      else if rest.Some? && rest.value >= last.sequentialNumber.value then rest
      else Some(last.sequentialNumber.value)
  }

  /** The aggregate is NULL exactly when no row counts, and otherwise the largest number of a counting row. */
  lemma {:induction false} MaxSequentialIsMax(rows: seq<Record>, prefix: string)
    ensures MaxSequential(rows, prefix).None? <==> forall i :: 0 <= i < |rows| ==> !CountsToward(rows[i], prefix)
    ensures MaxSequential(rows, prefix).Some? ==>
              forall i :: 0 <= i < |rows| && CountsToward(rows[i], prefix) ==>
                rows[i].sequentialNumber.value <= MaxSequential(rows, prefix).value
    ensures MaxSequential(rows, prefix).Some? ==>
              exists i :: 0 <= i < |rows| && CountsToward(rows[i], prefix) &&
                rows[i].sequentialNumber.value == MaxSequential(rows, prefix).value
  {
    if |rows| > 0 {
      var init := rows[..|rows| - 1];
      MaxSequentialIsMax(init, prefix);
      assert forall i :: 0 <= i < |init| ==> init[i] == rows[i];
      var rest := MaxSequential(init, prefix);
      if rest.Some? {
        var j :| 0 <= j < |init| && CountsToward(init[j], prefix) && init[j].sequentialNumber.value == rest.value;
        assert rows[j] == init[j];
      }
      if CountsToward(rows[|rows| - 1], prefix) && !(rest.Some? && rest.value >= rows[|rows| - 1].sequentialNumber.value) {
        assert CountsToward(rows[|rows| - 1], prefix);
      }
    }
  }

  /** `get_next_sequential_number`: `COALESCE(MAX(sequential_number), 0) + 1`. */
  function NextSequentialNumber(rows: seq<Record>, prefix: string): int {
    match MaxSequential(rows, prefix)
    case None => 1
    case Some(m) => m + 1
  }

  /** The next number exceeds every counted number, is 1 when none counts, and is one past the largest otherwise. */
  lemma NextSequentialBound(rows: seq<Record>, prefix: string)
    ensures forall i :: 0 <= i < |rows| && CountsToward(rows[i], prefix) ==>
              rows[i].sequentialNumber.value < NextSequentialNumber(rows, prefix)
    ensures (forall i :: 0 <= i < |rows| ==> !CountsToward(rows[i], prefix)) ==> NextSequentialNumber(rows, prefix) == 1
    ensures (exists i :: 0 <= i < |rows| && CountsToward(rows[i], prefix)) ==>
              exists i :: 0 <= i < |rows| && CountsToward(rows[i], prefix) &&
                rows[i].sequentialNumber.value == NextSequentialNumber(rows, prefix) - 1
  {
    MaxSequentialIsMax(rows, prefix);
  }

  /** `is_already_processed`: a scan for a row matching source, prefix and output mode. */
  function IsAlreadyProcessed(rows: seq<Record>, sourcePath: string, prefix: string, outputMode: string): bool {
    if |rows| == 0 then false
    else
      var r := rows[|rows| - 1];
      (r.sourcePath == sourcePath && r.prefix == prefix && r.outputMode == outputMode)
      || IsAlreadyProcessed(rows[..|rows| - 1], sourcePath, prefix, outputMode)
  }

  /** The scan answers yes exactly when some row has that source, prefix and output mode. */
  lemma {:induction false} IsAlreadyProcessedFinds(rows: seq<Record>, sourcePath: string, prefix: string, outputMode: string)
    ensures IsAlreadyProcessed(rows, sourcePath, prefix, outputMode) <==>
              exists i :: 0 <= i < |rows| && rows[i].sourcePath == sourcePath &&
                rows[i].prefix == prefix && rows[i].outputMode == outputMode
  {
    if |rows| > 0 {
      var init := rows[..|rows| - 1];
      IsAlreadyProcessedFinds(init, sourcePath, prefix, outputMode);
      assert forall i :: 0 <= i < |init| ==> init[i] == rows[i];
    }
  }

  /** `get_output_title_exists`: a scan for a row with that title and output mode, whatever its prefix. */
  function OutputTitleExists(rows: seq<Record>, title: string, outputMode: string): bool {
    if |rows| == 0 then false
    else
      var r := rows[|rows| - 1];
      (r.outputTitle == title && r.outputMode == outputMode)
      || OutputTitleExists(rows[..|rows| - 1], title, outputMode)
  }

  /** The scan answers yes exactly when some row has that title and output mode. */
  lemma {:induction false} OutputTitleExistsFinds(rows: seq<Record>, title: string, outputMode: string)
    ensures OutputTitleExists(rows, title, outputMode) <==>
              exists i :: 0 <= i < |rows| && rows[i].outputTitle == title && rows[i].outputMode == outputMode
  {
    if |rows| > 0 {
      var init := rows[..|rows| - 1];
      OutputTitleExistsFinds(init, title, outputMode);
      assert forall i :: 0 <= i < |init| ==> init[i] == rows[i];
    }
  }

  /** The titles already used for `outputMode`, collected from the front. */
  function UsedTitles(rows: seq<Record>, outputMode: string): set<string> {
    if |rows| == 0 then {}
    else
      var r := rows[|rows| - 1];
      UsedTitles(rows[..|rows| - 1], outputMode) + (if r.outputMode == outputMode then {r.outputTitle} else {})
  }

  /** The title query answers membership in the used titles. */
  lemma {:induction false} UsedTitlesAnswersQuery(rows: seq<Record>, outputMode: string, title: string)
    ensures title in UsedTitles(rows, outputMode) <==> OutputTitleExists(rows, title, outputMode)
  {
    if |rows| > 0 {
      UsedTitlesAnswersQuery(rows[..|rows| - 1], outputMode, title);
    }
  }

  /** `record`: inserts one row and commits at once. */
  function Append(rows: seq<Record>, r: Record): seq<Record> {
    rows + [r]
  }

  /** A recorded row is seen by every later query of the same run. */
  lemma AppendIsVisible(rows: seq<Record>, r: Record)
    ensures IsAlreadyProcessed(Append(rows, r), r.sourcePath, r.prefix, r.outputMode)
    ensures OutputTitleExists(Append(rows, r), r.outputTitle, r.outputMode)
    ensures |Append(rows, r)| == |rows| + 1 && Append(rows, r)[..|rows|] == rows
  {
    assert Append(rows, r)[|rows|] == r;
  }

  /** Appending never makes a query forget a row: answers only change from false to true. */
  lemma AppendIsMonotonic(rows: seq<Record>, r: Record, src: string, prefix: string, mode: string, title: string)
    ensures IsAlreadyProcessed(rows, src, prefix, mode) ==> IsAlreadyProcessed(Append(rows, r), src, prefix, mode)
    ensures OutputTitleExists(rows, title, mode) ==> OutputTitleExists(Append(rows, r), title, mode)
    ensures !(r.sourcePath == src && r.prefix == prefix && r.outputMode == mode) ==>
              IsAlreadyProcessed(Append(rows, r), src, prefix, mode) == IsAlreadyProcessed(rows, src, prefix, mode)
  {
    assert Append(rows, r)[..|rows|] == rows;
  }

  /** Rows of other prefixes or of original naming leave sequential numbering alone. */
  lemma NextSequentialIgnoresOthers(rows: seq<Record>, r: Record, prefix: string)
    requires !CountsToward(r, prefix)
    ensures NextSequentialNumber(Append(rows, r), prefix) == NextSequentialNumber(rows, prefix)
  {
    assert Append(rows, r)[..|rows|] == rows;
  }

  /** Recording number `n` for `prefix` makes the next number exceed `n`; recording the seeded number advances it by one. */
  lemma NextSequentialAfterRecord(rows: seq<Record>, r: Record, prefix: string)
    requires CountsToward(r, prefix)
    ensures NextSequentialNumber(Append(rows, r), prefix) > r.sequentialNumber.value
    ensures r.sequentialNumber.value >= 0 ==>
              NextSequentialNumber(Append(rows, r), prefix) >= NextSequentialNumber(rows, prefix)
    ensures r.sequentialNumber.value == NextSequentialNumber(rows, prefix) ==>
              NextSequentialNumber(Append(rows, r), prefix) == r.sequentialNumber.value + 1
  {
    var all := Append(rows, r);
    assert all[..|rows|] == rows;
    assert all[|all| - 1] == r;
    var rest := MaxSequential(rows, prefix);
    var m := MaxSequential(all, prefix);
    assert m.Some? && m.value >= r.sequentialNumber.value;
    assert rest.Some? ==> m.value >= rest.value;
  }
}

=== FILE: markdown_export.dfy ===
/** The local-files exporter: a filesystem-safe file name and the Markdown body written for a transcript. */
module MarkdownExport {
  import opened Common
  import opened Text
  import opened Paths

  /** `str.isalnum()` on one character, restricted to ASCII letters and digits. */
  predicate IsAlnum(c: char) {
    'a' <= c <= 'z' || 'A' <= c <= 'Z' || '0' <= c <= '9'
  }

  /** A character the exporter keeps in a file name: alphanumerics, `-`, `_` and space. */
  predicate IsSafe(c: char) {
    IsAlnum(c) || c == '-' || c == '_' || c == ' '
  }

  /** `safe_name`: every character of the title that is not safe becomes `_`. */
  function SafeName(title: string): (r: string)
    ensures |r| == |title|
    ensures forall i :: 0 <= i < |title| ==> r[i] == (if IsSafe(title[i]) then title[i] else '_')
  {
    if |title| == 0 then ""
    else
      var c := title[|title| - 1];
      SafeName(title[..|title| - 1]) + [if IsSafe(c) then c else '_']
  }

  /** The sanitised name holds only safe characters, so it has no path separator or dot. */
  lemma SafeNameIsSafe(title: string)
    ensures forall i :: 0 <= i < |SafeName(title)| ==> IsSafe(SafeName(title)[i])
    ensures '/' !in SafeName(title) && '.' !in SafeName(title)
  {
  }

  /** A title made only of safe characters is its own file name; hence sanitising twice changes nothing. */
  lemma SafeNameIdempotent(title: string)
    ensures (forall i :: 0 <= i < |title| ==> IsSafe(title[i])) ==> SafeName(title) == title
    ensures SafeName(SafeName(title)) == SafeName(title)
  {
  }

  /** `output_dir / f"{safe_name}.md"`. */
  function OutputPath(outputDir: string, title: string): string {
    Join(outputDir, SafeName(title) + ".md")
  }

  /** The file lands directly in the output directory, named after the sanitised title, with suffix `.md`. */
  lemma OutputPathParts(outputDir: string, title: string)
    requires |title| > 0
    ensures Name(OutputPath(outputDir, title)) == SafeName(title) + ".md"
    ensures Suffix(OutputPath(outputDir, title)) == ".md"
    ensures Stem(OutputPath(outputDir, title)) == SafeName(title)
  {
    SafeNameIsSafe(title);
    MarkdownFileParts(outputDir, SafeName(title));
  }

  /** The text written to the file: a level-one heading with the unsanitised title, a blank line, the transcript. */
  function FileBody(title: string, transcript: string): string {
    "# " + title + "\n\n" + transcript + "\n"
  }

  /** Reads a body back into its heading title and transcript, if it has the exporter's layout. */
  function ParseBody(body: string): Option<(string, string)> {
    if |body| < 2 || body[..2] != "# " then None
    else
      var rest := body[2..];
      FirstIndexOfFinds(rest, '\n');
      match FirstIndexOf(rest, '\n')
      case None => None
      case Some(i) =>
        var tail := rest[i + 1..];
        if |tail| < 2 || tail[0] != '\n' || tail[|tail| - 1] != '\n' then None
        else Some((rest[..i], tail[1..|tail| - 1]))
  }

  /** For a single-line title, the heading and transcript are recovered exactly from the written body. */
  lemma {:induction false} FileBodyRoundTrip(title: string, transcript: string)
    requires '\n' !in title
    ensures ParseBody(FileBody(title, transcript)) == Some((title, transcript))
  {
    var body := FileBody(title, transcript);
    var rest := body[2..];
    assert rest == title + "\n\n" + transcript + "\n";
    FirstNewline(title, "\n" + transcript + "\n");
    assert rest == title + "\n" + ("\n" + transcript + "\n");
    var tail := rest[|title| + 1..];
    assert tail == "\n" + transcript + "\n";
    assert tail[1..|tail| - 1] == transcript;
    assert rest[..|title|] == title;
  }

  /** What `MarkdownExporter.export` produces: the path it returns and the text it writes there. */
  datatype ExportedFile = ExportedFile(path: string, body: string)

  function Export(outputDir: string, title: string, transcript: string): (f: ExportedFile)
    ensures |title| > 0 ==> Name(f.path) == SafeName(title) + ".md"
    ensures '\n' !in title ==> ParseBody(f.body) == Some((title, transcript))
  {
    ExportFacts(outputDir, title, transcript);
    ExportedFile(OutputPath(outputDir, title), FileBody(title, transcript))
  }

  lemma ExportFacts(outputDir: string, title: string, transcript: string)
    ensures |title| > 0 ==> Name(OutputPath(outputDir, title)) == SafeName(title) + ".md"
    ensures '\n' !in title ==> ParseBody(FileBody(title, transcript)) == Some((title, transcript))
  {
    if |title| > 0 { OutputPathParts(outputDir, title); }
    if '\n' !in title { FileBodyRoundTrip(title, transcript); }
  }
}

=== FILE: models.dfy ===
/** The program's shared data: the three enumerations, the run configuration, a job, and title building. */
module Models {
  import opened Common
  import opened Text
  import opened Paths

  /** How output titles are numbered: `prefix_N` or `prefix_<file stem>`. */
  datatype NamingMode = Sequential | Original {
    /** The enumeration's stored value. */
    function Value(): string {
      match this
      case Sequential => "sequential"
      case Original => "original"
    }
  }

  /** `NamingMode(s)`: lookup by stored value, failing (a `ValueError`) for any other text. */
  function ParseNamingMode(s: string): (m: Option<NamingMode>)
    ensures m.Some? <==> s in {"sequential", "original"}
    ensures m.Some? ==> m.value.Value() == s
  {
    if s == "sequential" then Some(Sequential)
    else if s == "original" then Some(Original)
    else None
  }

  lemma ParseNamingModeInverse(m: NamingMode)
    ensures ParseNamingMode(m.Value()) == Some(m)
  {
  }

  /** A job's lifecycle: pending, then transcribing, uploading, done, with error reachable on failure. */
  datatype JobStatus = Pending | Transcribing | Uploading | Done | Error {
    function Value(): string {
      match this
      case Pending => "pending"
      case Transcribing => "transcribing"
      case Uploading => "uploading"
      case Done => "done"
      case Error => "error"
    }

    /** Position in the lifecycle; every transition the pipeline makes raises it. */
    function Rank(): nat {
      match this
      case Pending => 0
      case Transcribing => 1
      case Uploading => 2
      case Done => 3
      case Error => 4
    }
  }

  /** Where transcripts go: a Google Docs folder or local Markdown files. */
  datatype OutputMode = GoogleDocs | Markdown {
    function Value(): string {
      match this
      case GoogleDocs => "google_docs"
      case Markdown => "markdown"
    }
  }

  datatype AppConfig = AppConfig(
    deepgramApiKey: string,
    googleServiceAccountJson: string,
    driveFolderId: string,
    namingMode: NamingMode,
    prefix: string,
    markdownOutputDir: string)

  const DefaultPrefix: string := "Transcripcion"
  const DefaultOutputDir: string := "./output"

  /** `AppConfig()` with every field defaulted. */
  function DefaultConfig(): (c: AppConfig)
    ensures c.namingMode == Sequential && c.prefix == "Transcripcion" && c.markdownOutputDir == "./output"
    ensures c.deepgramApiKey == "" && c.googleServiceAccountJson == "" && c.driveFolderId == ""
    ensures OutputModeOf(c) == Markdown
  {
    AppConfig("", "", "", Sequential, DefaultPrefix, DefaultOutputDir)
  }

  /** `AppConfig.output_mode`: Google Docs needs both the credentials file and the folder id. */
  function OutputModeOf(c: AppConfig): (m: OutputMode)
    ensures m == GoogleDocs <==> c.googleServiceAccountJson != "" && c.driveFolderId != ""
    ensures m == Markdown <==> c.googleServiceAccountJson == "" || c.driveFolderId == ""
  {
    if c.googleServiceAccountJson != "" && c.driveFolderId != "" then GoogleDocs else Markdown
  }

  /** `LANGUAGES`: display names of the selectable language codes. */
  const Languages: map<string, string> := map[
    "es" := "Spanish", "en" := "English", "multi" := "Multilingual", "fr" := "French",
    "pt" := "Portuguese", "de" := "German", "it" := "Italian", "hi" := "Hindi",
    "ja" := "Japanese", "ru" := "Russian", "nl" := "Dutch"]

  /** `LANGUAGES.get(code, code)`. */
  function LanguageLabel(code: string): (display: string)
    ensures code in Languages ==> display == Languages[code]
    ensures code !in Languages ==> display == code
  {
    if code in Languages then Languages[code] else code
  }

  /** One file to transcribe, with the fields the pipeline fills in as it advances. */
  datatype VideoJob = VideoJob(
    path: string,
    language: string,
    status: JobStatus,
    transcript: string,
    docId: string,
    docUrl: string,
    outputPath: string,
    error: string)

  const DefaultLanguage: string := "es"

  /** `VideoJob(path)` with the dataclass defaults. */
  function NewJob(path: string): (j: VideoJob)
    ensures j.path == path && j.status == Pending && j.language == "es"
    ensures j.transcript == "" && j.docId == "" && j.docUrl == "" && j.outputPath == "" && j.error == ""
  {
    VideoJob(path, DefaultLanguage, Pending, "", "", "", "", "")
  }

  /** `build_doc_title`: sequential mode numbers with `index + 1`; original mode uses the file stem. */
  function BuildDocTitle(config: AppConfig, filePath: string, index: int): string {
    match config.namingMode
    case Sequential => config.prefix + "_" + IntToString(index + 1)
    case Original => config.prefix + "_" + Stem(filePath)
  }

  /** A title always begins with the prefix and an underscore. */
  lemma BuildDocTitleShape(config: AppConfig, filePath: string, index: int)
    ensures var t := BuildDocTitle(config, filePath, index);
            |t| > |config.prefix| && t[..|config.prefix| + 1] == config.prefix + "_"
    ensures config.namingMode == Original ==>
              BuildDocTitle(config, filePath, index)[|config.prefix| + 1..] == Stem(filePath)
  {
  }

  /** In original mode the index is ignored. */
  lemma OriginalTitleIgnoresIndex(config: AppConfig, filePath: string, i: int, j: int)
    requires config.namingMode == Original
    ensures BuildDocTitle(config, filePath, i) == BuildDocTitle(config, filePath, j)
  {
  }

  /** In sequential mode the numeral after the prefix is `index + 1`, so distinct indexes give distinct titles. */
  lemma SequentialTitleNumbering(config: AppConfig, filePath: string, i: int, j: int)
    requires config.namingMode == Sequential
    ensures i >= 0 ==>
              var numeral := BuildDocTitle(config, filePath, i)[|config.prefix| + 1..];
              AllDigits(numeral) && DigitsValue(numeral) == i + 1
    ensures BuildDocTitle(config, filePath, i) == BuildDocTitle(config, filePath, j) <==> i == j
  {
    if i >= 0 {
      SequentialNumeral(config, filePath, i);
    }
    SequentialTitleInjective(config, filePath, i, j);
  }

  lemma SequentialTitleInjective(config: AppConfig, filePath: string, i: int, j: int)
    requires config.namingMode == Sequential
    ensures BuildDocTitle(config, filePath, i) == BuildDocTitle(config, filePath, j) ==> i == j
  {
    var a := config.prefix + "_";
    if BuildDocTitle(config, filePath, i) == BuildDocTitle(config, filePath, j) {
      assert a + IntToString(i + 1) + "" == a + IntToString(j + 1) + "";
      CancelAffixes(a, IntToString(i + 1), IntToString(j + 1), "");
      IntToStringInjective(i + 1, j + 1);
    }
  }

  lemma SequentialNumeral(config: AppConfig, filePath: string, i: nat)
    requires config.namingMode == Sequential
    ensures BuildDocTitle(config, filePath, i)[|config.prefix| + 1..] == NatToString(i + 1)
    ensures AllDigits(NatToString(i + 1)) && DigitsValue(NatToString(i + 1)) == i + 1
  {
    var t := BuildDocTitle(config, filePath, i);
    assert t == (config.prefix + "_") + NatToString(i + 1);
    DigitsValueOfNatToString(i + 1);
  }
}

=== FILE: paths.dfy ===
/**
 * The parts of Python's `pathlib` the program relies on, over POSIX path strings:
 * `name`, `suffix`, `stem` and the `/` join operator.
 */
module Paths {
  import opened Common
  import opened Text

  /** `Path(p).name`: the text after the last `/`. */
  function Name(p: string): string {
    LastIndexOfFinds(p, '/');
    match LastIndexOf(p, '/')
    case None => p
    case Some(i) => p[i + 1..]
  }

  /** The name is the part of the path after its last separator: it ends the path and holds no `/`. */
  lemma NameIsLastSegment(p: string)
    ensures '/' !in Name(p)
    ensures |Name(p)| <= |p| && Name(p) == p[|p| - |Name(p)|..]
  {
    LastIndexOfFinds(p, '/');
    match LastIndexOf(p, '/')
    case None =>
    case Some(i) =>
      var n := p[i + 1..];
      forall k | 0 <= k < |n| ensures n[k] != '/' {
        assert n[k] == p[i + 1 + k];
      }
  }

  /** Index of the dot that starts the suffix of a name: the last dot, unless it leads or ends the name. */
  function SuffixDot(n: string): Option<nat> {
    match LastIndexOf(n, '.')
    case None => None
    case Some(i) => if 0 < i < |n| - 1 then Some(i) else None
  }

  /** `Path(p).suffix`: the final extension including its dot, or "" when there is none. */
  function Suffix(p: string): string {
    var n := Name(p);
    match SuffixDot(n)
    case None => ""
    case Some(i) => n[i..]
  }

  /** `Path(p).stem`: the name without its suffix. */
  function Stem(p: string): string {
    var n := Name(p);
    match SuffixDot(n)
    case None => n
    case Some(i) => n[..i]
  }

  /** Stem and suffix split the name exactly. */
  lemma StemSuffixSplitName(p: string)
    ensures Stem(p) + Suffix(p) == Name(p)
  {
  }

  /**
   * `Path(dir) / name`, without `pathlib`'s normalisation of `.` and repeated separators: an absolute
   * `name` replaces the directory, any other name is placed under it.
   */
  function Join(dir: string, name: string): string {
    if IsAbsolute(name) then name else dir + "/" + name
  }

  /** A POSIX path is absolute when it starts with `/`. */
  predicate IsAbsolute(p: string) {
    |p| > 0 && p[0] == '/'
  }

  /** `/` keeps a relative name inside the directory, and drops the directory for an absolute one. */
  lemma JoinPlacesName(dir: string, name: string)
    ensures !IsAbsolute(name) ==> Join(dir, name) == dir + "/" + name && Join(dir, name)[..|dir| + 1] == dir + "/"
    ensures IsAbsolute(name) ==> Join(dir, name) == name
  {
  }

  /**
   * A file `stem + ext` placed in any directory has suffix `ext` and stem `stem`,
   * when the stem is a non-empty name and `ext` is a dot followed by a dot-free word.
   */
  lemma {:induction false} JoinedFileParts(dir: string, stem: string, ext: string)
    requires |stem| > 0 && '/' !in stem
    requires 2 <= |ext| && ext[0] == '.' && '/' !in ext && '.' !in ext[1..]
    ensures Name(Join(dir, stem + ext)) == stem + ext
    ensures Suffix(Join(dir, stem + ext)) == ext
    ensures Stem(Join(dir, stem + ext)) == stem
  {
    var p := Join(dir, stem + ext);
    var n := stem + ext;
    assert n[0] == stem[0] != '/';
    assert p == dir + "/" + n;
    assert p[|dir|] == '/';
    assert forall j :: |dir| < j < |p| ==> p[j] == n[j - |dir| - 1];
    LastIndexOfFinds(p, '/');
    assert LastIndexOf(p, '/') == Some(|dir|);
    assert p[|dir| + 1..] == n;
    assert n[|stem|] == '.';
    assert forall j :: |stem| < j < |n| ==> n[j] == ext[j - |stem|];
    assert forall j :: |stem| < j < |n| ==> n[j] != '.' by {
      forall j | |stem| < j < |n| ensures n[j] != '.' {
        assert ext[j - |stem|] == ext[1..][j - |stem| - 1];
      }
    }
    LastIndexOfFinds(n, '.');
    assert LastIndexOf(n, '.') == Some(|stem|);
    assert n[|stem|..] == ext;
    assert n[..|stem|] == stem;
  }

  /** The same split for a Markdown file `dir/stem.md`. */
  lemma MarkdownFileParts(dir: string, stem: string)
    requires |stem| > 0 && '/' !in stem
    ensures Name(Join(dir, stem + ".md")) == stem + ".md"
    ensures Suffix(Join(dir, stem + ".md")) == ".md"
    ensures Stem(Join(dir, stem + ".md")) == stem
  {
    var ext := ".md";
    assert ext == ['.', 'm', 'd'];
    assert ext[1..] == ['m', 'd'];
    JoinedFileParts(dir, stem, ext);
  }
}

=== FILE: pipeline.dfy ===
/**
 * `run_pipeline`: the batch orchestrator. Each pending job is skipped when the ledger already holds
 * its (source, prefix, output mode); otherwise it is transcribed, titled, exported and recorded, with
 * any failure confined to that job. The callbacks become a list of events, and the outside world
 * (file system, speech service, exporter, ledger write) becomes one `JobWorld` of outcomes per job.
 */
module Pipeline {
  import opened Common
  import opened Text
  import opened Paths
  import opened Models
  import History
  import MarkdownExport
  import Transcription

  /** `LogLevel`. */
  datatype LogLevel = Info | Highlight | SuccessLevel | Warning | ErrorLevel | Dim {
    function Value(): string {
      match this
      case Info => "info"
      case Highlight => "highlight"
      case SuccessLevel => "success"
      case Warning => "warning"
      case ErrorLevel => "error"
      case Dim => "dim"
    }
  }

  /**
   * The log lines the pipeline writes, by kind, holding the job's path and language code; `LogText`
   * renders them. Sizes in MB and traceback text are not modelled.
   */
  datatype LogMessage =
    | SkippedMsg(path: string, prefix: string)
    | TranscribingMsg(path: string, language: string)
    | AdapterMsg(note: Transcription.Note)
    | UploadingMsg(title: string)
    | CreatedMsg(title: string, docId: string)
    | SavingMsg(title: string)
    | SavedMsg(path: string)
    | JobErrorMsg(path: string, message: string)
    | TraceMsg
    | AllCompletedMsg

  /** The one-line status labels, with the `[position/total]` counter; `LabelText` renders them. */
  datatype StatusLabel =
    | TranscribingLabel(path: string, language: string, position: nat, total: nat)
    | UploadingLabel(title: string, position: nat, total: nat)
    | SavingLabel(title: string, position: nat, total: nat)
    | DoneLabel

  /** One call into `PipelineCallbacks`. */
  datatype Event =
    | Log(message: LogMessage, level: LogLevel)
    | JobStatusChanged(job: VideoJob)
    | ProgressAdvance(steps: int)
    | StatusLabelSet(text: StatusLabel)

  /** The text of a log line; the file is shown by its name and the language by its display name. */
  function LogText(m: LogMessage): string {
    match m
    case SkippedMsg(path, prefix) => "Skipped: " + Name(path) + " (already processed with prefix '" + prefix + "')"
    case TranscribingMsg(path, language) => "Transcribing: " + Name(path) + " (" + LanguageLabel(language) + ")"
    case AdapterMsg(note) => "  " + Transcription.NoteText(note)
    case UploadingMsg(title) => "Uploading: " + title
    case CreatedMsg(title, docId) => "Created: " + title + " (ID: " + docId + ")"
    case SavingMsg(title) => "Saving: " + title + ".md"
    case SavedMsg(path) => "Saved: " + path
    case JobErrorMsg(path, message) => "Error: " + Name(path) + " \U{2014} " + message
    case TraceMsg => "Traceback"
    case AllCompletedMsg => "All tasks completed."
  }

  /** The text of a status label. */
  function LabelText(l: StatusLabel): string {
    match l
    case TranscribingLabel(path, language, position, total) =>
      "Transcribing " + Name(path) + " (" + LanguageLabel(language) + ") [" + NatToString(position) + "/" + NatToString(total) + "]..."
    case UploadingLabel(title, position, total) =>
      "Uploading " + title + " to Google Docs [" + NatToString(position) + "/" + NatToString(total) + "]..."
    case SavingLabel(title, position, total) =>
      "Saving " + title + ".md [" + NatToString(position) + "/" + NatToString(total) + "]..."
    case DoneLabel => "Done!"
  }

  /** What the outside world does for one job: each external step either returns or raises. */
  datatype JobWorld = JobWorld(
    stat: Outcome<()>,                  // job.path.stat() before transcribing
    adapter: Transcription.World,       // everything `transcribe` touches
    delivery: Outcome<string>,          // the exporter; its value is the Google Docs id
    ledgerWrite: Outcome<()>)           // history.record

  /** Sum of the steps of all progress events. */
  function ProgressTotal(events: seq<Event>): int {
    if |events| == 0 then 0
    else (if events[0].ProgressAdvance? then events[0].steps else 0) + ProgressTotal(events[1..])
  }

  /** The statuses reported through `on_job_status_changed`, in order. */
  function StatusTrail(events: seq<Event>): seq<JobStatus> {
    if |events| == 0 then []
    else (if events[0].JobStatusChanged? then [events[0].job.status] else []) + StatusTrail(events[1..])
  }

  lemma {:induction false} EventsAppend(a: seq<Event>, b: seq<Event>)
    ensures ProgressTotal(a + b) == ProgressTotal(a) + ProgressTotal(b)
    ensures StatusTrail(a + b) == StatusTrail(a) + StatusTrail(b)
  {
    if |a| > 0 {
      assert (a + b)[0] == a[0];
      assert (a + b)[1..] == a[1..] + b;
      EventsAppend(a[1..], b);
    } else {
      assert a + b == b;
    }
  }

  /** Only log lines and status labels. */
  predicate Quiet(events: seq<Event>) {
    forall i :: 0 <= i < |events| ==> events[i].Log? || events[i].StatusLabelSet?
  }

  /** Log lines and status labels neither advance progress nor report a status. */
  lemma {:induction false} QuietEvents(events: seq<Event>)
    requires Quiet(events)
    ensures ProgressTotal(events) == 0 && StatusTrail(events) == []
  {
    if |events| > 0 {
      QuietEvents(events[1..]);
    }
  }

  /** The transitions the pipeline makes: forward through the lifecycle, or to ERROR from any step it entered. */
  predicate Advances(a: JobStatus, b: JobStatus) {
    match (a, b)
    case (Pending, Transcribing) => true
    case (Pending, Done) => true
    case (Transcribing, Uploading) => true
    case (Uploading, Done) => true
    case (Transcribing, Error) => true
    case (Uploading, Error) => true
    case (Done, Error) => true
    case _ => false
  }

  /** A trail of statuses each of which is reachable by one transition from the one before. */
  predicate ValidTrail(from: JobStatus, trail: seq<JobStatus>)
    decreases |trail|
  {
    |trail| == 0 || (Advances(from, trail[0]) && ValidTrail(trail[0], trail[1..]))
  }

  /** The status a trail leaves a job in. */
  function TrailEnd(from: JobStatus, trail: seq<JobStatus>): JobStatus {
    if |trail| == 0 then from else trail[|trail| - 1]
  }

  /** A valid trail stays valid when extended by a transition from where it ends. */
  lemma {:induction false} TrailSnoc(from: JobStatus, trail: seq<JobStatus>, next: JobStatus)
    requires ValidTrail(from, trail) && Advances(TrailEnd(from, trail), next)
    ensures ValidTrail(from, trail + [next])
    decreases |trail|
  {
    if |trail| == 0 {
      assert trail + [next] == [next];
    } else {
      assert (trail + [next])[1..] == trail[1..] + [next];
      TrailSnoc(trail[0], trail[1..], next);
    }
  }

  /** Every allowed transition raises the status rank, so along a valid trail status only moves forward. */
  lemma {:induction false} TrailMovesForward(from: JobStatus, trail: seq<JobStatus>)
    requires ValidTrail(from, trail)
    decreases |trail|
    ensures forall i :: 0 <= i < |trail| ==> from.Rank() < trail[i].Rank()
    ensures forall i, j :: 0 <= i < j < |trail| ==> trail[i].Rank() < trail[j].Rank()
  {
    if |trail| > 0 {
      TrailMovesForward(trail[0], trail[1..]);
      assert forall i :: 1 <= i < |trail| ==> trail[i] == trail[1..][i - 1];
    }
  }

  /** Jobs in PENDING, counted from the front. */
  function CountPending(jobs: seq<VideoJob>): nat {
    if |jobs| == 0 then 0
    else CountPending(jobs[..|jobs| - 1]) + (if jobs[|jobs| - 1].status == Pending then 1 else 0)
  }

  function ModeValue(config: AppConfig): string {
    OutputModeOf(config).Value()
  }

  /** The skip check: this source was already exported with this prefix and output mode. */
  predicate Skips(config: AppConfig, job: VideoJob, rows: seq<History.Record>) {
    History.IsAlreadyProcessed(rows, job.path, config.prefix, ModeValue(config))
  }

  /** Where an attempt stops: the progress units already granted (`step_done`) and `str(exc)`. */
  datatype Failure = Failure(stepDone: nat, message: string)

  /** The first step of an attempted job that raises, if any. */
  function AttemptFailure(job: VideoJob, w: JobWorld): Option<Failure> {
    if w.stat.Raised? then Some(Failure(0, w.stat.message))
    else
      var run := Transcription.Transcribe(job.path, w.adapter);
      if run.result.Raised? then Some(Failure(0, run.result.message))
      else if w.delivery.Raised? then Some(Failure(1, w.delivery.message))
      else if w.ledgerWrite.Raised? then Some(Failure(2, w.ledgerWrite.message))
      else None
  }

  /** A job that reaches `history.record` successfully: not skipped, and nothing raised. */
  predicate Commits(config: AppConfig, job: VideoJob, rows: seq<History.Record>, w: JobWorld) {
    !Skips(config, job, rows) && AttemptFailure(job, w).None?
  }

  /** The numbered variant of a title, `f"{base}_{k}"`. */
  function NumberedTitle(base: string, k: int): string {
    base + "_" + IntToString(k)
  }

  lemma NumberedTitleInjective(base: string, j: int, k: int)
    ensures NumberedTitle(base, j) == NumberedTitle(base, k) ==> j == k
    ensures |NumberedTitle(base, j)| > |base|
  {
    if NumberedTitle(base, j) == NumberedTitle(base, k) {
      CancelAffixes(base + "_", IntToString(j), IntToString(k), "");
      IntToStringInjective(j, k);
    }
  }

  /** `title` is the base if that is unused, else `base_k` for the least k >= 2 not yet used. */
  ghost predicate FirstFreeTitle(used: set<string>, base: string, title: string) {
    title !in used
    && (title == base
        || (base in used
            && exists k :: 2 <= k && title == NumberedTitle(base, k)
                 && forall j :: 2 <= j < k ==> NumberedTitle(base, j) in used))
  }

  /** Pigeonhole: the base title and `base_2` .. `base_k` are distinct, so when all are used there are at least k used titles. */
  lemma {:induction false} CandidatesFitIn(used: set<string>, base: string, k: int)
    requires k >= 1 && base in used
    requires forall j :: 2 <= j <= k ==> NumberedTitle(base, j) in used
    ensures k <= |used|
    decreases k
  {
    if k >= 2 {
      var last := NumberedTitle(base, k);
      var rest := used - {last};
      NumberedTitleInjective(base, k, k);
      forall j | 2 <= j <= k - 1 ensures NumberedTitle(base, j) in rest {
        NumberedTitleInjective(base, j, k);
      }
      CandidatesFitIn(rest, base, k - 1);
    }
  }

  /**
   * The reference answer of de-duplication: the base title when unused, else the first `base_k`, k >= 2,
   * that is unused. The search stops past `|used| + 1`, which by `CandidatesFitIn` it never reaches.
   */
  function FirstFree(used: set<string>, base: string): string {
    if base !in used then base else FreeFrom(used, base, 2)
  }

  function FreeFrom(used: set<string>, base: string, k: int): string
    decreases |used| + 2 - k
  {
    if k > |used| + 1 || NumberedTitle(base, k) !in used then NumberedTitle(base, k)
    else FreeFrom(used, base, k + 1)
  }

  /** Searching from `k`, with every earlier candidate used, finds the first free candidate. */
  lemma {:induction false} FreeFromIsFirstFree(used: set<string>, base: string, k: int)
    requires 2 <= k && base in used
    requires forall j :: 2 <= j < k ==> NumberedTitle(base, j) in used
    ensures FirstFreeTitle(used, base, FreeFrom(used, base, k))
    decreases |used| + 2 - k
  {
    CandidatesFitIn(used, base, k - 1);
    if NumberedTitle(base, k) in used {
      FreeFromIsFirstFree(used, base, k + 1);
    } else {
      NumberedTitleInjective(base, k, k);
      assert FreeFrom(used, base, k) == NumberedTitle(base, k);
    }
  }

  /** The reference answer meets the description of the first free title. */
  lemma FirstFreeIsFirstFreeTitle(used: set<string>, base: string)
    ensures FirstFreeTitle(used, base, FirstFree(used, base))
  {
    if base in used {
      FreeFromIsFirstFree(used, base, 2);
    }
  }

  /** Original-mode de-duplication: try the base title, then `_2`, `_3`, ... until one is unused. */
  method ResolveOriginalTitle(rows: seq<History.Record>, mode: string, base: string) returns (title: string)
    ensures title == FirstFree(History.UsedTitles(rows, mode), base)
    ensures !History.OutputTitleExists(rows, title, mode)
  {
    title := base;
    var suffix: nat := 2;
    ghost var used := History.UsedTitles(rows, mode);
    History.UsedTitlesAnswersQuery(rows, mode, title);
    while History.OutputTitleExists(rows, title, mode)
      invariant suffix >= 2
      invariant title == if suffix == 2 then base else NumberedTitle(base, suffix - 1)
      invariant suffix > 2 ==> base in used && FreeFrom(used, base, suffix - 1) == FirstFree(used, base)
      invariant forall j :: 2 <= j < suffix - 1 ==> NumberedTitle(base, j) in used
      invariant title in used <==> History.OutputTitleExists(rows, title, mode)
      decreases |used| + 2 - suffix
    {
      CandidatesFitIn(used, base, suffix - 1);
      title := NumberedTitle(base, suffix);
      suffix := suffix + 1;
      History.UsedTitlesAnswersQuery(rows, mode, title);
    }
    if suffix > 2 {
      CandidatesFitIn(used, base, suffix - 2);
    }
  }

  /** The error branch: status ERROR, `error = str(exc)`, the remaining progress units, two log lines. */
  function FailEvents(failed: VideoJob, stepDone: nat): (events: seq<Event>)
    requires failed.status == Error && stepDone <= 2
    ensures ProgressTotal(events) == 2 - stepDone
    ensures StatusTrail(events) == [Error]
  {
    var status := [JobStatusChanged(failed)];
    var progress := [ProgressAdvance(2 - stepDone)];
    var logs := [Log(JobErrorMsg(failed.path, failed.error), ErrorLevel), Log(TraceMsg, Dim)];
    QuietEvents(logs);
    EventsAppend(status, progress);
    EventsAppend(status + progress, logs);
    status + progress + logs
  }

  /** The skip branch: a log line, the DONE report, and both progress units at once. */
  function SkipEvents(skipped: VideoJob, prefix: string): (events: seq<Event>)
    ensures ProgressTotal(events) == 2 && StatusTrail(events) == [skipped.status]
  {
    var log := [Log(SkippedMsg(skipped.path, prefix), Highlight)];
    var report := [JobStatusChanged(skipped)];
    var progress := [ProgressAdvance(2)];
    EventsAppend(log, report);
    EventsAppend(log + report, progress);
    log + report + progress
  }

  /** The adapter's status notes, each logged dimmed. */
  function NoteEvents(notes: seq<Transcription.Note>): (events: seq<Event>)
    ensures ProgressTotal(events) == 0 && StatusTrail(events) == []
  {
    if |notes| == 0 then []
    else [Log(AdapterMsg(notes[0]), Dim)] + NoteEvents(notes[1..])
  }

  /** The Google Docs address recorded for a created document. */
  function DocUrl(docId: string): string {
    "https://docs.google.com/document/d/" + docId
  }

  /** The ledger row written for a committed job. */
  predicate RowDescribes(config: AppConfig, job: VideoJob, title: string, seqNumber: Option<int>, row: History.Record) {
    && row.sourcePath == job.path
    && row.prefix == config.prefix
    && row.namingMode == config.namingMode.Value()
    && row.sequentialNumber == seqNumber
    && row.outputTitle == title
    && row.outputMode == ModeValue(config)
    && row.outputPath == NoneIfEmpty(job.outputPath)
    && row.docId == NoneIfEmpty(job.docId)
    && row.docUrl == NoneIfEmpty(job.docUrl)
    && row.language == Some(job.language)
  }

  /**
   * What a committed job holds after the run: every step succeeded, the transcript is the adapter's text,
   * and the delivery fields are the Google Docs id and URL or the Markdown file `row` names.
   */
  predicate Delivered(config: AppConfig, job: VideoJob, w: JobWorld, done: VideoJob, row: History.Record) {
    && AttemptFailure(job, w).None?
    && w.adapter.service.Ok? && done.transcript == Transcription.SelectTranscript(w.adapter.service.value)
    && (OutputModeOf(config) == GoogleDocs ==>
          w.delivery.Ok? && done.docId == w.delivery.value && done.docUrl == DocUrl(w.delivery.value))
    && (OutputModeOf(config) == Markdown ==>
          done.outputPath == MarkdownExport.OutputPath(config.markdownOutputDir, row.outputTitle))
  }

  /** A delivered job's transcript is exactly what `transcribe` returned for its file. */
  lemma DeliveredTranscript(config: AppConfig, job: VideoJob, w: JobWorld, done: VideoJob, row: History.Record)
    requires Delivered(config, job, w, done, row)
    ensures Transcription.Transcribe(job.path, w.adapter).result == Ok(done.transcript)
  {
  }

  /** Whether `trail` is a valid, non-empty continuation from `from` that ends in `last`. */
  predicate TrailEndsIn(from: JobStatus, trail: seq<JobStatus>, last: JobStatus) {
    ValidTrail(from, trail) && |trail| > 0 && trail[|trail| - 1] == last
  }

  /** A status report followed by quiet lines. */
  function Report(job: VideoJob, quiet: seq<Event>): (events: seq<Event>)
    requires Quiet(quiet)
    ensures ProgressTotal(events) == 0 && StatusTrail(events) == [job.status]
  {
    QuietEvents(quiet);
    EventsAppend([JobStatusChanged(job)], quiet);
    [JobStatusChanged(job)] + quiet
  }

  /** Quiet lines, then a progress step, then a status report. */
  function Advance(quiet: seq<Event>, steps: int, job: VideoJob): (events: seq<Event>)
    requires Quiet(quiet)
    ensures ProgressTotal(events) == steps && StatusTrail(events) == [job.status]
  {
    QuietEvents(quiet);
    EventsAppend(quiet, [ProgressAdvance(steps)]);
    EventsAppend(quiet + [ProgressAdvance(steps)], [JobStatusChanged(job)]);
    quiet + [ProgressAdvance(steps)] + [JobStatusChanged(job)]
  }

  /** The label and log line announcing the export of a titled job. */
  function DeliveryAnnouncement(mode: OutputMode, title: string, position: nat, total: nat): (events: seq<Event>)
    ensures Quiet(events)
  {
    if mode == GoogleDocs then [StatusLabelSet(UploadingLabel(title, position + 1, total)), Log(UploadingMsg(title), Highlight)]
    else [StatusLabelSet(SavingLabel(title, position + 1, total)), Log(SavingMsg(title), Highlight)]
  }

  /** The export step for a transcribed job: UPLOADING, then DONE with what the exporter returned, or ERROR. */
  method Deliver(config: AppConfig, job: VideoJob, title: string, position: nat, total: nat, w: JobWorld)
    returns (j: VideoJob, events: seq<Event>)
    requires job.status == Transcribing
    ensures j.path == job.path && j.language == job.language && j.transcript == job.transcript
    ensures j.status == (if w.delivery.Raised? then Error else Done)
    ensures j.status == Error ==> j.error == w.delivery.message
    ensures ProgressTotal(events) == 1
    ensures StatusTrail(events) == [Uploading, j.status] && TrailEndsIn(Transcribing, StatusTrail(events), j.status)
    ensures w.delivery.Ok? && OutputModeOf(config) == GoogleDocs ==>
              j.docId == w.delivery.value && j.docUrl == DocUrl(w.delivery.value)
    ensures w.delivery.Ok? && OutputModeOf(config) == Markdown ==>
              j.outputPath == MarkdownExport.OutputPath(config.markdownOutputDir, title)
  {
    var mode := OutputModeOf(config);
    j := job.(status := Uploading);
    events := Report(j, DeliveryAnnouncement(mode, title, position, total));
    assert StatusTrail(events) == [Uploading];
    if w.delivery.Raised? {
      j := j.(status := Error, error := w.delivery.message);
      EventsAppend(events, FailEvents(j, 1));
      events := events + FailEvents(j, 1);
      TrailSnoc(Transcribing, [Uploading], Error);
      return;
    }
    var line: Event;
    if mode == GoogleDocs {
      var docId := w.delivery.value;
      j := j.(docId := docId, docUrl := DocUrl(docId));
      line := Log(CreatedMsg(title, docId), SuccessLevel);
    } else {
      var outPath := MarkdownExport.OutputPath(config.markdownOutputDir, title);
      j := j.(outputPath := outPath);
      line := Log(SavedMsg(outPath), SuccessLevel);
    }
    j := j.(status := Done);
    var more := Advance([line], 1, j);
    EventsAppend(events, more);
    events := events + more;
    TrailSnoc(Transcribing, [Uploading], Done);
  }

  /** The export and record steps for a transcribed job, up to the end of the `try` block or its `except` branch. */
  method DeliverAndRecord(config: AppConfig, job: VideoJob, title: string, seqNumber: Option<int>,
                          position: nat, total: nat, rows: seq<History.Record>, nextSeq: int, w: JobWorld)
    returns (done: VideoJob, events: seq<Event>, rows': seq<History.Record>, nextSeq': int)
    requires job.status == Transcribing
    requires config.namingMode == Sequential ==> seqNumber == Some(nextSeq)
    requires config.namingMode == Original ==> seqNumber == None
    ensures done.path == job.path && done.language == job.language && done.transcript == job.transcript
    ensures ProgressTotal(events) == 1
    ensures TrailEndsIn(Transcribing, StatusTrail(events), done.status)
    ensures done.status == Done <==> w.delivery.Ok? && w.ledgerWrite.Ok?
    ensures done.status == Error ==>
              done.error == (if w.delivery.Raised? then w.delivery.message else w.ledgerWrite.message)
    ensures done.status == Done || done.status == Error
    ensures done.status == Done ==> |rows'| == |rows| + 1 && rows' == History.Append(rows, rows'[|rows|])
    ensures done.status != Done ==> rows' == rows
    ensures done.status == Done ==> RowDescribes(config, done, title, seqNumber, rows'[|rows|])
    ensures nextSeq' == nextSeq + (if done.status == Done && config.namingMode == Sequential then 1 else 0)
    ensures w.delivery.Ok? && OutputModeOf(config) == GoogleDocs ==>
              done.docId == w.delivery.value && done.docUrl == DocUrl(w.delivery.value)
    ensures w.delivery.Ok? && OutputModeOf(config) == Markdown ==>
              done.outputPath == MarkdownExport.OutputPath(config.markdownOutputDir, title)
  {
    rows', nextSeq' := rows, nextSeq;
    var j;
    j, events := Deliver(config, job, title, position, total, w);
    if j.status == Error || w.ledgerWrite.Raised? {
      done := if j.status == Error then j else j.(status := Error, error := w.ledgerWrite.message);
      if j.status == Done {
        EventsAppend(events, FailEvents(done, 2));
        events := events + FailEvents(done, 2);
        TrailSnoc(Transcribing, [Uploading, Done], Error);
      }
      return;
    }
    done := j;
    var row := History.Record(job.path, config.prefix, config.namingMode.Value(), seqNumber, title, OutputModeOf(config).Value(),
                              NoneIfEmpty(j.outputPath), NoneIfEmpty(j.docId), NoneIfEmpty(j.docUrl), Some(job.language));
    rows' := History.Append(rows, row);
    assert rows'[|rows|] == row;
    if config.namingMode == Sequential {
      nextSeq' := nextSeq + 1;
    }
  }

  /** The label and log line announcing a transcription. */
  function TranscribeAnnouncement(job: VideoJob, position: nat, total: nat): (events: seq<Event>)
    ensures Quiet(events)
  {
    [StatusLabelSet(TranscribingLabel(job.path, job.language, position + 1, total)),
     Log(TranscribingMsg(job.path, job.language), Highlight)]
  }

  /** The transcription step, up to the first progress unit or the `except` branch; `run` is what the adapter did. */
  method TranscribeStep(job: VideoJob, position: nat, total: nat, stat: Outcome<()>, run: Transcription.AdapterRun)
    returns (j: VideoJob, events: seq<Event>)
    requires job.status == Pending
    ensures j.path == job.path && j.language == job.language
    ensures (j.status == Error) == (stat.Raised? || run.result.Raised?)
    ensures j.status == Error ==>
              ProgressTotal(events) == 2 && StatusTrail(events) == [Transcribing, Error]
              && j.error == (if stat.Raised? then stat.message else run.result.message)
    ensures j.status != Error ==>
              j == job.(status := Transcribing, transcript := run.result.value)
              && ProgressTotal(events) == 1 && StatusTrail(events) == [Transcribing]
  {
    j := job.(status := Transcribing);
    events := Report(j, []);
    if stat.Raised? {
      j := j.(status := Error, error := stat.message);
      var fail := FailEvents(j, 0);
      EventsAppend(events, fail);
      events := events + fail;
      assert StatusTrail(events) == [Transcribing] + [Error];
      return;
    }
    var announce := TranscribeAnnouncement(job, position, total);
    QuietEvents(announce);
    EventsAppend(announce, NoteEvents(run.notes));
    EventsAppend(events, announce + NoteEvents(run.notes));
    events := events + (announce + NoteEvents(run.notes));
    assert StatusTrail(events) == [Transcribing];
    if run.result.Raised? {
      j := j.(status := Error, error := run.result.message);
      var fail := FailEvents(j, 0);
      EventsAppend(events, fail);
      events := events + fail;
      assert StatusTrail(events) == [Transcribing] + [Error];
      return;
    }
    j := j.(transcript := run.result.value);
    EventsAppend(events, [ProgressAdvance(1)]);
    events := events + [ProgressAdvance(1)];
  }

  /** The `try` block for a job that was not skipped: transcribe, build the title, then export and record. */
  method AttemptJob(config: AppConfig, job: VideoJob, position: nat, total: nat,
                    rows: seq<History.Record>, nextSeq: int, w: JobWorld)
    returns (done: VideoJob, events: seq<Event>, rows': seq<History.Record>, nextSeq': int, title: string)
    requires job.status == Pending
    ensures done.path == job.path && done.language == job.language
    ensures done.status == Done || done.status == Error
    ensures ProgressTotal(events) == 2
    ensures TrailEndsIn(Pending, StatusTrail(events), done.status)
    ensures done.status == Error <==> AttemptFailure(job, w).Some?
    ensures done.status == Error ==> done.error == AttemptFailure(job, w).value.message
    ensures done.status == Done ==> |rows'| == |rows| + 1 && rows' == History.Append(rows, rows'[|rows|])
    ensures done.status != Done ==> rows' == rows
    ensures nextSeq' == nextSeq + (if done.status == Done && config.namingMode == Sequential then 1 else 0)
    ensures done.status == Done ==> RowDescribes(config, done, title, rows'[|rows|].sequentialNumber, rows'[|rows|])
    ensures done.status == Done && config.namingMode == Sequential ==>
              rows'[|rows|].sequentialNumber == Some(nextSeq) && title == config.prefix + "_" + IntToString(nextSeq + 1)
    ensures done.status == Done && config.namingMode == Original ==>
              rows'[|rows|].sequentialNumber == None
              && title == FirstFree(History.UsedTitles(rows, ModeValue(config)), BuildDocTitle(config, job.path, 0))
    ensures done.status == Done && OutputModeOf(config) == GoogleDocs ==>
              done.docId == w.delivery.value && done.docUrl == DocUrl(w.delivery.value)
    ensures done.status == Done && OutputModeOf(config) == Markdown ==>
              done.outputPath == MarkdownExport.OutputPath(config.markdownOutputDir, title)
    ensures w.stat.Ok? && Transcription.Transcribe(job.path, w.adapter).result.Ok? ==>
              done.transcript == Transcription.Transcribe(job.path, w.adapter).result.value
  {
    title := "";
    rows', nextSeq' := rows, nextSeq;
    var j;
    j, events := TranscribeStep(job, position, total, w.stat, Transcription.Transcribe(job.path, w.adapter));
    if j.status == Error {
      done := j;
      TrailSnoc(Pending, [Transcribing], Error);
      return;
    }
    var seqNumber: Option<int>;
    if config.namingMode == Sequential {
      seqNumber := Some(nextSeq);
      title := BuildDocTitle(config, job.path, nextSeq);
    } else {
      seqNumber := None;
      title := ResolveOriginalTitle(rows, ModeValue(config), BuildDocTitle(config, job.path, 0));
    }
    var rest;
    done, rest, rows', nextSeq' := DeliverAndRecord(config, j, title, seqNumber, position, total, rows, nextSeq, w);
    EventsAppend(events, rest);
    events := events + rest;
    assert StatusTrail(events) == [Transcribing] + StatusTrail(rest);
    assert ValidTrail(Pending, StatusTrail(events));
  }

  /**
   * One iteration of the loop for a pending job: the skip check, or the transcribe / title / export /
   * record sequence with its `except` branch. `position` is the job's place among the pending jobs.
   */
  method ProcessJob(config: AppConfig, job: VideoJob, position: nat, total: nat,
                    rows: seq<History.Record>, nextSeq: int, w: JobWorld)
    returns (done: VideoJob, events: seq<Event>, rows': seq<History.Record>, nextSeq': int)
    requires job.status == Pending
    ensures done.path == job.path && done.language == job.language
    ensures done.status == Done || done.status == Error
    ensures ProgressTotal(events) == 2
    ensures TrailEndsIn(Pending, StatusTrail(events), done.status)
    ensures Skips(config, job, rows) ==>
              done == job.(status := Done) && rows' == rows && nextSeq' == nextSeq && StatusTrail(events) == [Done]
    ensures !Skips(config, job, rows) ==> (done.status == Error <==> AttemptFailure(job, w).Some?)
    ensures !Skips(config, job, rows) && done.status == Error ==> done.error == AttemptFailure(job, w).value.message
    ensures Commits(config, job, rows, w) ==> |rows'| == |rows| + 1 && rows' == History.Append(rows, rows'[|rows|])
    ensures !Commits(config, job, rows, w) ==> rows' == rows
    ensures nextSeq' == nextSeq + (if Commits(config, job, rows, w) && config.namingMode == Sequential then 1 else 0)
    ensures Commits(config, job, rows, w) ==>
              var row := rows'[|rows|];
              && done.status == Done
              && RowDescribes(config, done, row.outputTitle, row.sequentialNumber, row)
              && (config.namingMode == Sequential ==>
                    row.sequentialNumber == Some(nextSeq)
                    && row.outputTitle == config.prefix + "_" + IntToString(nextSeq + 1))
              && (config.namingMode == Original ==>
                    row.sequentialNumber == None
                    && row.outputTitle == FirstFree(History.UsedTitles(rows, ModeValue(config)), BuildDocTitle(config, job.path, 0)))
              && (OutputModeOf(config) == GoogleDocs ==>
                    done.docId == w.delivery.value && done.docUrl == DocUrl(w.delivery.value))
              && (OutputModeOf(config) == Markdown ==>
                    done.outputPath == MarkdownExport.OutputPath(config.markdownOutputDir, row.outputTitle))
    ensures !Skips(config, job, rows) && w.stat.Ok? && Transcription.Transcribe(job.path, w.adapter).result.Ok? ==>
              done.transcript == Transcription.Transcribe(job.path, w.adapter).result.value
  {
    if History.IsAlreadyProcessed(rows, job.path, config.prefix, ModeValue(config)) {
      done := job.(status := Done);
      events := SkipEvents(done, config.prefix);
      assert StatusTrail(events) == [Done];
      return done, events, rows, nextSeq;
    }
    var title;
    done, events, rows', nextSeq', title := AttemptJob(config, job, position, total, rows, nextSeq, w);
  }

  /**
   * How a job leaves the run: same file and language; a pending job ends DONE or ERROR, only a failing
   * step makes ERROR, and a job whose attempt would fail ends DONE only as a skip, otherwise unchanged.
   */
  predicate Settled(before: VideoJob, after: VideoJob, w: JobWorld) {
    && after.path == before.path && after.language == before.language
    && (before.status != Pending ==> after == before)
    && (before.status == Pending ==>
          && (after.status == Done || after.status == Error)
          && (after.status == Error ==>
                AttemptFailure(before, w).Some? && after.error == AttemptFailure(before, w).value.message)
          && (AttemptFailure(before, w).None? ==> after.status == Done)
          && (AttemptFailure(before, w).Some? && after.status == Done ==> after == before.(status := Done)))
  }

  /**
   * What holds of a row the run appends after the rows `before`, `added` rows into the run: it is new for its
   * (source, prefix, output mode); in sequential mode it takes the next number from `seed`; in original mode
   * its title is the first free variant of the base title.
   */
  ghost predicate NewRowFits(config: AppConfig, seed: int, added: nat, before: seq<History.Record>, row: History.Record) {
    && row.prefix == config.prefix && row.outputMode == ModeValue(config)
    && row.namingMode == config.namingMode.Value()
    && !History.IsAlreadyProcessed(before, row.sourcePath, row.prefix, row.outputMode)
    && (config.namingMode == Sequential ==>
          row.sequentialNumber == Some(seed + added)
          && row.outputTitle == config.prefix + "_" + IntToString(seed + added + 1))
    && (config.namingMode == Original ==>
          row.sequentialNumber == None
          && row.outputTitle == FirstFree(History.UsedTitles(before, row.outputMode), BuildDocTitle(config, row.sourcePath, 0)))
  }

  /** The ledger after the run: the rows it held, then rows each fitting what came before them. */
  ghost predicate RowsFit(config: AppConfig, ledger: seq<History.Record>, seed: int, rows: seq<History.Record>)
    decreases |rows|
  {
    if |rows| <= |ledger| then rows == ledger
    else
      var before := rows[..|rows| - 1];
      RowsFit(config, ledger, seed, before) && NewRowFits(config, seed, |before| - |ledger|, before, rows[|rows| - 1])
  }

  /** Every row after the ledger's own fits what came before it. */
  lemma {:induction false} RowsFitAt(config: AppConfig, ledger: seq<History.Record>, seed: int, rows: seq<History.Record>, m: nat)
    requires RowsFit(config, ledger, seed, rows) && |ledger| <= m < |rows|
    ensures NewRowFits(config, seed, m - |ledger|, rows[..m], rows[m])
    decreases |rows|
  {
    var before := rows[..|rows| - 1];
    assert RowsFit(config, ledger, seed, before);
    if m < |before| {
      RowsFitAt(config, ledger, seed, before, m);
      assert before[..m] == rows[..m] && before[m] == rows[m];
    }
  }

  /** One pending job of the loop, with what it does to the ledger stated in the terms the loop keeps. */
  method Step(config: AppConfig, ledger: seq<History.Record>, ghost seed: int, job: VideoJob, position: nat, total: nat,
              rows: seq<History.Record>, nextSeq: int, w: JobWorld)
    returns (done: VideoJob, events: seq<Event>, rows': seq<History.Record>, nextSeq': int)
    requires job.status == Pending
    requires RowsFit(config, ledger, seed, rows)
    requires nextSeq == History.NextSequentialNumber(rows, config.prefix)
    requires nextSeq == seed + (if config.namingMode == Sequential then |rows| - |ledger| else 0)
    ensures Settled(job, done, w)
    ensures ProgressTotal(events) == 2
    ensures RowsFit(config, ledger, seed, rows')
    ensures nextSeq' == History.NextSequentialNumber(rows', config.prefix)
    ensures nextSeq' == seed + (if config.namingMode == Sequential then |rows'| - |ledger| else 0)
    ensures |rows| <= |rows'|
    ensures |rows'| == |rows| ==> rows' == rows
    ensures |rows'| > |rows| ==>
              rows' == History.Append(rows, rows'[|rows|]) && done.status == Done
              && Delivered(config, job, w, done, rows'[|rows|])
              && RowDescribes(config, done, rows'[|rows|].outputTitle, rows'[|rows|].sequentialNumber, rows'[|rows|])
    ensures done.status == Done ==> History.IsAlreadyProcessed(rows', job.path, config.prefix, ModeValue(config))
  {
    done, events, rows', nextSeq' := ProcessJob(config, job, position, total, rows, nextSeq, w);
    if |rows'| > |rows| {
      var row := rows'[|rows|];
      CommittedRowFits(config, ledger, seed, job, rows, row, nextSeq, done);
      RecordFits(config, ledger, seed, rows, row, nextSeq);
      History.AppendIsVisible(rows, row);
    }
  }

  /** The row `ProcessJob` commits for a job not yet processed fits the rows before it. */
  lemma CommittedRowFits(config: AppConfig, ledger: seq<History.Record>, seed: int, job: VideoJob,
                         rows: seq<History.Record>, row: History.Record, nextSeq: int, done: VideoJob)
    requires |ledger| <= |rows| && nextSeq == seed + (if config.namingMode == Sequential then |rows| - |ledger| else 0)
    requires !Skips(config, job, rows) && done.path == job.path
    requires RowDescribes(config, done, row.outputTitle, row.sequentialNumber, row)
    requires config.namingMode == Sequential ==>
               row.sequentialNumber == Some(nextSeq) && row.outputTitle == config.prefix + "_" + IntToString(nextSeq + 1)
    requires config.namingMode == Original ==>
               row.sequentialNumber == None
               && row.outputTitle == FirstFree(History.UsedTitles(rows, ModeValue(config)), BuildDocTitle(config, job.path, 0))
    ensures NewRowFits(config, seed, |rows| - |ledger|, rows, row)
  {
  }

  /** The jobs handled so far, `out`, each settled from the job it came from. */
  predicate JobsSettled(jobs: seq<VideoJob>, worlds: seq<JobWorld>, out: seq<VideoJob>) {
    && |out| <= |jobs| == |worlds|
    && forall k :: 0 <= k < |out| ==> Settled(jobs[k], out[k], worlds[k])
  }

  /** Every handled job that was pending and ended DONE is in the ledger. */
  predicate DoneRecorded(config: AppConfig, jobs: seq<VideoJob>, out: seq<VideoJob>, rows: seq<History.Record>) {
    && |out| <= |jobs|
    && forall k :: 0 <= k < |out| && jobs[k].status == Pending && out[k].status == Done ==>
         History.IsAlreadyProcessed(rows, jobs[k].path, config.prefix, ModeValue(config))
  }

  /** Row `row` records pending job `job`, which ended as `done` after every step under `w` succeeded. */
  predicate RecordedBy(config: AppConfig, job: VideoJob, w: JobWorld, done: VideoJob, row: History.Record) {
    && job.status == Pending && done.status == Done
    && Delivered(config, job, w, done, row)
    && RowDescribes(config, done, row.outputTitle, row.sequentialNumber, row)
  }

  /**
   * `origin[m]` is the handled job that row `|ledger| + m` records, in increasing job order: a pending job
   * whose every step succeeded, which ended DONE holding the adapter's transcript and the delivery's result.
   */
  predicate Origins(config: AppConfig, jobs: seq<VideoJob>, worlds: seq<JobWorld>, out: seq<VideoJob>,
                    ledger: seq<History.Record>, rows: seq<History.Record>, origin: seq<int>) {
    && |out| <= |jobs| == |worlds| && |ledger| <= |rows| && |origin| == |rows| - |ledger|
    && (forall m :: 0 <= m < |origin| ==>
          0 <= origin[m] < |out| && RecordedBy(config, jobs[origin[m]], worlds[origin[m]], out[origin[m]], rows[|ledger| + m]))
    && (forall m, n :: 0 <= m < n < |origin| ==> origin[m] < origin[n])
  }

  /** The state of the loop over the jobs: the handled jobs, the events so far, the ledger and the counter. */
  datatype RunState = RunState(out: seq<VideoJob>, events: seq<Event>, rows: seq<History.Record>, nextSeq: int,
                               origin: seq<int>)

  /** What the loop keeps true after handling `|st.out|` jobs. */
  ghost predicate RunInvariant(config: AppConfig, jobs: seq<VideoJob>, worlds: seq<JobWorld>, ledger: seq<History.Record>,
                               seed: int, st: RunState) {
    && JobsSettled(jobs, worlds, st.out)
    && ProgressTotal(st.events) == 2 * CountPending(jobs[..|st.out|])
    && RowsFit(config, ledger, seed, st.rows)
    && st.nextSeq == History.NextSequentialNumber(st.rows, config.prefix)
    && st.nextSeq == seed + (if config.namingMode == Sequential then |st.rows| - |ledger| else 0)
    && DoneRecorded(config, jobs, st.out, st.rows)
    && Origins(config, jobs, worlds, st.out, ledger, st.rows, st.origin)
  }

  lemma SettledStep(jobs: seq<VideoJob>, worlds: seq<JobWorld>, out: seq<VideoJob>, x: VideoJob)
    requires JobsSettled(jobs, worlds, out) && |out| < |jobs|
    requires Settled(jobs[|out|], x, worlds[|out|])
    ensures JobsSettled(jobs, worlds, out + [x])
  {
    assert forall k :: 0 <= k < |out| ==> (out + [x])[k] == out[k];
  }

  lemma {:induction false} DoneRecordedStep(config: AppConfig, jobs: seq<VideoJob>, out: seq<VideoJob>,
                                            rows: seq<History.Record>, rows': seq<History.Record>, x: VideoJob)
    requires DoneRecorded(config, jobs, out, rows) && |out| < |jobs|
    requires rows' == rows || (|rows'| > 0 && rows' == History.Append(rows, rows'[|rows'| - 1]))
    requires jobs[|out|].status == Pending && x.status == Done ==>
               History.IsAlreadyProcessed(rows', jobs[|out|].path, config.prefix, ModeValue(config))
    ensures DoneRecorded(config, jobs, out + [x], rows')
  {
    var out' := out + [x];
    forall k | 0 <= k < |out'| && jobs[k].status == Pending && out'[k].status == Done
      ensures History.IsAlreadyProcessed(rows', jobs[k].path, config.prefix, ModeValue(config))
    {
      if k < |out| {
        assert out'[k] == out[k];
        if rows' != rows {
          History.AppendIsMonotonic(rows, rows'[|rows'| - 1], jobs[k].path, config.prefix, ModeValue(config), "");
        }
      }
    }
  }

  lemma OriginsKeep(config: AppConfig, jobs: seq<VideoJob>, worlds: seq<JobWorld>, out: seq<VideoJob>, ledger: seq<History.Record>,
                    rows: seq<History.Record>, origin: seq<int>, x: VideoJob)
    requires Origins(config, jobs, worlds, out, ledger, rows, origin) && |out| < |jobs|
    ensures Origins(config, jobs, worlds, out + [x], ledger, rows, origin)
  {
    assert forall k :: 0 <= k < |out| ==> (out + [x])[k] == out[k];
  }

  lemma OriginsGrow(config: AppConfig, jobs: seq<VideoJob>, worlds: seq<JobWorld>, out: seq<VideoJob>, ledger: seq<History.Record>,
                    rows: seq<History.Record>, origin: seq<int>, x: VideoJob, row: History.Record)
    requires Origins(config, jobs, worlds, out, ledger, rows, origin) && |out| < |jobs|
    requires RecordedBy(config, jobs[|out|], worlds[|out|], x, row)
    ensures Origins(config, jobs, worlds, out + [x], ledger, History.Append(rows, row), origin + [|out|])
  {
    var out', rows', origin' := out + [x], History.Append(rows, row), origin + [|out|];
    forall m | 0 <= m < |origin'|
      ensures 0 <= origin'[m] < |out'| && RecordedBy(config, jobs[origin'[m]], worlds[origin'[m]], out'[origin'[m]], rows'[|ledger| + m])
    {
      RowOriginGrows(config, jobs, worlds, out, ledger, rows, origin, x, row, m);
    }
  }

  /** Row `|ledger| + m` keeps its origin when a job is handled and a row recording it is appended. */
  lemma RowOriginGrows(config: AppConfig, jobs: seq<VideoJob>, worlds: seq<JobWorld>, out: seq<VideoJob>, ledger: seq<History.Record>,
                       rows: seq<History.Record>, origin: seq<int>, x: VideoJob, row: History.Record, m: int)
    requires Origins(config, jobs, worlds, out, ledger, rows, origin) && |out| < |jobs|
    requires RecordedBy(config, jobs[|out|], worlds[|out|], x, row)
    requires 0 <= m <= |origin|
    ensures 0 <= (origin + [|out|])[m] < |out| + 1
    ensures RecordedBy(config, jobs[(origin + [|out|])[m]], worlds[(origin + [|out|])[m]],
                       (out + [x])[(origin + [|out|])[m]], History.Append(rows, row)[|ledger| + m])
  {
    if m < |origin| {
      assert (origin + [|out|])[m] == origin[m] && (out + [x])[origin[m]] == out[origin[m]];
      assert History.Append(rows, row)[|ledger| + m] == rows[|ledger| + m];
    } else {
      assert (origin + [|out|])[m] == |out| && (out + [x])[|out|] == x && History.Append(rows, row)[|ledger| + m] == row;
    }
  }

  /** One turn of the loop: the next job, left alone unless pending. */
  method RunTurn(config: AppConfig, jobs: seq<VideoJob>, worlds: seq<JobWorld>, ledger: seq<History.Record>,
                 ghost seed: int, total: nat, st: RunState)
    returns (st': RunState)
    requires RunInvariant(config, jobs, worlds, ledger, seed, st) && |st.out| < |jobs|
    ensures RunInvariant(config, jobs, worlds, ledger, seed, st') && |st'.out| == |st.out| + 1
  {
    if jobs[|st.out|].status != Pending {
      st' := SkipTurn(config, jobs, worlds, ledger, seed, st);
    } else {
      st' := WorkTurn(config, jobs, worlds, ledger, seed, total, st);
    }
  }

  /** A job that is not pending is carried over as it is. */
  method SkipTurn(config: AppConfig, jobs: seq<VideoJob>, worlds: seq<JobWorld>, ledger: seq<History.Record>,
                  ghost seed: int, st: RunState)
    returns (st': RunState)
    requires RunInvariant(config, jobs, worlds, ledger, seed, st) && |st.out| < |jobs|
    requires jobs[|st.out|].status != Pending
    ensures RunInvariant(config, jobs, worlds, ledger, seed, st') && |st'.out| == |st.out| + 1
  {
    var i := |st.out|;
    var job := jobs[i];
    assert jobs[..i + 1] == jobs[..i] + [job];
    SettledStep(jobs, worlds, st.out, job);
    DoneRecordedStep(config, jobs, st.out, st.rows, st.rows, job);
    OriginsKeep(config, jobs, worlds, st.out, ledger, st.rows, st.origin, job);
    st' := st.(out := st.out + [job]);
  }

  /** A pending job goes through `Step`; a new ledger row is traced back to it. */
  method WorkTurn(config: AppConfig, jobs: seq<VideoJob>, worlds: seq<JobWorld>, ledger: seq<History.Record>,
                  ghost seed: int, total: nat, st: RunState)
    returns (st': RunState)
    requires RunInvariant(config, jobs, worlds, ledger, seed, st) && |st.out| < |jobs|
    requires jobs[|st.out|].status == Pending
    ensures RunInvariant(config, jobs, worlds, ledger, seed, st') && |st'.out| == |st.out| + 1
  {
    var i := |st.out|;
    var done, more, rows', nextSeq' :=
      Step(config, ledger, seed, jobs[i], CountPending(jobs[..i]), total, st.rows, st.nextSeq, worlds[i]);
    var origin := if |rows'| > |st.rows| then st.origin + [i] else st.origin;
    assert |rows'| > |st.rows| ==> RecordedBy(config, jobs[i], worlds[i], done, rows'[|st.rows|]);
    WorkTurnKeeps(config, jobs, worlds, ledger, seed, st, done, more, rows', nextSeq');
    st' := RunState(st.out + [done], st.events + more, rows', nextSeq', origin);
  }

  /** A pending job's two progress units keep the count at two per pending job so far. */
  lemma PendingProgressStep(jobs: seq<VideoJob>, i: nat, events: seq<Event>, more: seq<Event>)
    requires i < |jobs| && jobs[i].status == Pending
    requires ProgressTotal(events) == 2 * CountPending(jobs[..i]) && ProgressTotal(more) == 2
    ensures ProgressTotal(events + more) == 2 * CountPending(jobs[..i + 1])
  {
    assert jobs[..i + 1][..i] == jobs[..i];
    EventsAppend(events, more);
  }

  /** What `Step` promises about a pending job carries the loop's invariant over to the next turn. */
  lemma WorkTurnKeeps(config: AppConfig, jobs: seq<VideoJob>, worlds: seq<JobWorld>, ledger: seq<History.Record>,
                      seed: int, st: RunState, done: VideoJob, more: seq<Event>, rows': seq<History.Record>, nextSeq': int)
    requires RunInvariant(config, jobs, worlds, ledger, seed, st) && |st.out| < |jobs|
    requires jobs[|st.out|].status == Pending
    requires Settled(jobs[|st.out|], done, worlds[|st.out|]) && ProgressTotal(more) == 2
    requires RowsFit(config, ledger, seed, rows')
    requires nextSeq' == History.NextSequentialNumber(rows', config.prefix)
    requires nextSeq' == seed + (if config.namingMode == Sequential then |rows'| - |ledger| else 0)
    requires done.status == Done ==> History.IsAlreadyProcessed(rows', jobs[|st.out|].path, config.prefix, ModeValue(config))
    requires |st.rows| <= |rows'| && (|rows'| == |st.rows| ==> rows' == st.rows)
    requires |rows'| > |st.rows| ==>
               rows' == History.Append(st.rows, rows'[|st.rows|])
               && RecordedBy(config, jobs[|st.out|], worlds[|st.out|], done, rows'[|st.rows|])
    ensures RunInvariant(config, jobs, worlds, ledger, seed,
                         RunState(st.out + [done], st.events + more, rows', nextSeq',
                                  if |rows'| > |st.rows| then st.origin + [|st.out|] else st.origin))
  {
    if |rows'| > |st.rows| {
      TurnWithRow(config, jobs, worlds, ledger, seed, st, done, more, rows', nextSeq');
    } else {
      TurnWithoutRow(config, jobs, worlds, ledger, seed, st, done, more, rows', nextSeq');
    }
  }

  /** A turn that appended a row: the row is traced back to the job. */
  lemma TurnWithRow(config: AppConfig, jobs: seq<VideoJob>, worlds: seq<JobWorld>, ledger: seq<History.Record>,
                      seed: int, st: RunState, done: VideoJob, more: seq<Event>, rows': seq<History.Record>, nextSeq': int)
    requires RunInvariant(config, jobs, worlds, ledger, seed, st) && |st.out| < |jobs|
    requires jobs[|st.out|].status == Pending
    requires Settled(jobs[|st.out|], done, worlds[|st.out|]) && ProgressTotal(more) == 2
    requires RowsFit(config, ledger, seed, rows')
    requires nextSeq' == History.NextSequentialNumber(rows', config.prefix)
    requires nextSeq' == seed + (if config.namingMode == Sequential then |rows'| - |ledger| else 0)
    requires done.status == Done ==> History.IsAlreadyProcessed(rows', jobs[|st.out|].path, config.prefix, ModeValue(config))
    requires |rows'| > |st.rows| && rows' == History.Append(st.rows, rows'[|st.rows|])
    requires RecordedBy(config, jobs[|st.out|], worlds[|st.out|], done, rows'[|st.rows|])
    ensures RunInvariant(config, jobs, worlds, ledger, seed,
                         RunState(st.out + [done], st.events + more, rows', nextSeq', st.origin + [|st.out|]))
  {
    SettledStep(jobs, worlds, st.out, done);
    DoneRecordedStep(config, jobs, st.out, st.rows, rows', done);
    PendingProgressStep(jobs, |st.out|, st.events, more);
    OriginsGrow(config, jobs, worlds, st.out, ledger, st.rows, st.origin, done, rows'[|st.rows|]);
    InvariantOfParts(config, jobs, worlds, ledger, seed,
                     RunState(st.out + [done], st.events + more, rows', nextSeq', st.origin + [|st.out|]));
  }

  /** A turn that left the ledger alone keeps every row's origin. */
  lemma TurnWithoutRow(config: AppConfig, jobs: seq<VideoJob>, worlds: seq<JobWorld>, ledger: seq<History.Record>,
                      seed: int, st: RunState, done: VideoJob, more: seq<Event>, rows': seq<History.Record>, nextSeq': int)
    requires RunInvariant(config, jobs, worlds, ledger, seed, st) && |st.out| < |jobs|
    requires jobs[|st.out|].status == Pending
    requires Settled(jobs[|st.out|], done, worlds[|st.out|]) && ProgressTotal(more) == 2
    requires RowsFit(config, ledger, seed, rows')
    requires nextSeq' == History.NextSequentialNumber(rows', config.prefix)
    requires nextSeq' == seed + (if config.namingMode == Sequential then |rows'| - |ledger| else 0)
    requires done.status == Done ==> History.IsAlreadyProcessed(rows', jobs[|st.out|].path, config.prefix, ModeValue(config))
    requires rows' == st.rows
    ensures RunInvariant(config, jobs, worlds, ledger, seed,
                         RunState(st.out + [done], st.events + more, rows', nextSeq', st.origin))
  {
    SettledStep(jobs, worlds, st.out, done);
    DoneRecordedStep(config, jobs, st.out, st.rows, rows', done);
    PendingProgressStep(jobs, |st.out|, st.events, more);
    OriginsKeep(config, jobs, worlds, st.out, ledger, st.rows, st.origin, done);
    InvariantOfParts(config, jobs, worlds, ledger, seed, RunState(st.out + [done], st.events + more, rows', nextSeq', st.origin));
  }

  /** The loop's invariant, assembled from its parts. */
  lemma InvariantOfParts(config: AppConfig, jobs: seq<VideoJob>, worlds: seq<JobWorld>, ledger: seq<History.Record>,
                         seed: int, st: RunState)
    requires JobsSettled(jobs, worlds, st.out)
    requires ProgressTotal(st.events) == 2 * CountPending(jobs[..|st.out|])
    requires RowsFit(config, ledger, seed, st.rows)
    requires st.nextSeq == History.NextSequentialNumber(st.rows, config.prefix)
    requires st.nextSeq == seed + (if config.namingMode == Sequential then |st.rows| - |ledger| else 0)
    requires DoneRecorded(config, jobs, st.out, st.rows)
    requires Origins(config, jobs, worlds, st.out, ledger, st.rows, st.origin)
    ensures RunInvariant(config, jobs, worlds, ledger, seed, st)
  {
  }

  /**
   * The `try` block of `run_pipeline`: every job in order, pending ones through `ProcessJob`, then the
   * closing label and log line. `origin` names, for each new row, the job it records.
   */
  method RunJobs(config: AppConfig, jobs: seq<VideoJob>, worlds: seq<JobWorld>, ledger: seq<History.Record>)
    returns (jobs': seq<VideoJob>, events: seq<Event>, rows: seq<History.Record>, origin: seq<int>)
    requires |worlds| == |jobs|
    ensures |jobs'| == |jobs| && forall k :: 0 <= k < |jobs| ==> Settled(jobs[k], jobs'[k], worlds[k])
    ensures ProgressTotal(events) == 2 * CountPending(jobs)
    ensures |events| >= 2 && events[|events| - 2..] == [StatusLabelSet(DoneLabel), Log(AllCompletedMsg, SuccessLevel)]
    ensures RowsFit(config, ledger, History.NextSequentialNumber(ledger, config.prefix), rows)
    ensures History.NextSequentialNumber(rows, config.prefix) ==
              History.NextSequentialNumber(ledger, config.prefix)
              + (if config.namingMode == Sequential then |rows| - |ledger| else 0)
    ensures DoneRecorded(config, jobs, jobs', rows)
    ensures Origins(config, jobs, worlds, jobs', ledger, rows, origin)
  {
    var total := CountPending(jobs);
    ghost var seed := History.NextSequentialNumber(ledger, config.prefix);
    var st := RunState([], [], ledger, History.NextSequentialNumber(ledger, config.prefix), []);
    while |st.out| < |jobs|
      invariant RunInvariant(config, jobs, worlds, ledger, seed, st)
      decreases |jobs| - |st.out|
    {
      st := RunTurn(config, jobs, worlds, ledger, seed, total, st);
    }
    assert jobs[..|jobs|] == jobs;
    jobs', rows, origin := st.out, st.rows, st.origin;
    var tail := [StatusLabelSet(DoneLabel), Log(AllCompletedMsg, SuccessLevel)];
    QuietEvents(tail);
    EventsAppend(st.events, tail);
    events := st.events + tail;
  }

  /**
   * `run_pipeline`. `worlds[k]` is what the outside world does when job k is attempted, `exporterInit`
   * whether building the exporter raises, and `ledger` the rows on disk. With no pending job nothing is
   * built or opened; a failing exporter ends the run before the ledger is opened. `conn` is the ledger
   * connection the run opened, if any: the `finally` block has closed it, over the rows the run committed.
   */
  method RunPipeline(config: AppConfig, jobs: seq<VideoJob>, worlds: seq<JobWorld>, exporterInit: Outcome<()>,
                     ledger: seq<History.Record>)
    returns (jobs': seq<VideoJob>, events: seq<Event>, rows: seq<History.Record>,
             conn: Option<History.Connection>, fatal: Option<string>, origin: seq<int>)
    requires |worlds| == |jobs|
    ensures CountPending(jobs) == 0 ==> jobs' == jobs && events == [] && rows == ledger && conn == None && fatal == None
    ensures CountPending(jobs) > 0 && exporterInit.Raised? ==>
              jobs' == jobs && events == [] && rows == ledger && conn == None && fatal == Some(exporterInit.message)
    ensures CountPending(jobs) > 0 && exporterInit.Ok? ==> conn.Some? && fatal == None
    ensures conn.Some? ==> !conn.value.isOpen && conn.value.rows == rows
    ensures |jobs'| == |jobs|
    ensures fatal == None ==> forall k :: 0 <= k < |jobs| ==> Settled(jobs[k], jobs'[k], worlds[k])
    ensures fatal == None ==> ProgressTotal(events) == 2 * CountPending(jobs)
    ensures conn.Some? ==>
              |events| >= 2 && events[|events| - 2..] == [StatusLabelSet(DoneLabel), Log(AllCompletedMsg, SuccessLevel)]
    ensures RowsFit(config, ledger, History.NextSequentialNumber(ledger, config.prefix), rows)
    ensures DoneRecorded(config, jobs, jobs', rows)
    ensures Origins(config, jobs, worlds, jobs', ledger, rows, origin)
  {
    jobs', events, rows, conn, fatal, origin := jobs, [], ledger, None, None, [];
    if CountPending(jobs) == 0 {
      assert forall k :: 0 <= k < |jobs| ==> jobs[k].status != Pending by {
        PendingCounted(jobs);
      }
      return;
    }
    if exporterInit.Raised? {
      fatal := Some(exporterInit.message);
      return;
    }
    var history := History.Open(ledger);
    jobs', events, rows, origin := RunJobs(config, jobs, worlds, history.rows);
    conn := Some(History.Close(history.(rows := rows)));
  }

  /** A job list with no pending job has no job in PENDING. */
  lemma {:induction false} PendingCounted(jobs: seq<VideoJob>)
    ensures CountPending(jobs) == 0 <==> forall k :: 0 <= k < |jobs| ==> jobs[k].status != Pending
  {
    if |jobs| > 0 {
      var init := jobs[..|jobs| - 1];
      PendingCounted(init);
      assert forall k :: 0 <= k < |init| ==> init[k] == jobs[k];
    }
  }

  /** Appending a committed row keeps the ledger fitting and the counter in step with it. */
  lemma RecordFits(config: AppConfig, ledger: seq<History.Record>, seed: int, rows: seq<History.Record>,
                   row: History.Record, nextSeq: int)
    requires RowsFit(config, ledger, seed, rows)
    requires nextSeq == History.NextSequentialNumber(rows, config.prefix)
    requires nextSeq == seed + (if config.namingMode == Sequential then |rows| - |ledger| else 0)
    requires NewRowFits(config, seed, |rows| - |ledger|, rows, row)
    ensures RowsFit(config, ledger, seed, History.Append(rows, row))
    ensures History.NextSequentialNumber(History.Append(rows, row), config.prefix)
              == nextSeq + (if config.namingMode == Sequential then 1 else 0)
  {
    var all := History.Append(rows, row);
    assert all[..|all| - 1] == rows;
    if config.namingMode == Sequential {
      History.NextSequentialAfterRecord(rows, row, config.prefix);
    } else {
      History.NextSequentialIgnoresOthers(rows, row, config.prefix);
    }
  }

  /**
   * What the run's ledger promises: the rows it added never repeat a source (for the run's prefix and output
   * mode) nor a title, and in sequential mode they carry consecutive numbers.
   */
  lemma AddedRowsDistinct(config: AppConfig, ledger: seq<History.Record>, seed: int, rows: seq<History.Record>,
                          m: nat, n: nat)
    requires RowsFit(config, ledger, seed, rows) && |ledger| <= m < n < |rows|
    ensures rows[m].sourcePath != rows[n].sourcePath
    ensures rows[m].outputTitle != rows[n].outputTitle
    ensures config.namingMode == Sequential ==>
              rows[m].sequentialNumber == Some(seed + m - |ledger|) && rows[n].sequentialNumber == Some(seed + n - |ledger|)
  {
    RowsFitAt(config, ledger, seed, rows, m);
    RowsFitAt(config, ledger, seed, rows, n);
    EarlierRowSeen(rows[..n], m, rows[n], ModeValue(config));
    AddedTitlesDistinct(config, ledger, seed, rows, m, n);
  }

  /** Two rows the run added carry different titles: consecutive numbers, or a title free of every earlier one. */
  lemma AddedTitlesDistinct(config: AppConfig, ledger: seq<History.Record>, seed: int, rows: seq<History.Record>,
                            m: nat, n: nat)
    requires RowsFit(config, ledger, seed, rows) && |ledger| <= m < n < |rows|
    ensures rows[m].outputTitle != rows[n].outputTitle
  {
    if config.namingMode == Sequential {
      NumberedTitlesDistinct(config, ledger, seed, rows, m, n);
    } else {
      FreeTitlesDistinct(config, ledger, seed, rows, m, n);
    }
  }

  lemma NumberedTitlesDistinct(config: AppConfig, ledger: seq<History.Record>, seed: int, rows: seq<History.Record>,
                               m: nat, n: nat)
    requires RowsFit(config, ledger, seed, rows) && |ledger| <= m < n < |rows| && config.namingMode == Sequential
    ensures rows[m].outputTitle != rows[n].outputTitle
  {
    RowsFitAt(config, ledger, seed, rows, m);
    RowsFitAt(config, ledger, seed, rows, n);
    assert rows[m].outputTitle == NumberedTitle(config.prefix, seed + m - |ledger| + 1);
    assert rows[n].outputTitle == NumberedTitle(config.prefix, seed + n - |ledger| + 1);
    NumberedTitleInjective(config.prefix, seed + m - |ledger| + 1, seed + n - |ledger| + 1);
  }

  lemma FreeTitlesDistinct(config: AppConfig, ledger: seq<History.Record>, seed: int, rows: seq<History.Record>,
                           m: nat, n: nat)
    requires RowsFit(config, ledger, seed, rows) && |ledger| <= m < n < |rows| && config.namingMode == Original
    ensures rows[m].outputTitle != rows[n].outputTitle
  {
    RowsFitAt(config, ledger, seed, rows, m);
    RowsFitAt(config, ledger, seed, rows, n);
    EarlierRowSeen(rows[..n], m, rows[n], ModeValue(config));
    FirstFreeIsFirstFreeTitle(History.UsedTitles(rows[..n], ModeValue(config)), BuildDocTitle(config, rows[n].sourcePath, 0));
  }

  /**
   * The sequential numbering as written: on a ledger with no numbered row for the prefix, the first row a
   * run adds records number 1 but is titled `prefix_2`, because the title adds one to a counter that
   * already starts at 1.
   */
  lemma FirstSequentialTitle(config: AppConfig, ledger: seq<History.Record>, rows: seq<History.Record>)
    requires config.namingMode == Sequential
    requires History.NextSequentialNumber(ledger, config.prefix) == 1
    requires RowsFit(config, ledger, 1, rows) && |rows| > |ledger|
    ensures rows[|ledger|].sequentialNumber == Some(1)
    ensures rows[|ledger|].outputTitle == config.prefix + "_2"
  {
    RowsFitAt(config, ledger, 1, rows, |ledger|);
    assert IntToString(2) == "2";
  }

  /** A row with the run's prefix and mode, followed by a new row for that prefix and mode, differs from it in source and in title. */
  lemma EarlierRowSeen(before: seq<History.Record>, m: nat, row: History.Record, mode: string)
    requires m < |before| && before[m].prefix == row.prefix && before[m].outputMode == row.outputMode == mode
    requires !History.IsAlreadyProcessed(before, row.sourcePath, row.prefix, row.outputMode)
    ensures before[m].sourcePath != row.sourcePath
    ensures before[m].outputTitle in History.UsedTitles(before, mode)
  {
    var r := before[m];
    History.IsAlreadyProcessedFinds(before, row.sourcePath, row.prefix, row.outputMode);
    History.OutputTitleExistsFinds(before, r.outputTitle, mode);
    History.UsedTitlesAnswersQuery(before, mode, r.outputTitle);
  }
}

=== FILE: text.dfy ===
/** Character and string helpers: Python's `str()` of an integer, `rfind`, and ASCII `lower()`. */
module Text {
  import opened Common

  predicate IsDigit(c: char) {
    '0' <= c <= '9'
  }

  predicate AllDigits(s: string) {
    forall i :: 0 <= i < |s| ==> IsDigit(s[i])
  }

  function DigitChar(d: nat): (c: char)
    requires d < 10
    ensures IsDigit(c)
  {
    ('0' as int + d) as char
  }

  function DigitValue(c: char): (d: nat)
    requires IsDigit(c)
    ensures d < 10
  {
    c as int - '0' as int
  }

  /** Python's `str(n)` for a non-negative integer: the shortest decimal numeral. */
  function NatToString(n: nat): (s: string)
    ensures 1 <= |s| && IsDigit(s[0])
  {
    if n < 10 then [DigitChar(n)] else NatToString(n / 10) + [DigitChar(n % 10)]
  }

  /** The numeral is made of digits only. */
  lemma {:induction false} NatToStringDigits(n: nat)
    ensures AllDigits(NatToString(n))
  {
    if n >= 10 {
      NatToStringDigits(n / 10);
      var s := NatToString(n);
      assert s == NatToString(n / 10) + [DigitChar(n % 10)];
      assert forall i :: 0 <= i < |s| - 1 ==> s[i] == NatToString(n / 10)[i];
    }
  }

  /** The value of a decimal numeral, most significant digit first. */
  function DigitsValue(s: string): nat
    requires AllDigits(s)
  {
    if |s| == 0 then 0 else 10 * DigitsValue(s[..|s| - 1]) + DigitValue(s[|s| - 1])
  }

  /** Reading back a printed natural number yields that number. */
  lemma {:induction false} DigitsValueOfNatToString(n: nat)
    ensures AllDigits(NatToString(n)) && DigitsValue(NatToString(n)) == n
  {
    NatToStringDigits(n);
    if n >= 10 {
      var s := NatToString(n);
      assert s[..|s| - 1] == NatToString(n / 10);
      DigitsValueOfNatToString(n / 10);
    }
  }

  lemma NatToStringInjective(a: nat, b: nat)
    ensures NatToString(a) == NatToString(b) ==> a == b
  {
    DigitsValueOfNatToString(a);
    DigitsValueOfNatToString(b);
  }

  /** Python's `str(i)` for any integer: a minus sign before negative numbers. */
  function IntToString(i: int): (s: string)
    ensures 1 <= |s|
    ensures i >= 0 ==> IsDigit(s[0])
    ensures i < 0 ==> s[0] == '-'
  {
    if i < 0 then "-" + NatToString(-i) else NatToString(i)
  }

  /** Distinct integers print differently, so numbered names never collide. */
  lemma IntToStringInjective(a: int, b: int)
    ensures IntToString(a) == IntToString(b) ==> a == b
  {
    if IntToString(a) == IntToString(b) {
      if a < 0 && b < 0 {
        assert NatToString(-a) == IntToString(a)[1..];
        assert NatToString(-b) == IntToString(b)[1..];
        NatToStringInjective(-a, -b);
      } else if a >= 0 && b >= 0 {
        NatToStringInjective(a, b);
      }
    }
  }

  /** Two strings with the same head and tail are equal when their whole texts are. */
  lemma CancelAffixes(a: string, x: string, y: string, e: string)
    requires a + x + e == a + y + e
    ensures x == y
  {
    assert |x| == |y|;
    assert x == (a + x + e)[|a|..|a| + |x|];
    assert y == (a + y + e)[|a|..|a| + |y|];
  }

  /** Python's `s.rfind(c)`: the index of the last occurrence of `c`, if any. */
  function LastIndexOf(s: string, c: char): Option<nat> {
    if |s| == 0 then None
    else if s[|s| - 1] == c then Some(|s| - 1)
    else LastIndexOf(s[..|s| - 1], c)
  }

  /** `rfind` finds nothing exactly when `c` is absent, and otherwise an occurrence with none after it. */
  lemma {:induction false} LastIndexOfFinds(s: string, c: char)
    ensures LastIndexOf(s, c).None? <==> c !in s
    ensures LastIndexOf(s, c).Some? ==> LastIndexOf(s, c).value < |s| && s[LastIndexOf(s, c).value] == c
    ensures LastIndexOf(s, c).Some? ==> forall j :: LastIndexOf(s, c).value < j < |s| ==> s[j] != c
  {
    if |s| > 0 && s[|s| - 1] != c {
      var init := s[..|s| - 1];
      LastIndexOfFinds(init, c);
      assert s == init + [s[|s| - 1]];
      assert forall j :: 0 <= j < |init| ==> init[j] == s[j];
    }
  }

  /** Python's `s.find(c)`: the index of the first occurrence of `c`, if any. */
  function FirstIndexOf(s: string, c: char): Option<nat> {
    if |s| == 0 then None
    else if s[0] == c then Some(0)
    else match FirstIndexOf(s[1..], c)
      case None => None
      case Some(i) => Some(i + 1)
  }

  /** `find` finds nothing exactly when `c` is absent, and otherwise an occurrence with none before it. */
  lemma {:induction false} FirstIndexOfFinds(s: string, c: char)
    ensures FirstIndexOf(s, c).None? <==> c !in s
    ensures FirstIndexOf(s, c).Some? ==> FirstIndexOf(s, c).value < |s| && s[FirstIndexOf(s, c).value] == c
    ensures FirstIndexOf(s, c).Some? ==> forall j :: 0 <= j < FirstIndexOf(s, c).value ==> s[j] != c
  {
    if |s| > 0 && s[0] != c {
      var tail := s[1..];
      FirstIndexOfFinds(tail, c);
      assert s == [s[0]] + tail;
      assert forall j :: 0 <= j < |tail| ==> tail[j] == s[j + 1];
    }
  }

  /** The first line end after a single-line text is the one that follows it. */
  lemma {:induction false} FirstNewline(line: string, more: string)
    requires '\n' !in line
    ensures FirstIndexOf(line + "\n" + more, '\n') == Some(|line|)
  {
    if |line| > 0 {
      FirstNewline(line[1..], more);
      assert (line + "\n" + more)[1..] == line[1..] + "\n" + more;
    }
  }

  /** Membership of a string in a fixed list, as Python's `x in {...}` on a set of strings. */
  predicate Listed(x: string, items: seq<string>) {
    |items| > 0 && (items[0] == x || Listed(x, items[1..]))
  }

  /** The recursive test is plain membership. */
  lemma {:induction false} ListedIsMembership(x: string, items: seq<string>)
    ensures Listed(x, items) <==> x in items
  {
    if |items| > 0 {
      ListedIsMembership(x, items[1..]);
      assert items == [items[0]] + items[1..];
    }
  }

  function LowerChar(c: char): char {
    if 'A' <= c <= 'Z' then (c as int + ('a' as int - 'A' as int)) as char else c
  }

  /** `str.lower()`, restricted to ASCII letters. */
  function Lower(s: string): (r: string)
    ensures |r| == |s|
    ensures forall i :: 0 <= i < |s| ==> r[i] == LowerChar(s[i])
  {
    seq(|s|, i requires 0 <= i < |s| => LowerChar(s[i]))
  }

  lemma LowerIdempotent(s: string)
    ensures Lower(Lower(s)) == Lower(s)
  {
  }
}

=== FILE: transcription.dfy ===
/**
 * The media-to-text adapter: whether to shrink a video to audio first, which advisory it
 * reports, which transcript field of the speech service's answer it returns, and the
 * temporary directory it must always remove.
 */
module Transcription {
  import opened Common
  import opened Text
  import opened Paths

  /** `AUDIO_EXTENSIONS`. */
  const AudioExtensions: seq<string> := [".mp3", ".wav", ".ogg", ".flac", ".m4a", ".opus", ".wma"]

  /** `_is_audio_file`: the lower-cased suffix is an audio extension. */
  predicate IsAudioFile(path: string) {
    Listed(Lower(Suffix(path)), AudioExtensions)
  }

  /** Upper-case and lower-case spellings of an extension are treated alike. */
  lemma AudioCheckIgnoresCase(dir: string, stem: string, ext: string)
    requires |stem| > 0 && '/' !in stem
    requires 2 <= |ext| && ext[0] == '.' && '/' !in ext && '.' !in ext[1..]
    ensures IsAudioFile(Join(dir, stem + ext)) <==> Listed(Lower(ext), AudioExtensions)
    ensures IsAudioFile(Join(dir, stem + ext)) == IsAudioFile(Join(dir, stem + Lower(ext)))
  {
    JoinedFileParts(dir, stem, ext);
    var lo := Lower(ext);
    assert '.' !in lo[1..] by {
      forall j | 0 <= j < |lo| - 1 ensures lo[1..][j] != '.' {
        assert lo[1..][j] == LowerChar(ext[1..][j]);
      }
    }
    assert '/' !in lo by {
      forall j | 0 <= j < |lo| ensures lo[j] != '/' {
        assert lo[j] == LowerChar(ext[j]);
      }
    }
    JoinedFileParts(dir, stem, lo);
    LowerIdempotent(ext);
  }

  /** The speech service's first alternative: an optional paragraphs object and a flat transcript. */
  datatype Paragraphs = Paragraphs(transcript: Option<string>)
  datatype Alternative = Alternative(paragraphs: Option<Paragraphs>, transcript: Option<string>)

  /** `alt.paragraphs and alt.paragraphs.transcript`: a paragraphs object with non-empty text. */
  predicate HasParagraphText(alt: Alternative) {
    alt.paragraphs.Some? && alt.paragraphs.value.transcript.Some? && alt.paragraphs.value.transcript.value != ""
  }

  /** Result selection: the paragraph-joined text if non-empty, else the flat text if non-empty, else "". */
  function SelectTranscript(alt: Alternative): (text: string)
    ensures HasParagraphText(alt) ==> text == alt.paragraphs.value.transcript.value
    ensures text != "" ==>
              (alt.paragraphs.Some? && alt.paragraphs.value.transcript == Some(text)) || alt.transcript == Some(text)
    ensures text == "" <==> !HasParagraphText(alt) && (alt.transcript.None? || alt.transcript.value == "")
  {
    if HasParagraphText(alt) then
      alt.paragraphs.value.transcript.value
    else if alt.transcript.Some? then alt.transcript.value
    else ""
  }

  /** The host and the outside services as seen by one call: each step either works or raises. */
  datatype World = World(
    ffmpegAvailable: bool,
    extraction: Outcome<()>,
    stat: Outcome<()>,
    read: Outcome<()>,
    service: Outcome<Alternative>)

  /** Status messages reported through `on_status`; file sizes are not modelled. */
  datatype Note = Extracting | Extracted | FfmpegMissing | SendingAudio | UploadingToService

  /** The text of a note, with the sizes in MB left out. */
  function NoteText(n: Note): string {
    match n
    case Extracting => "Extracting audio track (ffmpeg)..."
    case Extracted => "Audio extracted"
    case FfmpegMissing => "ffmpeg not found \U{2014} sending raw video. Install ffmpeg for faster uploads."
    case SendingAudio => "Sending audio file..."
    case UploadingToService => "Uploading to Deepgram..."
  }

  /** One call of `transcribe`: the notes it reported, its result, and the temporary directory's fate. */
  datatype AdapterRun = AdapterRun(notes: seq<Note>, result: Outcome<string>, tempCreated: bool, tempRemoved: bool)

  /** `use_ffmpeg`: extract only when the file is not audio and ffmpeg is installed. */
  function UseFfmpeg(path: string, w: World): bool {
    !IsAudioFile(path) && w.ffmpegAvailable
  }

  /** The steps after the source bytes are chosen: upload note, read, service call, result selection. */
  function Upload(notes: seq<Note>, w: World, temp: bool): AdapterRun {
    var notes' := notes + [UploadingToService];
    if w.read.Raised? then AdapterRun(notes', Raised(w.read.message), temp, temp)
    else if w.service.Raised? then AdapterRun(notes', Raised(w.service.message), temp, temp)
    else AdapterRun(notes', Ok(SelectTranscript(w.service.value)), temp, temp)
  }

  /** The message of the first step that raises along the path the file takes. */
  function FirstFailure(audio: bool, w: World): string {
    var extract := !audio && w.ffmpegAvailable;
    if extract && w.extraction.Raised? then w.extraction.message
    else if !extract && w.stat.Raised? then w.stat.message
    else if w.read.Raised? then w.read.message
    else if w.service.Raised? then w.service.message
    else ""
  }

  /** The body of `transcribe` once `_is_audio_file` has been decided. */
  function TranscribeDecided(audio: bool, w: World): (r: AdapterRun)
    ensures r.tempCreated <==> !audio && w.ffmpegAvailable
    ensures r.tempRemoved == r.tempCreated
    ensures (Extracting in r.notes) <==> !audio && w.ffmpegAvailable
    ensures (FfmpegMissing in r.notes) <==> !audio && !w.ffmpegAvailable && w.stat.Ok?
    ensures (SendingAudio in r.notes) <==> audio && w.stat.Ok?
    ensures r.result.Ok? <==>
              (if !audio && w.ffmpegAvailable then w.extraction.Ok? else w.stat.Ok?) && w.read.Ok? && w.service.Ok?
    ensures r.result.Ok? ==> r.result.value == SelectTranscript(w.service.value)
    ensures r.result.Raised? ==> r.result.message == FirstFailure(audio, w)
  {
    if !audio && w.ffmpegAvailable then
      if w.extraction.Raised? then AdapterRun([Extracting], Raised(w.extraction.message), true, true)
      else Upload([Extracting, Extracted], w, true)
    else if w.stat.Raised? then AdapterRun([], Raised(w.stat.message), false, false)
    else if !audio then Upload([FfmpegMissing], w, false)
    else Upload([SendingAudio], w, false)
  }

  /** `transcribe`, with its `finally` removing the temporary directory whenever one was made. */
  function Transcribe(path: string, w: World): AdapterRun
  {
    TranscribeDecided(IsAudioFile(path), w)
  }
}

=== FILE: transcription_routes.dfy ===
/**
 * The `/transcription` routes: starting a run over uploaded files, the background task that turns the
 * pipeline's callbacks into queue items, and the Server-Sent Events stream that drains the queue.
 * The queue is the list of items the task puts, and what the stream reads from it is a list of arrivals
 * (an item, a wait that timed out, or a failure); JSON encoding of the item payloads is not modelled.
 */
module TranscriptionRoutes {
  import opened Common
  import opened Text
  import opened Models
  import History
  import Pipeline
  import opened ConfigStore
  import opened ApiState

  // ---------------------------------------------------------------------------------------------
  // Queue items
  // ---------------------------------------------------------------------------------------------

  /**
   * One dictionary put on the session's queue. A status change carries a snapshot of the job, the
   * serialisation the stream's `job_status` events are meant to hold.
   */
  datatype QueueItem =
    | LogItem(message: string, level: string)
    | JobStatusItem(job: VideoJob)
    | ProgressItem(steps: int)
    | StatusLabelItem(text: string)
    | DoneItem

  /** The item's `"type"` key, which also names its event in the stream. */
  function ItemType(item: QueueItem): string {
    match item
    case LogItem(_, _) => "log"
    case JobStatusItem(_) => "job_status"
    case ProgressItem(_) => "progress"
    case StatusLabelItem(_) => "status_label"
    case DoneItem => "done"
  }

  /** The type names tell the five kinds of item apart. */
  lemma ItemTypeNamesKind(a: QueueItem, b: QueueItem)
    ensures ItemType(a) == ItemType(b) <==>
              (a.LogItem? && b.LogItem?) || (a.JobStatusItem? && b.JobStatusItem?) || (a.ProgressItem? && b.ProgressItem?)
              || (a.StatusLabelItem? && b.StatusLabelItem?) || (a.DoneItem? && b.DoneItem?)
  {
    var names := ["log", "job_status", "progress", "status_label", "done"];
    assert ItemType(a) in names && ItemType(b) in names;
    if ItemType(a) == ItemType(b) {
      assert ItemType(a)[0] == ItemType(b)[0];
      assert |ItemType(a)| == |ItemType(b)|;
    }
  }

  /** What `SSECallbacks` puts on the queue for one pipeline callback. */
  function ToItem(e: Pipeline.Event): QueueItem {
    match e
    case Log(message, level) => LogItem(Pipeline.LogText(message), level.Value())
    case JobStatusChanged(job) => JobStatusItem(job)
    case ProgressAdvance(steps) => ProgressItem(steps)
    case StatusLabelSet(l) => StatusLabelItem(Pipeline.LabelText(l))
  }

  /** The items put for a run's callbacks, in order. */
  function ToItems(events: seq<Pipeline.Event>): seq<QueueItem> {
    if |events| == 0 then [] else [ToItem(events[0])] + ToItems(events[1..])
  }

  /** The sum of the steps of the progress items. */
  function ItemSteps(items: seq<QueueItem>): int {
    if |items| == 0 then 0
    else (if items[0].ProgressItem? then items[0].steps else 0) + ItemSteps(items[1..])
  }

  /** Each callback becomes one item, in order; no callback puts `done`; the progress steps are carried over unchanged. */
  lemma {:induction false} ToItemsFaithful(events: seq<Pipeline.Event>)
    ensures |ToItems(events)| == |events|
    ensures forall i :: 0 <= i < |events| ==> ToItems(events)[i] == ToItem(events[i])
    ensures DoneItem !in ToItems(events)
    ensures ItemSteps(ToItems(events)) == Pipeline.ProgressTotal(events)
  {
    if |events| > 0 {
      ToItemsFaithful(events[1..]);
      var items := ToItems(events);
      assert items == [ToItem(events[0])] + ToItems(events[1..]);
      assert forall i :: 1 <= i < |events| ==> items[i] == ToItems(events[1..])[i - 1];
    }
  }

  /** The closing `done` item adds no progress. */
  lemma {:induction false} ItemStepsDone(items: seq<QueueItem>)
    ensures ItemSteps(items + [DoneItem]) == ItemSteps(items)
  {
    if |items| > 0 {
      assert (items + [DoneItem])[1..] == items[1..] + [DoneItem];
      ItemStepsDone(items[1..]);
    } else {
      assert items + [DoneItem] == [DoneItem];
    }
  }

  /** The items a run puts: one per event, then the single closing `done`, which adds no steps. */
  lemma QueuedItems(events: seq<Pipeline.Event>)
    ensures var items := ToItems(events) + [DoneItem];
            items[|items| - 1] == DoneItem && DoneItem !in items[..|items| - 1]
            && ItemSteps(items) == Pipeline.ProgressTotal(events)
  {
    ToItemsFaithful(events);
    ItemStepsDone(ToItems(events));
    var items := ToItems(events) + [DoneItem];
    assert items[..|items| - 1] == ToItems(events);
  }

  // ---------------------------------------------------------------------------------------------
  // The background task
  // ---------------------------------------------------------------------------------------------

  /** Whether the run is one in which `run_pipeline` returns normally. */
  predicate RunsToEnd(jobs: seq<VideoJob>, exporterInit: Outcome<()>) {
    Pipeline.CountPending(jobs) == 0 || exporterInit.Ok?
  }

  /**
   * `_run_pipeline_with_sse` with a job serialisation that exists: the pipeline's callbacks as items, then
   * `done` from the `finally` block whether or not the run raised, and the session marked done. The jobs
   * the session holds are the ones the pipeline changed in place.
   */
  method RunWithSse(st: State, sid: string, config: AppConfig, jobs: seq<VideoJob>, worlds: seq<Pipeline.JobWorld>,
                    exporterInit: Outcome<()>, ledger: seq<History.Record>)
    returns (items: seq<QueueItem>, events: seq<Pipeline.Event>, jobs': seq<VideoJob>, rows: seq<History.Record>,
             conn: Option<History.Connection>, origin: seq<int>, st': State)
    requires |worlds| == |jobs|
    ensures items == ToItems(events) + [DoneItem]
    ensures |items| > 0 && items[|items| - 1] == DoneItem && DoneItem !in items[..|items| - 1]
    ensures !RunsToEnd(jobs, exporterInit) || Pipeline.CountPending(jobs) == 0 ==> events == []
    ensures conn.Some? ==>
              |events| >= 2
              && events[|events| - 2..] == [Pipeline.StatusLabelSet(Pipeline.DoneLabel), Pipeline.Log(Pipeline.AllCompletedMsg, Pipeline.SuccessLevel)]
    ensures RunsToEnd(jobs, exporterInit) ==> ItemSteps(items) == 2 * Pipeline.CountPending(jobs)
    ensures |jobs'| == |jobs|
    ensures RunsToEnd(jobs, exporterInit) ==> forall k :: 0 <= k < |jobs| ==> Pipeline.Settled(jobs[k], jobs'[k], worlds[k])
    ensures Pipeline.DoneRecorded(config, jobs, jobs', rows)
    ensures conn.Some? <==> Pipeline.CountPending(jobs) > 0 && exporterInit.Ok?
    ensures conn.Some? ==> !conn.value.isOpen && conn.value.rows == rows
    ensures Pipeline.Origins(config, jobs, worlds, jobs', ledger, rows, origin)
    ensures sid !in st.sessions ==> st' == st
    ensures sid in st.sessions ==> st'.sessions == st.sessions[sid := st.sessions[sid].(jobs := jobs', status := "done")]
    ensures st'.uploads == st.uploads && st'.order == st.order && st'.disk == st.disk
  {
    items, events, jobs', rows, conn, origin := QueueRun(config, jobs, worlds, exporterInit, ledger);
    st' := FinishSession(st, sid, jobs');
  }

  /** The items the pipeline's callbacks put on the queue, one per event of the run in order, then the closing `done`. */
  method QueueRun(config: AppConfig, jobs: seq<VideoJob>, worlds: seq<Pipeline.JobWorld>, exporterInit: Outcome<()>,
                  ledger: seq<History.Record>)
    returns (items: seq<QueueItem>, events: seq<Pipeline.Event>, jobs': seq<VideoJob>, rows: seq<History.Record>,
             conn: Option<History.Connection>, origin: seq<int>)
    requires |worlds| == |jobs|
    ensures items == ToItems(events) + [DoneItem]
    ensures |items| > 0 && items[|items| - 1] == DoneItem && DoneItem !in items[..|items| - 1]
    ensures !RunsToEnd(jobs, exporterInit) || Pipeline.CountPending(jobs) == 0 ==> events == []
    ensures conn.Some? ==>
              |events| >= 2
              && events[|events| - 2..] == [Pipeline.StatusLabelSet(Pipeline.DoneLabel), Pipeline.Log(Pipeline.AllCompletedMsg, Pipeline.SuccessLevel)]
    ensures RunsToEnd(jobs, exporterInit) ==> ItemSteps(items) == 2 * Pipeline.CountPending(jobs)
    ensures |jobs'| == |jobs|
    ensures RunsToEnd(jobs, exporterInit) ==> forall k :: 0 <= k < |jobs| ==> Pipeline.Settled(jobs[k], jobs'[k], worlds[k])
    ensures Pipeline.DoneRecorded(config, jobs, jobs', rows)
    ensures conn.Some? <==> Pipeline.CountPending(jobs) > 0 && exporterInit.Ok?
    ensures conn.Some? ==> !conn.value.isOpen && conn.value.rows == rows
    ensures Pipeline.Origins(config, jobs, worlds, jobs', ledger, rows, origin)
  {
    var fatal;
    jobs', events, rows, conn, fatal, origin := Pipeline.RunPipeline(config, jobs, worlds, exporterInit, ledger);
    QueuedItems(events);
    items := ToItems(events) + [DoneItem];
  }

  /** The session, if it still exists, takes the run's jobs and is marked done; nothing else changes. */
  method FinishSession(st: State, sid: string, jobs': seq<VideoJob>) returns (st': State)
    ensures sid !in st.sessions ==> st' == st
    ensures sid in st.sessions ==> st'.sessions == st.sessions[sid := st.sessions[sid].(jobs := jobs', status := "done")]
    ensures st'.uploads == st.uploads && st'.order == st.order && st'.disk == st.disk
  {
    st' := st;
    if sid in st.sessions {
      st' := st.(sessions := st.sessions[sid := st.sessions[sid].(jobs := jobs')]);
    }
    st' := CompleteSession(st', sid);
  }

  /** `str(exc)` for the call of the missing `VideoJob.to_dict`. */
  const ToDictError: string := "'VideoJob' object has no attribute 'to_dict'"

  /**
   * What the task leaves behind as written: the jobs, the items put, the ledger's rows, the ledger
   * connection the run opened (if any), and the exception it ends with.
   */
  datatype SseRun = SseRun(jobs: seq<VideoJob>, items: seq<QueueItem>, rows: seq<History.Record>,
                           conn: Option<History.Connection>, raised: Option<string>)

  function NotPending(jobs: seq<VideoJob>): seq<bool> {
    seq(|jobs|, i requires 0 <= i < |jobs| => jobs[i].status != Pending)
  }

  /** The position of the first pending job. */
  function FirstPending(jobs: seq<VideoJob>): nat {
    FirstFalse(NotPending(jobs))
  }

  lemma FirstPendingFinds(jobs: seq<VideoJob>)
    ensures Pipeline.CountPending(jobs) > 0 <==> FirstPending(jobs) < |jobs|
    ensures FirstPending(jobs) < |jobs| ==> jobs[FirstPending(jobs)].status == Pending
    ensures forall k :: 0 <= k < FirstPending(jobs) && k < |jobs| ==> jobs[k].status != Pending
  {
    var bs := NotPending(jobs);
    FirstFalseFinds(bs);
    Pipeline.PendingCounted(jobs);
    forall k | 0 <= k < FirstPending(jobs) && k < |jobs|
      ensures jobs[k].status != Pending
    {
      assert bs[k];
    }
    if FirstPending(jobs) < |jobs| {
      assert !bs[FirstPending(jobs)];
    }
  }

  /**
   * `_run_pipeline_with_sse` as written: `job.to_dict()` raises `AttributeError` at the first status
   * report. A skipped job has been logged and marked DONE before its report raises; any other job is
   * marked TRANSCRIBING, the report raises inside the job's `try`, the handler marks it ERROR, and the
   * handler's own report raises again. The exception leaves `run_pipeline` (closing the ledger) and the
   * `finally` block still puts `done`.
   */
  function RunWithSseAsWritten(config: AppConfig, jobs: seq<VideoJob>, exporterInit: Outcome<()>,
                               ledger: seq<History.Record>): SseRun {
    if Pipeline.CountPending(jobs) == 0 then SseRun(jobs, [DoneItem], ledger, None, None)
    else if exporterInit.Raised? then SseRun(jobs, [DoneItem], ledger, None, Some(exporterInit.message))
    else
      var closed := Some(History.Close(History.Open(ledger)));
      var p := FirstPending(jobs);
      FirstPendingFinds(jobs);
      var job := jobs[p];
      if Pipeline.Skips(config, job, ledger) then
        var skip := Pipeline.Log(Pipeline.SkippedMsg(job.path, config.prefix), Pipeline.Highlight);
        SseRun(jobs[p := job.(status := Done)], [ToItem(skip), DoneItem], ledger, closed, Some(ToDictError))
      else
        SseRun(jobs[p := job.(status := Error, error := ToDictError)], [DoneItem], ledger, closed, Some(ToDictError))
  }

  /**
   * As written, any run that reaches a pending job aborts at it: no progress reaches the stream, no job
   * status is reported, the ledger gains nothing, the first pending job ends DONE (if skipped) or ERROR
   * with the attribute error, and every other job is left exactly as it was, pending ones still PENDING.
   */
  lemma AsWrittenAbortsRun(config: AppConfig, jobs: seq<VideoJob>, exporterInit: Outcome<()>, ledger: seq<History.Record>)
    requires Pipeline.CountPending(jobs) > 0 && exporterInit.Ok?
    ensures var r := RunWithSseAsWritten(config, jobs, exporterInit, ledger);
            && r.raised == Some(ToDictError)
            && ItemSteps(r.items) == 0
            && (forall i :: 0 <= i < |r.items| ==> !r.items[i].JobStatusItem?)
            && r.items[|r.items| - 1] == DoneItem
            && r.rows == ledger
            && r.conn.Some? && !r.conn.value.isOpen && r.conn.value.rows == ledger
            && |r.jobs| == |jobs| && FirstPending(jobs) < |jobs|
            && (forall k :: 0 <= k < |jobs| && k != FirstPending(jobs) ==> r.jobs[k] == jobs[k])
            && (r.jobs[FirstPending(jobs)].status == Done <==> Pipeline.Skips(config, jobs[FirstPending(jobs)], ledger))
            && (r.jobs[FirstPending(jobs)].status == Error <==> !Pipeline.Skips(config, jobs[FirstPending(jobs)], ledger))
  {
    FirstPendingFinds(jobs);
  }

  /**
   * As written, the ledger is opened exactly when a pending job exists and the exporter was built, and the
   * exception that aborts the run leaves through the pipeline's `finally`, which closes it with no row added.
   */
  lemma AsWrittenClosesLedger(config: AppConfig, jobs: seq<VideoJob>, exporterInit: Outcome<()>, ledger: seq<History.Record>)
    ensures var r := RunWithSseAsWritten(config, jobs, exporterInit, ledger);
            && (r.conn.Some? <==> Pipeline.CountPending(jobs) > 0 && exporterInit.Ok?)
            && (r.conn.Some? ==> !r.conn.value.isOpen && r.conn.value.rows == ledger && r.raised == Some(ToDictError))
            && r.rows == ledger
  {
    if Pipeline.CountPending(jobs) > 0 && exporterInit.Ok? {
      AsWrittenAbortsRun(config, jobs, exporterInit, ledger);
    }
  }

  /** A fresh history and two new uploads: the corrected task reports four progress units, the written one none. */
  lemma AsWrittenTwoFiles()
    ensures var jobs := [NewJob("/tmp/a.mp3"), NewJob("/tmp/b.mp3")];
            var r := RunWithSseAsWritten(DefaultConfig(), jobs, Ok(()), []);
            && Pipeline.CountPending(jobs) == 2
            && r.items == [DoneItem] && ItemSteps(r.items) == 0
            && r.jobs[0].status == Error && r.jobs[0].error == ToDictError
            && r.jobs[1].status == Pending
  {
    var jobs := [NewJob("/tmp/a.mp3"), NewJob("/tmp/b.mp3")];
    assert NotPending(jobs)[0] == false;
    assert Pipeline.CountPending(jobs[..1]) == 1;
  }

  // ---------------------------------------------------------------------------------------------
  // Event framing
  // ---------------------------------------------------------------------------------------------

  /** `_sse_format`: one event of type `t` with one data line, ended by a blank line. */
  function SseFormat(t: string, data: string): string {
    "event: " + t + "\ndata: " + data + "\n\n"
  }

  /** Reads one frame back into its type and data, if it has the layout `SseFormat` writes. */
  function ParseFrame(frame: string): Option<(string, string)> {
    if |frame| < 7 || frame[..7] != "event: " then None
    else
      var rest := frame[7..];
      FirstIndexOfFinds(rest, '\n');
      match FirstIndexOf(rest, '\n')
      case None => None
      case Some(i) =>
        var after := rest[i + 1..];
        if |after| < 8 || after[..6] != "data: " || after[|after| - 2..] != "\n\n" then None
        else
          var data := after[6..|after| - 2];
          if '\n' in data then None else Some((rest[..i], data))
  }

  /**
   * A frame whose type and data hold no line end reads back as exactly that type and data (an event
   * stream's fields end at the first line end, section 9.2 of the WHATWG HTML Living Standard).
   */
  lemma {:induction false} FrameRoundTrip(t: string, data: string)
    requires '\n' !in t && '\n' !in data
    ensures ParseFrame(SseFormat(t, data)) == Some((t, data))
  {
    var frame := SseFormat(t, data);
    var rest := frame[7..];
    assert rest == t + "\n" + ("data: " + data + "\n\n");
    FirstNewline(t, "data: " + data + "\n\n");
    var after := rest[|t| + 1..];
    assert after == "data: " + data + "\n\n";
    assert after[6..|after| - 2] == data;
    assert rest[..|t|] == t;
  }

  /** Two frames written from newline-free fields are equal only if their types and data are. */
  lemma FrameInjective(t1: string, d1: string, t2: string, d2: string)
    requires '\n' !in t1 && '\n' !in d1 && '\n' !in t2 && '\n' !in d2
    ensures SseFormat(t1, d1) == SseFormat(t2, d2) <==> t1 == t2 && d1 == d2
  {
    FrameRoundTrip(t1, d1);
    FrameRoundTrip(t2, d2);
  }

  // ---------------------------------------------------------------------------------------------
  // The progress stream
  // ---------------------------------------------------------------------------------------------

  /** What one wait on the queue gives: an item, a 30-second timeout, or an exception with its text. */
  datatype Arrival = Arrived(item: QueueItem) | TimedOut | Broken(message: string)

  /** The data of a stream event: an item, `{}`, or `{"message": ...}`. */
  datatype Payload = ItemData(item: QueueItem) | NoData | ErrorData(message: string)

  datatype SseEvent = SseEvent(eventType: string, data: Payload)

  /** The event the stream yields for one arrival. */
  function Translate(a: Arrival): SseEvent {
    match a
    case Arrived(item) => if item == DoneItem then SseEvent("done", NoData) else SseEvent(ItemType(item), ItemData(item))
    case TimedOut => SseEvent("ping", NoData)
    case Broken(message) => SseEvent("error", ErrorData(message))
  }

  /** The arrivals after which the stream returns. */
  predicate Stops(a: Arrival) {
    a == Arrived(DoneItem) || a.Broken?
  }

  /** The `while True` loop of `_progress_stream` over the arrivals so far. */
  function Pump(arrivals: seq<Arrival>): seq<SseEvent> {
    if |arrivals| == 0 then []
    else if Stops(arrivals[0]) then [Translate(arrivals[0])]
    else [Translate(arrivals[0])] + Pump(arrivals[1..])
  }

  /**
   * The stream yields one event per arrival, in order, and returns right after the first `done` item or
   * failure: no arrival before the last one yielded stops it, and it stops early only at one that does.
   */
  lemma {:induction false} PumpStopsAtEnd(arrivals: seq<Arrival>)
    ensures |Pump(arrivals)| <= |arrivals|
    ensures forall i :: 0 <= i < |Pump(arrivals)| ==> Pump(arrivals)[i] == Translate(arrivals[i])
    ensures forall i :: 0 <= i < |Pump(arrivals)| - 1 ==> !Stops(arrivals[i])
    ensures |Pump(arrivals)| < |arrivals| ==> |Pump(arrivals)| > 0 && Stops(arrivals[|Pump(arrivals)| - 1])
  {
    if |arrivals| > 0 && !Stops(arrivals[0]) {
      var tail := arrivals[1..];
      PumpStopsAtEnd(tail);
      var out := Pump(arrivals);
      assert out == [Translate(arrivals[0])] + Pump(tail);
      assert forall i :: 1 <= i < |out| ==> out[i] == Pump(tail)[i - 1] && arrivals[i] == tail[i - 1];
    }
  }

  /** The queue as the stream sees it when every wait returns the next item. */
  function Delivered(items: seq<QueueItem>): seq<Arrival> {
    seq(|items|, i requires 0 <= i < |items| => Arrived(items[i]))
  }

  /**
   * A task's items reach the client whole: one event per item, the last one `done`, and every earlier
   * event carrying its item under the item's own type name.
   */
  lemma StreamCarriesRun(items: seq<QueueItem>)
    requires |items| > 0 && items[|items| - 1] == DoneItem && DoneItem !in items[..|items| - 1]
    ensures |Pump(Delivered(items))| == |items|
    ensures Pump(Delivered(items))[|items| - 1] == SseEvent("done", NoData)
    ensures forall i :: 0 <= i < |items| - 1 ==> Pump(Delivered(items))[i] == SseEvent(ItemType(items[i]), ItemData(items[i]))
  {
    var a := Delivered(items);
    PumpStopsAtEnd(a);
    var out := Pump(a);
    forall i | 0 <= i < |items| - 1
      ensures !Stops(a[i])
    {
      assert items[i] in items[..|items| - 1];
    }
    forall i | 0 <= i < |items| - 1
      ensures out[i] == SseEvent(ItemType(items[i]), ItemData(items[i]))
    {
      assert items[i] == items[..|items| - 1][i];
    }
  }

  /** `_progress_stream`: one `error` event for a session that is gone when the stream starts, else the pump. */
  function ProgressStream(st: State, sid: string, arrivals: seq<Arrival>): (events: seq<SseEvent>)
    ensures sid !in st.sessions ==> events == [SseEvent("error", ErrorData("Session not found"))]
    ensures sid in st.sessions ==> |events| <= |arrivals|
    ensures sid in st.sessions ==> forall i :: 0 <= i < |events| ==> events[i] == Translate(arrivals[i])
  {
    if GetSession(st, sid).None? then [SseEvent("error", ErrorData("Session not found"))]
    else
      PumpStopsAtEnd(arrivals);
      Pump(arrivals)
  }

  const EventStream: string := "text/event-stream"

  /** The response headers that turn off caching and proxy buffering. */
  const StreamHeaders: map<string, string> :=
    map["Cache-Control" := "no-cache", "Connection" := "keep-alive", "X-Accel-Buffering" := "no"]

  datatype StreamingResponse = StreamingResponse(mediaType: string, headers: map<string, string>, events: seq<SseEvent>)

  /**
   * `GET /transcription/progress/{session_id}`: 404 for an unknown session, else the event stream.
   * `later` is the state when the stream's generator starts, which may differ from the state the route saw.
   */
  function GetProgress(st: State, later: State, sid: string, arrivals: seq<Arrival>): (r: Http<StreamingResponse>)
    ensures r.HttpError? <==> sid !in st.sessions
    ensures r.HttpError? ==> r.status == 404 && r.detail == "Session not found"
    ensures r.Success? ==>
              r.value.mediaType == "text/event-stream"
              && "Cache-Control" in r.value.headers && r.value.headers["Cache-Control"] == "no-cache"
    ensures r.Success? && sid in later.sessions ==> |r.value.events| <= |arrivals|
  {
    if GetSession(st, sid).None? then HttpError(404, "Session not found")
    else Success(StreamingResponse(EventStream, StreamHeaders, ProgressStream(later, sid, arrivals)))
  }

  // ---------------------------------------------------------------------------------------------
  // Starting a run
  // ---------------------------------------------------------------------------------------------

  /** `FileSpec`: an upload id and the language to transcribe it in. */
  datatype FileSpec = FileSpec(id: string, language: string)

  /** The request validator's detail for an empty `files` list. */
  const EmptyFilesDetail: string := "List should have at least 1 item after validation, not 0"

  function KnownVerdicts(st: State, specs: seq<FileSpec>): seq<bool> {
    seq(|specs|, i requires 0 <= i < |specs| => specs[i].id in st.uploads)
  }

  /** The position of the first spec naming no upload. */
  function FirstUnknown(st: State, specs: seq<FileSpec>): nat {
    FirstFalse(KnownVerdicts(st, specs))
  }

  lemma FirstUnknownFinds(st: State, specs: seq<FileSpec>)
    ensures FirstUnknown(st, specs) <= |specs|
    ensures FirstUnknown(st, specs) < |specs| ==> specs[FirstUnknown(st, specs)].id !in st.uploads
    ensures forall i :: 0 <= i < FirstUnknown(st, specs) ==> specs[i].id in st.uploads
  {
    var bs := KnownVerdicts(st, specs);
    FirstFalseFinds(bs);
    forall i | 0 <= i < FirstUnknown(st, specs)
      ensures specs[i].id in st.uploads
    {
      assert bs[i];
    }
    if FirstUnknown(st, specs) < |specs| {
      assert !bs[FirstUnknown(st, specs)];
    }
  }

  /** The job for one known spec: the upload's path, the spec's language, PENDING. */
  function JobFor(st: State, spec: FileSpec): VideoJob
    requires spec.id in st.uploads
  {
    NewJob(st.uploads[spec.id].path).(language := spec.language)
  }

  function JobsFor(st: State, specs: seq<FileSpec>): seq<VideoJob> {
    seq(|specs|, i requires 0 <= i < |specs| => if specs[i].id in st.uploads then JobFor(st, specs[i]) else NewJob(""))
  }

  /** The new session's id and the state with the session created and its task recorded. */
  datatype Started = Started(sessionId: string, state: State)

  /**
   * `POST /transcription/start`. `f` is the configuration file, `sid` the fresh session id, `queue` and
   * `task` the new queue and background task. An empty list fails validation (422); then a missing speech
   * key is 400; then the first unknown upload id is 404; otherwise one PENDING job per spec, in order.
   */
  function StartTranscription(st: State, f: EnvFile, specs: seq<FileSpec>, sid: string, queue: nat, task: nat)
    : (r: Http<Started>)
    ensures |specs| == 0 ==> r == HttpError(422, EmptyFilesDetail)
    ensures |specs| > 0 && Load(ReadEnv(f)).deepgramApiKey == "" ==> r == HttpError(400, "Deepgram API key not configured")
    ensures |specs| > 0 && Load(ReadEnv(f)).deepgramApiKey != "" && FirstUnknown(st, specs) < |specs| ==>
              r == HttpError(404, "File not found: " + specs[FirstUnknown(st, specs)].id)
    ensures r.Success? <==>
              |specs| > 0 && Load(ReadEnv(f)).deepgramApiKey != "" && forall i :: 0 <= i < |specs| ==> specs[i].id in st.uploads
    ensures r.Success? ==>
              && r.value.sessionId == sid
              && sid in r.value.state.sessions
              && var s := r.value.state.sessions[sid];
              && s.queue == queue && s.task == Some(task) && s.status == "running" && |s.jobs| == |specs|
              && (forall i :: 0 <= i < |specs| ==>
                    && s.jobs[i].path == st.uploads[specs[i].id].path
                    && s.jobs[i].language == specs[i].language && s.jobs[i].status == Pending)
              && (forall other :: other in st.sessions && other != sid ==>
                    other in r.value.state.sessions && r.value.state.sessions[other] == st.sessions[other])
              && r.value.state.uploads == st.uploads && r.value.state.disk == st.disk
  {
    FirstUnknownFinds(st, specs);
    if |specs| == 0 then HttpError(422, EmptyFilesDetail)
    else if Load(ReadEnv(f)).deepgramApiKey == "" then HttpError(400, "Deepgram API key not configured")
    else if FirstUnknown(st, specs) < |specs| then HttpError(404, "File not found: " + specs[FirstUnknown(st, specs)].id)
    else
      var jobs := JobsFor(st, specs);
      Success(Started(sid, SetSessionTask(CreateSession(st, sid, queue, jobs), sid, task)))
  }
}
